=== FILE: README.md ===
# Restricted-content relay bot, modelled in Dafny

The bot relays Telegram messages on behalf of its users. A user sends a
`https://t.me/...` link that names one message or a range of messages. The
bot copies each message to the user. A public channel is copied directly;
otherwise the bot goes through the user's own logged-in session: it fetches
the message, checks the size cap, downloads the file, picks a thumbnail and
a caption, and uploads the file again. A free user may relay ten files per
24-hour window and may not relay files above 2 GiB. Premium users are exempt
from both limits, and an expired premium grant is cleared the moment it is
looked at. A `/cancel` command sets a per-user flag that the range loop and
the transfer progress callback both watch. Administrators ban and unban
users, grant and revoke premium, set dump chats, look at statistics, export
the user list, and broadcast a message to every user (or to premium users
only). The broadcast prunes users who deactivated their account or whose
peer is invalid.

The model is a set of pure functions over immutable values:

- `wrappers.dfy`: `Option`.
- `text.dfy`: the Python string operations the bot relies on:
  - `int()`, `str()`;
  - `split` / `join`;
  - `strip`, `lower`;
  - `replace(pat, "")`;
  - substring tests.
- `user_store.dfy`: the user collection of `database/db.py`, as
  `map<int, UserRecord>`, with every getter, setter, cursor and count.
- `quota.dfy`: `check_limit` and `add_traffic`, the free-tier daily allowance.
- `calendar.dfy`: the `YYYY-MM-DD` expiry argument of `/add_premium` and its
  midnight on the server clock.
- `admin.dfy`: the commands of `Rexbots/admin.py`.
- `broadcast.dfy`: `Rexbots/broadcast.py`: the retrying forward, the
  `/broadcast` loop with its counters and progress edits, and `/users`.
- `formatting.dfy`: `humanbytes` and `TimeFormatter`.
- `progress.dfy`: the throttled, cancellable progress callback.
- `relay.dfy`:
  - `get_message_type`, `send_cancel` and `save`: the link test, the limit
    check, the cancel flag, the range parse, the per-item loop and the three
    link kinds;
  - `handle_restricted_content`: fetch, size cap, text relay, traffic,
    download, upload, and the temporary directory each item leaves behind.

The clock is an integer count of milliseconds. Everything outside the bot's
own state is a parameter:

- `ItemWorld` for one relayed item: the `/cancel` timing, and whether the
  public copy, the connection, the fetch, the "Starting Download" status
  message, the download, the two thumbnail downloads, the caption
  formatting and the upload succeed. The bot's other replies, edits and
  deletes are assumed to succeed (see "Left out");
- `Attempt` for one broadcast recipient;
- a delivery predicate for the admin broadcast.

## Model

| member | source | states |
|---|---|---|
| UserStore.NewUser | database/db.py:28-46 | A first-contact record has the given name, no credential, caption, thumbnail or dump chat, no premium or ban, empty word lists, zero usage and no window; it is well formed and never counts as premium. |
| UserStore.AddUser | database/db.py:48-58 | Under the unique index on `id`, an insert succeeds exactly when the id is new; it adds exactly that id with a fresh record and leaves every other record as it was. |
| UserStore.IsUserExist | database/db.py:60-65 | A user exists exactly when the unfiltered cursor yields that id. |
| UserStore.DeleteUser | database/db.py:80-85 | Exactly the given id disappears; all other records are unchanged. |
| UserStore.SetSession | database/db.py:87-98 | Only the user's credential changes, and `get_session` then reads back the value set, or `None` for an unknown user. |
| UserStore.GetSession | database/db.py:93-98 | A known user's stored credential is returned, and `None` for an unknown user. |
| UserStore.GetCaption | database/db.py:107-112 | A known user's stored caption is returned, and `None` for an unknown user; `SetCaption` is read back through it. |
| UserStore.GetThumbnail | database/db.py:127-132 | A known user's stored thumbnail is returned, and `None` for an unknown user; `SetThumbnail` is read back through it. |
| UserStore.SetCaption | database/db.py:101-119 | Only the user's caption changes, and reading it back gives the value set; deleting is setting `None`. |
| UserStore.SetThumbnail | database/db.py:121-139 | Only the user's thumbnail changes, and reading it back gives the value set; deleting is setting `None`. |
| UserStore.SetDumpChat | database/db.py:236-240 | Only the user's dump chat changes; an unknown id leaves the store unchanged. |
| UserStore.BanUser | database/db.py:201-206 | Only the ban flag changes, and afterwards the user counts as banned exactly when the user exists. |
| UserStore.UnbanUser | database/db.py:208-220 | Only the ban flag changes, and afterwards `is_banned` is false; an unknown user is never banned. |
| UserStore.BannedAgreesWithQuery | database/db.py:215-220 | `is_banned` agrees with the banned-users query, and an unknown user is not banned. |
| UserStore.UnbanUndoesBan | database/db.py:201-213 | Unbanning a user just banned restores the store exactly. |
| UserStore.BanUndoesUnban | database/db.py:201-213 | Banning a user just unbanned restores the store exactly. |
| UserStore.SettersPreserveWellFormed | database/db.py:80-240 | Ban, unban, the session, caption, thumbnail and dump-chat setters and deletion keep every record well formed. |
| UserStore.AddPremium | database/db.py:141-154 | The grant sets the flag and the expiry and starts a fresh quota window; nothing else changes. |
| UserStore.RemovePremium | database/db.py:156-161 | Only the flag and the expiry are cleared. |
| UserStore.IsPremium | database/db.py:172-185 | The answer is true exactly for a flagged user whose expiry is still ahead. A flagged user whose grant has run out is downgraded exactly as by `remove_premium`; every other store is left untouched. |
| UserStore.IsPremiumSettles | database/db.py:172-185 | A second premium check at the same instant gives the same answer and changes nothing further. |
| UserStore.ExpiredStaysExpired | database/db.py:172-185 | Once a check has said "not premium", every later check says so too and leaves the store unchanged. |
| UserStore.PremiumTransitionsPreserveWellFormed | database/db.py:141-185 | Granting, revoking and the lapse downgrade all keep every record well formed. |
| UserStore.AddToSet | database/db.py:250-254 | `$addToSet` with `$each` keeps the old list as a prefix, contains exactly the old and the new words, and keeps a duplicate-free list duplicate-free. |
| UserStore.AddToSetIdempotent | database/db.py:250-254 | Adding the same words a second time changes nothing. |
| UserStore.AddToSetAllPresent | database/db.py:250-254 | Adding only words the list already holds leaves it as it is. |
| UserStore.AddThenPull | database/db.py:250-267 | Removing the words just added leaves exactly the old words that were not among them. |
| UserStore.PullAll | database/db.py:263-267 | `$pull` with `$in` keeps exactly the words not listed, never grows the list, and keeps it duplicate-free. |
| UserStore.SetDeleteWords | database/db.py:250-254 | Only the user's delete list changes, to the `$addToSet` of the given words. |
| UserStore.RemoveDeleteWords | database/db.py:263-267 | Only the user's delete list changes, to the `$pull` of the given words. |
| UserStore.Merge | database/db.py:269-277 | `dict.update`: the new pairs win, the other old keys keep their values, and the key set is the union. |
| UserStore.DropKeys | database/db.py:286-295 | Popping the listed words removes exactly those keys, ignores missing ones, and leaves the other values unchanged. |
| UserStore.SetReplaceWords | database/db.py:269-277 | Only the user's replace map changes, merged with the new pairs; an unknown user leaves the store unchanged. |
| UserStore.RemoveReplaceWords | database/db.py:286-295 | Only the user's replace map changes, with the listed keys dropped; an unknown user leaves the store unchanged. |
| UserStore.SortedIds | database/db.py:73-78 | A cursor lists every selected id exactly once, in strictly ascending order. |
| UserStore.Cursor | database/db.py:187-192 | `find(filter)` yields exactly the ids whose record matches the filter, each once, and as many as `count_documents` reports. |
| UserStore.CursorDistinct | database/db.py:187-192 | A cursor never yields the same user twice. |
| UserStore.CountBounds | database/db.py:67-71 | `count_documents` reports as many users as the matching cursor yields, never more than the collection holds, and every record for the empty query. |
| UserStore.CursorUsage | Rexbots/broadcast.py:168-186 | The running `daily_usage` sum over a cursor equals the order-free sum over the users its filter selects. |
| UserStore.CursorSessions | Rexbots/broadcast.py:168-185 | The running session count over a cursor equals the number of selected users whose session passes the test. |
| Quota.CheckLimit | database/db.py:298-326 | The user is blocked exactly when the user exists, has no running grant, is inside a running window and has used at least ten files. The call is not read-only: a lapsed grant is downgraded and a lapsed window is reset to zero. Only that user's record changes. |
| Quota.ResetWindow | database/db.py:311-320 | A lapsed window is reset to zero uses and no timer; only that user's record changes. |
| Quota.AddTraffic | database/db.py:328-351 | A free user's first use starts a 24-hour window at usage 1. Later uses add one and keep the timer. Unknown users and users with a running grant are untouched. |
| Quota.QuotaPreservesWellFormed | database/db.py:298-351 | Both quota transitions keep the record invariants: a premium flag implies an expiry, and no window implies zero usage. |
| Quota.CheckLimitSettles | database/db.py:298-326 | A second check at the same time gives the same verdict and changes nothing more. |
| Quota.TrafficInWindow | database/db.py:346-351 | Inside a running window, k uses add exactly k and leave the timer alone. |
| Quota.TrafficFromIdle | database/db.py:337-351 | From an idle free account, k ≥ 1 uses leave usage k and a timer 24 hours after the first use. |
| Quota.TenUsesThenBlocked | database/db.py:298-351 | After ten uses from idle, a check blocks exactly while the 24 hours since the first use are not over. A check after that allows the user and resets usage and timer. |
| Quota.NineUsesAllowed | database/db.py:298-351 | Nine uses never block, at any time. |
| Calendar.OrdinalNextDay | Rexbots/admin.py:212 | Consecutive calendar days have consecutive ordinals, so a grant date's midnight moves by exactly one day per calendar day. |
| Calendar.YearLength | Rexbots/admin.py:212 | A year has 365 days, or 366 in a leap year, under the Gregorian rule that `datetime` uses. |
| Calendar.ParseIsoDate | Rexbots/admin.py:212 | `strptime(tok, "%Y-%m-%d")` only ever accepts a date that exists, and the first four characters of the token are that year's four digits followed by a dash. |
| Calendar.ParseIsoDateAccepts | Rexbots/admin.py:212 | Every spelling `%Y-%m-%d` matches, unpadded months and days included, is read as the date it names, or refused exactly when that date does not exist. |
| Calendar.ParseIsoDateOnlyGrammar | Rexbots/admin.py:212 | Conversely, an accepted token is exactly four digits, a dash, a `%m` spelling, a dash and a `%d` spelling, with no unconverted data left, and the result is the date those fields name. |
| Calendar.ParseFormatRoundTrip | Rexbots/admin.py:212 | Every valid date written as `YYYY-MM-DD` parses back to itself. |
| Text.ParseInt | Rexbots/admin.py:25 | `int()` accepts exactly a stripped decimal literal, optionally signed, with single underscores between digits, and gives its signed digit value. |
| Text.ParseIntRoundTrip | Rexbots/admin.py:25 | `int(str(n)) == n` for every integer. |
| Text.JoinSplit | Rexbots/start.py:432 | Joining the pieces of `split(sep)` on `sep` gives back the string. |
| Text.Split | Rexbots/start.py:432 | `split(sep)` yields at least one piece, and no piece holds the separator. |
| Text.SplitNoSep | Rexbots/start.py:433 | A string without the separator splits into itself alone. |
| Text.SplitTwo | Rexbots/start.py:433 | `a-b` splits on `-` into exactly `a` and `b` when neither holds the separator. |
| Text.RemoveAll | Rexbots/start.py:433 | `replace(pat, "")` never lengthens the string and leaves it alone when the pattern does not occur. |
| Text.RemoveAllAtFirst | Rexbots/start.py:433 | Occurrences are removed from the left: when the first one starts right after `a`, the result is `a` cleaned on its own followed by the rest cleaned on its own. |
| Text.Lower | Rexbots/broadcast.py:67 | Every ASCII capital is lower-cased on its own and every other character is kept. |
| Text.StripNoSpaceEnds | Rexbots/start.py:434 | `strip()` leaves a string without surrounding whitespace unchanged. |
| Text.NatStringParses | Rexbots/start.py:434 | The decimal digits of every natural number read back as that number. |
| Text.ParseNonNegative | Rexbots/admin.py:25 | `int()` of the decimal form of a natural number gives that number. |
| Text.ParseMinus | Rexbots/start.py:500 | Prefixing a digit string with `-` makes `int()` give the negated value, as in the `-100` chat prefix. |
| Text.SplitCount | Rexbots/start.py:432 | `split(sep)` yields one more piece than there are separators. |
| Admin.Ban | Rexbots/admin.py:15-41 | `/ban` bans exactly when the argument is an integer naming a known, unbanned user, and the user banned is the one the argument names. The reason is the rest of the command joined by spaces, or "No reason provided". Every refusal leaves the store unchanged. |
| Admin.Unban | Rexbots/admin.py:43-67 | `/unban` unbans exactly when the argument names a known, banned user, and the user unbanned is that one; every refusal leaves the store unchanged. |
| Admin.BanThenUnban | Rexbots/admin.py:15-67 | A successful `/ban` followed by `/unban` of the same token restores the store and reports the unban. |
| Admin.UnbanThenBan | Rexbots/admin.py:15-67 | A successful `/unban` followed by `/ban` of the same token restores the store. |
| Admin.SetDump | Rexbots/admin.py:73-96 | `/set_dump` writes the chat exactly when both arguments are integers and the user is known; otherwise the store is unchanged. |
| Admin.AddPremiumCommand | Rexbots/admin.py:201-227 | A grant happens exactly for a known user without a running grant, a valid integer id and a valid date. The expiry is that date's midnight; every refusal leaves the store unchanged. |
| Admin.GrantOverridesDowngrade | Rexbots/admin.py:214-220 | The downgrade performed by the premium check just before a grant leaves no trace once the grant is written. |
| Admin.RemovePremiumCommand | Rexbots/admin.py:229-253 | `/remove_premium` removes exactly a running grant of the user the argument names. A grant that has lapsed is cleared by `is_premium` itself and reported as "not premium" for that same user. |
| Admin.RemovePremiumLeavesFlagOff | Rexbots/admin.py:229-253 | For a known user, `/remove_premium` always leaves the premium flag off, whether it revokes or reports "not premium". |
| Admin.AddThenRemovePremium | Rexbots/admin.py:201-253 | A grant just made runs exactly until its midnight, and removing it before then is accepted and clears it. |
| Admin.MaskUri | Rexbots/admin.py:98-105 | An empty URI shows "Not set". Otherwise, with n the smaller of ten and the length, the mask is the first n characters, six stars and the last n characters. |
| Admin.ShortUriNotMasked | Rexbots/admin.py:98-105 | A URI of at most ten characters is shown twice around the stars, because both slices take all of it. |
| Admin.LongUriShowsEnds | Rexbots/admin.py:98-105 | A URI of ten characters or more shows exactly its first ten characters, six stars and its last ten. |
| Admin.GlobalStatsOf | Rexbots/admin.py:147-163 | As written, the global figures always end in the error reply. Corrected, they report the number of records, the premium and banned counts, the users whose session is not null, `daily_usage` summed over all users, the guarded mean and the guarded percentages. |
| Admin.StatsWith | Rexbots/admin.py:119-170 | A non-integer argument is an error. A non-zero id gives that user's record when the user exists and "does not exist" otherwise. No argument, or 0, gives the global figures. |
| Admin.Stats | Rexbots/admin.py:119-170 | As written, `/stats` never shows global figures: with no argument or 0 it always gives the error reply, and only then. |
| Admin.StatsCorrected | Rexbots/admin.py:119-170 | Corrected, `/stats` never gives the error reply, and with no argument or 0 it reports global figures over every record. |
| Admin.StatsCorrectedAgrees | Rexbots/admin.py:119-170 | The correction changes only the global branch, and on an empty collection it reports zero everywhere. |
| Admin.ForwardLoop | Rexbots/admin.py:187-196 | Neither counter exceeds the number of listed ids that are not banned, the recipients the loop sends to. |
| Admin.AdminBroadcast | Rexbots/admin.py:172-199 | As written, every selected, unbanned user is reported as failed, and those whose forward went through are reported as successful as well. |
| Admin.AdminBroadcastCorrected | Rexbots/admin.py:172-199 | With `asyncio` imported, the successes are the users whose forward went through, and successes plus failures are the selected, unbanned users. |
| Admin.ForwardLoopAsWritten | Rexbots/admin.py:187-196 | As written, every attempted (unbanned) recipient is counted as failed, and the delivered ones are counted as successful too. |
| Admin.AdminBroadcastDoubleCounts | Rexbots/admin.py:172-199 | One unbanned user whose forward succeeds is reported as one success and one failure. |
| Admin.ForwardLoopCorrected | Rexbots/admin.py:187-196 | With `asyncio` imported, the successes are the delivered recipients, and successes plus failures are the attempted ones. |
| Broadcast.Audience | Rexbots/broadcast.py:67-70 | The premium query is used exactly when the first argument lower-cases to `premium_only`; banned users are never the query. |
| Broadcast.SendWithRetry | Rexbots/broadcast.py:26-50 | The forward succeeds exactly when the final attempt delivers. The status is Deleted exactly for a deactivated user and Blocked exactly for a block. The record is deleted exactly for deactivated and invalid peers; no other record changes. |
| Broadcast.FloodWaitsTransparent | Rexbots/broadcast.py:33-36 | Flood waits only delay: the result and the store are those of the final attempt alone. |
| Broadcast.PeerInvalidDeletedButReportedAsError | Rexbots/broadcast.py:44-47 | An invalid peer is deleted from the store, yet reported as "Error" rather than "Deleted". |
| Broadcast.StepMatchesOutcome | Rexbots/broadcast.py:93-102 | Counting the reported status bumps the same counter as classifying the final attempt, and exactly one counter grows. |
| Broadcast.Step | Rexbots/broadcast.py:91-102 | Each reply adds one to `done`; `success` grows exactly for a delivery, and one of the four counters grows exactly for a delivery or one of the three known statuses. |
| Broadcast.DueBetweenExact | Rexbots/broadcast.py:106 | The edit points are exactly the done-counts that are multiples of ten or equal to the total, in ascending order. |
| Broadcast.DueBetweenEndsAtTotal | Rexbots/broadcast.py:106 | Counting up to the total always passes an edit point, and the last one is the total itself. |
| Broadcast.Visit | Rexbots/broadcast.py:91-121 | One recipient bumps exactly the counter of its final outcome, edits when due, and deletes the record exactly for a removing outcome. |
| Broadcast.Dispatch | Rexbots/broadcast.py:86-121 | The four outcome counters always add up to `done`, `done` grows by at most the number of ids, and the edits are exactly the due points passed. |
| Broadcast.Reached | Rexbots/broadcast.py:86-89 | The recipients the loop forwards to are among the cursor ids and are non-zero and unbanned. |
| Broadcast.AllEligibleReached | Rexbots/broadcast.py:86-89 | When every listed id is non-zero, unbanned and present, the loop reaches all of them in order. |
| Broadcast.CursorReachedWhole | Rexbots/broadcast.py:79-89 | When every selected user is eligible, the cursor has no duplicates and the loop reaches the whole cursor. |
| Broadcast.DispatchMatchesReference | Rexbots/broadcast.py:86-102 | The loop's counters equal those obtained by classifying each reached user's final outcome. |
| Broadcast.DispatchDeletesExactly | Rexbots/broadcast.py:37-47 | After the loop, exactly the deactivated and invalid users among those reached are gone; every other record is untouched. |
| Broadcast.DispatchDone | Rexbots/broadcast.py:86-102 | `done` ends at the number of reached users. |
| Broadcast.Mean | Rexbots/broadcast.py:188 | The guarded average times the count is the sum, and it is 0 for no users. |
| Broadcast.Percentage | Rexbots/broadcast.py:107 | The guarded percentage times the total is 100 times done, it is 0 for a zero total, and it stays within 0..100 while done ≤ total. |
| Broadcast.Percent | Rexbots/broadcast.py:107 | The percentage times the total is 100 times the part; it is non-negative, at most 100 for a part within the total, and below 100 for a smaller part. |
| Broadcast.BarBounds | Rexbots/broadcast.py:107-110 | The bar never overflows its twenty cells, and it is full exactly when everyone is done. |
| Broadcast.BroadcastCommand | Rexbots/broadcast.py:56-121 | Without a replied message nothing is sent. Otherwise the total is the query's count, the counters are consistent and never exceed it, and an edit happens exactly at each due done-count. |
| Broadcast.BroadcastReachesTotal | Rexbots/broadcast.py:79-121 | When no selected user is skipped, `done` reaches the total and the last progress edit is the one at `done == total`. |
| Broadcast.DispatchReachesTotal | Rexbots/broadcast.py:86-121 | A loop over distinct ids that reaches every one of them, with the total counted beforehand, ends at `done == total` and its last edit is at the total. |
| Broadcast.UsersCommand | Rexbots/broadcast.py:139-215 | Only `all`, `premium` and `banned` are accepted, in any case. The reported total is `count_documents` of the filter, and the export lists exactly the matching users, each once, so it is as long as that total. The active sessions are the matching users with a non-empty credential, the usage total is `daily_usage` summed over the matching users, and the average is the guarded mean. |
| Broadcast.UsersFilterCaseInsensitive | Rexbots/broadcast.py:145 | Filter words that lower-case alike give the same `/users` reply. |
| Broadcast.UsersExportEmptyIffNone | Rexbots/broadcast.py:139-215 | The export is empty exactly when no user matches the filter. |
| Formatting.HumanBytes | Rexbots/start.py:177-187 | 0 gives "0B". Above 1024^5 the unit lookup fails. Otherwise the mantissa times 1024^n is the size, with 1024^n < size ≤ 1024^(n+1) for n > 0, and n names one of the five units. |
| Formatting.ScaleDown | Rexbots/start.py:184-186 | The division loop stops at the first quotient of at most 1024, and every division taken was from a value above 1024. |
| Formatting.ComponentsSplit | Rexbots/start.py:191-194 | The floor `divmod` chain gives hours < 24, minutes < 60 and seconds < 60, and together they make up the whole seconds of the duration. |
| Formatting.TimeFormatter | Rexbots/start.py:189-199 | The formatter gives "0s" exactly for durations from 0 up to 999 ms. |
| Formatting.TrailingCut | Rexbots/start.py:195-199 | Cutting the last two characters off the accumulated string joins the pieces with ", ". |
| Formatting.TimeFormatterRoundTrip | Rexbots/start.py:189-199 | Reading the formatted string back gives the duration rounded down to whole seconds: only the milliseconds below a second are lost. |
| Formatting.FormatClockRoundTrip | Rexbots/start.py:195-199 | The string built from any components reads back as the duration they stand for. |
| Formatting.FormatClock | Rexbots/start.py:195-199 | The formatter yields "0s" exactly when every component is zero. |
| Formatting.ClockTotal | Rexbots/start.py:189-194 | The components add back up to the duration without its milliseconds. |
| Formatting.JoinedReadsBack | Rexbots/start.py:195-199 | Any non-empty list of non-zero, correctly ordered unit pieces joined with ", " reads back as the duration it names. |
| Progress.OnProgress | Rexbots/start.py:244-291 | A set cancel flag raises and touches no cache. Otherwise a report is written exactly when more than 5 s have passed since the last one or the transfer is complete, the total is non-zero and the write succeeds. The start time is the time of the task's first call and is kept afterwards, until the task's entries are dropped on completion. Other tasks are untouched. |
| Progress.QuietAfterReport | Rexbots/start.py:253-260 | Calls within five seconds of a report, none of them the final call, write nothing. |
| Progress.AtMostOneReportPerWindow | Rexbots/start.py:260-289 | However many non-final calls arrive within one five-second window, at most one report is written. |
| Relay.GetMessageType | Rexbots/start.py:204-211 | The kind returned is present, and no kind tried before it is. No kind means none is present. |
| Relay.SendCancel | Rexbots/start.py:355-359 | `/cancel` sets the caller's flag and no other user's. |
| Relay.UploadOutcome | Rexbots/start.py:587-638 | The upload succeeds exactly when all of these hold: the send succeeds, the size has a unit, a custom caption formats, and a non-photo is not cancelled. A custom caption is used exactly when one is set. The source caption is appended exactly when it is non-empty. The caption is the template itself, or the default caption with exactly the source caption. The thumbnail is the custom one when it is set and downloads; otherwise the source's first thumb for a video or document that has one and whose download succeeds; otherwise none. A photo never has one. |
| Relay.HandleRestricted | Rexbots/start.py:517-644 | An unfetchable, empty or kind-less message does nothing. A free user's file over 2 GiB is rejected. Text is relayed without counting. A status message that cannot be sent after the charge ends the item. Only a missing session or failed login ends a range, and the call never returns one. A cancel during the download is reported as cancelled. Only a failed, uncancelled download leaves its directory. Only this user's record and flag change. |
| Relay.Attempt | Rexbots/start.py:447-510 | A public copy happens only for a public link whose copy succeeds. A missing session stops the item exactly when the private path is reached without one. A failed login stops it exactly when the private path is reached with a session and the connection fails, and it changes nothing but the flag. A missing session also sets the flag. Only this user's record and flag change. |
| Relay.KindOfLink | Rexbots/start.py:438-440 | A link is private exactly when it contains the private prefix, batch exactly when it contains the batch prefix but not the private one, and a link that starts with the private prefix is private. |
| Relay.TargetDecidesHandling | Rexbots/start.py:497-507 | With a session and a login, a link whose chat cannot be computed fails that item alone and changes nothing; one whose chat can be computed goes on to the download. |
| Relay.HandleKeepsFlags | Rexbots/start.py:517-644 | Handling a message with no `/cancel` during it leaves every cancel flag as it was. |
| Relay.ItemKeepsFlags | Rexbots/start.py:443-510 | An item that neither ends the range nor sees a `/cancel` during it leaves the cancel flags unchanged. |
| Relay.ProcessItem | Rexbots/start.py:443-510 | After an item that ended the range, or during which `/cancel` arrived, the flag is set; a failed download adds exactly its own directory to the leftovers. |
| Relay.RunItems | Rexbots/start.py:443-510 | The loop yields at most one item per id of the range, and all of them when it completes. Every early stop leaves the flag set. Only the user's record and flag change. |
| Relay.RunIds | Rexbots/start.py:443-446 | Items come in id order from the first id, and no item was reached after a `/cancel` sent before it. |
| Relay.RunEndsAtTerminal | Rexbots/start.py:472-496 | No item but the last has a missing session or failed login, and the loop returns early exactly when the last item has one. |
| Relay.RunEndsAtCancel | Rexbots/start.py:443-445 | Every item but the last ran with no `/cancel` at all: a cancel during an item ends the range after it. |
| Relay.ItemFailuresDoNotStopRange | Rexbots/start.py:443-510 | Without a `/cancel`, failing items do not stop the range: it runs to its last id unless a missing session or failed login ends it at that item. |
| Relay.RunRequest | Rexbots/start.py:431-512 | The range runs exactly when the last segment, with `?single` removed, parses; an unparsable range changes nothing. After a run the flag is set exactly under the as-written policy. |
| Relay.Save | Rexbots/start.py:408-512 | Text without the link prefix is ignored. A link is refused at the limit exactly when `check_limit` blocks, and as "previous task cancelled" exactly when it does not block but the flag is set. A run implies a parsable range. Only the user's record and flag change. An unparsable range leaves the flag clear. As written, the flag is set after a run and after a "previous task cancelled" refusal; cleared on exit, it is clear after every admitted request. A refusal or an ignored text leaves the flags and leftovers alone. |
| Relay.HandleTraffic | Rexbots/start.py:537-557 | For a free user, handling a message adds one use exactly when `add_traffic` ran: the item reached the download, or the status message before it was attempted after the charge. The record stays well formed. |
| Relay.StatusSendFailureCharges | Rexbots/start.py:556-560 | When the "Starting Download" message cannot be sent, the use is already charged, no download starts, and nothing is left behind. |
| Relay.AttemptTraffic | Rexbots/start.py:451-506 | One item adds one use exactly when `add_traffic` ran for it: a public copy, or a download reached after the charge, including the case where the status message before it could not be sent. |
| Relay.ItemTraffic | Rexbots/start.py:443-510 | The same holds for an item whose `/cancel` arrives during it. |
| Relay.RunTraffic | Rexbots/start.py:443-510 | Over a range, a free user's usage grows by exactly the number of items for which `add_traffic` ran. |
| Relay.RequestTraffic | Rexbots/start.py:431-512 | A request that runs charges exactly its counted items. |
| Relay.CheckLimitKeepsFree | database/db.py:298-326 | The limit check keeps a free, well-formed record free and well formed. |
| Relay.SaveTraffic | Rexbots/start.py:413-512 | A request is checked against the limit once and is then charged for every counted item, so one range can take a user past ten. |
| Relay.DownloadDecidesOutcome | Rexbots/start.py:562-644 | After the charge and the status message, a `/cancel` during the download gives a cancelled item with no directory left. A download error is a failure that leaves `downloads/<request>_<item>` exactly when the flag is clear and the error does not say it was cancelled; otherwise it is a cancel with nothing left. A completed download gives the upload's outcome, with the directory removed. |
| Relay.LeftoversAreFailedDownloads | Rexbots/start.py:562-584 | The directories left behind by a range are exactly those of its items whose download failed without a cancel. |
| Relay.LockOutAsWritten | Rexbots/start.py:424-512 | As written, once the flag is set it stays set, and no later request runs or even reaches the parse, whatever the user sends. |
| Relay.RunLocksOutAsWritten | Rexbots/start.py:424-512 | As written, the first request that runs is the last one that ever runs for that user. |
| Relay.NoLockOutClearOnExit | Rexbots/start.py:424-512 | With the flag cleared on exit, a user who sends no `/cancel` is never refused as "previous task cancelled". |
| Relay.SecondRequestRefused | Rexbots/start.py:424-512 | On a fresh bot, two single-message links in a row: as written the second is refused as cancelled; cleared on exit, both run. |
| Relay.CancelRefusesOnceClearOnExit | Rexbots/start.py:355-429 | With the flag cleared on exit, a `/cancel` between requests refuses the next admitted request as "previous task cancelled" and leaves the flag clear for the one after. |
| Relay.LastSegment | Rexbots/start.py:432 | The last `/` segment of `base/d` is `d`. |
| Relay.DropSingleSuffix | Rexbots/start.py:433 | Removing `?single` from a segment that ends with it leaves the rest. |
| Relay.SegmentWithoutSingle | Rexbots/start.py:433 | Removing `?single` from a segment without a question mark, with or without the suffix, gives the segment alone. |
| Relay.ParseRangeOfSegment | Rexbots/start.py:432-435 | A link's range depends only on its last segment with `?single` removed. |
| Relay.ParseRange | Rexbots/start.py:432-435 | A last segment without `-`, once `?single` is removed, names a single id: the range starts and ends at it. |
| Relay.NumbersRange | Rexbots/start.py:433-435 | `a-b` reads as the range a..b. |
| Relay.NumberRange | Rexbots/start.py:433-435 | A single number n reads as the range n..n. |
| Relay.LinkRange | Rexbots/start.py:432-435 | A link ending in `/a-b`, with or without `?single`, names the range a..b: the suffix does not collapse a range. |
| Relay.LinkSingle | Rexbots/start.py:432-435 | A link ending in `/a`, with or without `?single`, names `a` alone. |
| Relay.PublicRangeCopiesAll | Rexbots/start.py:443-462 | A public range whose copies all succeed, with no `/cancel`, completes and copies every id. |
| Relay.LinkUnder | Rexbots/start.py:409-435 | A single-id link under a `https://t.me/` base passes the link test and parses to that id. |
| Relay.UnknownUserRuns | Rexbots/start.py:408-436 | A parsable link from a user the store does not know, with the flag clear, runs and leaves the store empty. |

## Left out

- The file of each admin command at which a handler is registered twice:
  `/broadcast` is registered both in `Rexbots/admin.py` and in
  `Rexbots/broadcast.py`. Which one runs depends on plugin load order in the
  bot framework. Both are modelled (`Admin.AdminBroadcast`,
  `Broadcast.BroadcastCommand`).
- Rendering: message texts, HTML, buttons, `script.*` templates, the
  progress bar characters, speed and ETA, `round(size, 2)` in
  `humanbytes`, the `.2f`/`.1f` formats and the elapsed-time line of a
  broadcast. Only the values these are computed from are modelled.
- Formatting.HumanBytes: the mantissa is exact division; the rounding
  to two decimals is not modelled.
- Floating-point time: `time.time()` seconds are integer milliseconds
  here, so the 5-second throttle compares against 5000 ms.
- Progress.OnProgress: a rendering failure and a failed status-file
  write are one boolean, `writeOk`. A zero total is treated like that failure,
  because the percentage division raises inside the same `try`.
- The status files and the `downstatus`/`upstatus` tickers, the
  `asyncio.sleep` pacing, and the fire-and-forget tasks. They only mirror
  the progress text, and none of them changes the bot's state.
- The thumbnail and caption are chosen, but the file name, the `date`
  string and the placeholder substitution of `str.format` are not
  computed. Whether a custom template formats is the `captionFormatOk`
  parameter.
- Text.Lower: only ASCII capitals are lower-cased. Python's `lower()` also
  maps other letters and can change the length (`'İ'.lower()` has two
  characters). The bot compares the result only with ASCII words.
- Text.ParseInt: only the ASCII digits 0-9 are digits. Python's `int()`
  also accepts other Unicode decimal digits.
- Calendar.ParseIsoDate: `strptime`'s `\d` also matches other Unicode
  decimal digits; only ASCII digits are modelled.
- UserStore.AddUser: assumes the unique index on `id` that
  `ensure_indexes` (`database/db.py:18-26`) creates. No modelled code calls
  it. Without the index, `insert_one` of a present id adds a second
  document. The only caller (`Rexbots/start.py:299-300`) checks
  `is_user_exist` first.
- Broadcast.BarBounds: the filled-cell count `int(percentage / 5)` is taken
  on exact reals, not on floating-point values. It is kept because the
  number of filled cells is a value the bar is drawn from, not its
  characters.
- Relay.TargetResolves: only whether the chat target can be computed is
  modelled, not which chat it names. For private links, `int("-100" + id)`
  is parsed with the same `int()` model as elsewhere.
- Replies, edits and deletes of the bot's own messages are assumed to
  succeed. These are the replies at `Rexbots/start.py:473` and `:496`, the
  per-item error reply at `:510`, `smsg.edit`/`smsg.delete` at `:582`,
  `:584` and `:638`, and `delete_messages` at `:644`. The code does not
  guard them, so a failure would change the control flow:
  - a failing "Authentication Required" reply raises before `:480` sets
    the flag, and the per-item `except` lets the range go on;
  - a failing `smsg.edit` after an upload error skips the cleanup at
    `:641-643` and leaves the directory behind;
  - a failing error reply at `:510` escapes the loop.
- Relay.LeftoversAreFailedDownloads: exact only under the assumption above
  that the status edits succeed. A failing edit at `Rexbots/start.py:638`
  would leave one more directory.
- Relay.HandleRestricted: a failing text send is logged and swallowed
  like a successful one, so both are `TextRelayed`.
- The user-client connection is opened per item, as the code does. Its
  lifetime and disconnection are not modelled.
- MongoDB's natural order: cursors list ids in ascending order. Every
  property proved is about sets or per-user outcomes and does not depend
  on the order.
- Concurrency: a `/cancel` that arrives while a request runs is the
  `cancel` field of the item's world (before the item, during its
  download, or during its upload). Two requests of one user running at
  the same time are not modelled.
- Admin.StatsWith: the per-user reply carries the whole record; the
  field-by-field text is not built. `get_user_info` (`database/db.py:362`)
  returns the same record, and `update_user_name` is not used by any
  modelled command.
- `/user_info`, `/dblink` text, `/add_unsubscribe` (a placeholder reply),
  the `send_start`, `send_help`, `send_plan`, `send_stats` and
  `settings_panel` menus and the callback-query handler: they are
  presentation only. `/dblink`'s masking is modelled as `Admin.MaskUri`.
- Broadcast.Step: the `else` branch for a status other than the
  three known ones is unreachable, because `broadcast_messages` returns only
  those.
- Quota: the server clock is a parameter of each call. `datetime.now()` is
  read twice in the code, once in `is_premium` and once in the limit
  check; the model uses one instant for both.

## Findings

| source | as written | input that shows it | evidently intended | confidence | as-written member | corrected member |
|---|---|---|---|---|---|---|
| Rexbots/start.py:512 | Every range that runs to its end sets `CANCEL_FLAGS[user] = True` ("Reset after completion"), and line 425 refuses any request while the flag is set. The user is locked out after their first request. | On a fresh bot, the user sends `https://t.me/name/5` and then `https://t.me/name/6`, and never sends `/cancel`. The second request is answered "Previous Task was Cancelled". | Reset the flag to `False`, so that only a `/cancel` refuses, and only the next request. | high, not executed | Relay.LockOutAsWritten | Relay.NoLockOutClearOnExit |
| Rexbots/admin.py:193 | The file never imports `asyncio`. The pacing sleep after a successful forward raises `NameError`, and the loop's own `except` adds a failure on top of the success. | `/broadcast` to one unbanned user whose forward succeeds. The reply is "Successful: 1, Failed: 1". | Count each recipient once: a success when forwarded, a failure otherwise. | high, not executed | Admin.ForwardLoopAsWritten | Admin.ForwardLoopCorrected |
| Rexbots/admin.py:154 | `sum(user.get('daily_usage', 0) async for user in db.get_all_users())` hands an asynchronous generator to `sum()`, which raises `TypeError`. The `except Exception` at line 168 then answers "Error fetching statistics.". | `/stats` with no argument, on any user collection. | Sum the usage with `async for`. The percentages at lines 159-160 then need the guard the average has, or an empty collection divides by zero. | high, not executed | Admin.Stats | Admin.StatsCorrected |

For each finding, a concrete instance is also proved:

- `Relay.SecondRequestRefused` proves the two-link example above, under
  both flag policies.
- `Admin.AdminBroadcastDoubleCounts` proves the one-user broadcast.
- `Admin.Stats` states the failing global `/stats` for every collection.

`Relay.Save` takes the flag policy as a parameter: `AsWritten` is the code,
and `ClearOnExit` is the correction.

Behaviours of the code worth knowing:

- `?single` is removed from the last segment and does not collapse a
  range (`Relay.LinkRange`).
- `check_limit` is not read-only (`Quota.CheckLimit`):
  - it performs the premium downgrade;
  - it resets a lapsed window to zero.
- An invalid peer is deleted from the store but counted as failed, not as
  deleted (`Broadcast.PeerInvalidDeletedButReportedAsError`).
- A download that fails without a cancel returns before the cleanup and
  leaves its temporary directory (`Relay.LeftoversAreFailedDownloads`).
- The limit is checked once per request, not per item, so a single range
  can take a free user past ten files (`Relay.SaveTraffic`).
- The user session is opened per item, not once per range.

=== FILE: admin.dfy ===
/** The administrator commands of `Rexbots/admin.py`.  Each command is a
    guarded transition of the user store: the argument count, the integer
    (and date) parse, the target's existence and its current state decide
    whether the store changes.  `cmd` is the command's token list, the
    command word itself at index 0. */
module Admin {
  import opened Wrappers
  import opened Text
  import opened UserStore
  import opened Calendar
  import Broadcast

  datatype Reply =
    | Usage
    | InvalidArgument
    | NoSuchUser(id: int)
    | AlreadyBanned(id: int)
    | Banned(id: int, reason: string)
    | NotBanned(id: int)
    | Unbanned(id: int)
    | DumpChatSet(id: int, chat: int)
    | AlreadyPremium(id: int)
    | PremiumAdded(id: int, expiry: Time)
    | NotPremium(id: int)
    | PremiumRemoved(id: int)

  /** The reply sent and the store after the command. */
  datatype Handled = Handled(reply: Reply, store: Store)

  /** `int(cmd[i])`, given that the token exists. */
  function IntArg(cmd: seq<string>, i: nat): Option<int>
    requires i < |cmd|
  {
    ParseInt(cmd[i])
  }

  /** `/ban user_id [reason]` */
  function Ban(s: Store, cmd: seq<string>): (r: Handled)
    ensures r.reply.Banned? <==>
              |cmd| >= 2 && IntArg(cmd, 1).Some? && IntArg(cmd, 1).value in s
              && !s[IntArg(cmd, 1).value].isBanned
    ensures r.reply.Banned? ==> |cmd| >= 2 && IntArg(cmd, 1) == Some(r.reply.id)
    ensures r.reply.Banned? ==> r.reply.id in s && r.store == BanUser(s, r.reply.id)
    ensures !r.reply.Banned? ==> r.store == s
    ensures r.reply.Banned? ==>
              r.reply.reason == (if |cmd| > 2 then Join(cmd[2..], ' ') else "No reason provided")
  {
    if |cmd| < 2 then Handled(Usage, s)
    else match IntArg(cmd, 1)
      case None => Handled(InvalidArgument, s)
      case Some(id) =>
        if id !in s then Handled(NoSuchUser(id), s)
        else if IsBanned(s, id) then Handled(AlreadyBanned(id), s)
        else
          var reason := if |cmd| > 2 then Join(cmd[2..], ' ') else "No reason provided";
          Handled(Banned(id, reason), BanUser(s, id))
  }

  /** `/unban user_id` */
  function Unban(s: Store, cmd: seq<string>): (r: Handled)
    ensures r.reply.Unbanned? <==>
              |cmd| >= 2 && IntArg(cmd, 1).Some? && IntArg(cmd, 1).value in s
              && s[IntArg(cmd, 1).value].isBanned
    ensures r.reply.Unbanned? ==> |cmd| >= 2 && IntArg(cmd, 1) == Some(r.reply.id)
    ensures r.reply.Unbanned? ==> r.reply.id in s && r.store == UnbanUser(s, r.reply.id)
    ensures !r.reply.Unbanned? ==> r.store == s
  {
    if |cmd| < 2 then Handled(Usage, s)
    else match IntArg(cmd, 1)
      case None => Handled(InvalidArgument, s)
      case Some(id) =>
        if id !in s then Handled(NoSuchUser(id), s)
        else if !IsBanned(s, id) then Handled(NotBanned(id), s)
        else Handled(Unbanned(id), UnbanUser(s, id))
  }

  /** A successful ban is undone exactly by unbanning the same id. */
  lemma BanThenUnban(s: Store, token: string, reason: seq<string>)
    requires Ban(s, ["/ban", token] + reason).reply.Banned?
    ensures Unban(Ban(s, ["/ban", token] + reason).store, ["/unban", token])
            == Handled(Unbanned(ParseInt(token).value), s)
  {
    var cmd := ["/ban", token] + reason;
    assert cmd[1] == token;
    var id := ParseInt(token).value;
    var s1 := Ban(s, cmd).store;
    assert s1 == BanUser(s, id);
    UnbanUndoesBan(s, id);
    assert ["/unban", token][1] == token;
    assert Unban(s1, ["/unban", token]).store == UnbanUser(s1, id);
  }

  /** A successful unban is undone exactly by banning the same id again. */
  lemma UnbanThenBan(s: Store, token: string)
    requires Unban(s, ["/unban", token]).reply.Unbanned?
    ensures Ban(Unban(s, ["/unban", token]).store, ["/ban", token]).store == s
  {
    var id := ParseInt(token).value;
    var s1 := Unban(s, ["/unban", token]).store;
    assert s1 == UnbanUser(s, id);
    BanUndoesUnban(s, id);
    assert ["/ban", token][1] == token;
    assert Ban(s1, ["/ban", token]).store == BanUser(s1, id);
  }

  /** `/set_dump user_id chat_id` */
  function SetDump(s: Store, cmd: seq<string>): (r: Handled)
    ensures r.reply.DumpChatSet? <==>
              |cmd| >= 3 && IntArg(cmd, 1).Some? && IntArg(cmd, 2).Some? && IntArg(cmd, 1).value in s
    ensures r.reply.DumpChatSet? ==>
              && r.reply.id == IntArg(cmd, 1).value && r.reply.chat == IntArg(cmd, 2).value
              && r.store == SetDumpChat(s, r.reply.id, r.reply.chat)
    ensures !r.reply.DumpChatSet? ==> r.store == s
  {
    if |cmd| < 3 then Handled(Usage, s)
    else match (IntArg(cmd, 1), IntArg(cmd, 2))
      case (Some(id), Some(chat)) =>
        if id !in s then Handled(NoSuchUser(id), s)
        else Handled(DumpChatSet(id, chat), SetDumpChat(s, id, chat))
      case _ => Handled(InvalidArgument, s)
  }

  /** `/add_premium user_id YYYY-MM-DD`: refused while a grant is running;
      an expired grant is first cleared by that very check and then
      replaced. */
  function AddPremiumCommand(s: Store, cmd: seq<string>, now: Time): (r: Handled)
    ensures r.reply.PremiumAdded? <==>
              && |cmd| >= 3 && IntArg(cmd, 1).Some? && ParseIsoDate(cmd[2]).Some?
              && IntArg(cmd, 1).value in s && !PremiumActive(s[IntArg(cmd, 1).value], now)
    ensures r.reply.PremiumAdded? ==>
              && r.reply.id == IntArg(cmd, 1).value && r.reply.id in s
              && r.reply.expiry == Midnight(ParseIsoDate(cmd[2]).value)
              && r.store == AddPremium(s, r.reply.id, r.reply.expiry)
    ensures !r.reply.PremiumAdded? ==> r.store == s
  {
    if |cmd| < 3 then Handled(Usage, s)
    else
      var id := IntArg(cmd, 1);
      var date := ParseIsoDate(cmd[2]);
      if id.None? || date.None? then Handled(InvalidArgument, s)
      else if id.value !in s then Handled(NoSuchUser(id.value), s)
      else if PremiumActive(s[id.value], now) then Handled(AlreadyPremium(id.value), s)
      else
        var expiry := Midnight(date.value);
        GrantOverridesDowngrade(s, id.value, now, expiry);
        Handled(PremiumAdded(id.value, expiry), AddPremium(IsPremium(s, id.value, now).1, id.value, expiry))
  }

  /** The downgrade performed by the premium check just before a grant
      leaves no trace once the grant is written. */
  lemma GrantOverridesDowngrade(s: Store, id: int, now: Time, expiry: Time)
    ensures AddPremium(IsPremium(s, id, now).1, id, expiry) == AddPremium(s, id, expiry)
  {
    if id in s && s[id].isPremium && !IsPremium(s, id, now).0 {
      var d := RemovePremium(s, id);
      assert AddPremium(d, id, expiry)[id] == AddPremium(s, id, expiry)[id];
    }
  }

  /** `/remove_premium user_id`: refused unless a grant is running; an
      expired grant is cleared by `is_premium` and reported as not premium. */
  function RemovePremiumCommand(s: Store, cmd: seq<string>, now: Time): (r: Handled)
    ensures r.reply.PremiumRemoved? <==>
              |cmd| >= 2 && IntArg(cmd, 1).Some? && IntArg(cmd, 1).value in s
              && PremiumActive(s[IntArg(cmd, 1).value], now)
    ensures r.reply.NotPremium? || r.reply.PremiumRemoved? ==>
              |cmd| >= 2 && IntArg(cmd, 1) == Some(r.reply.id) && r.reply.id in s
    ensures r.reply.NotPremium? ==>
              !PremiumActive(s[r.reply.id], now) && r.store == IsPremium(s, r.reply.id, now).1
    ensures r.reply.PremiumRemoved? ==> r.store == RemovePremium(s, r.reply.id)
    ensures !r.reply.NotPremium? && !r.reply.PremiumRemoved? ==> r.store == s
  {
    if |cmd| < 2 then Handled(Usage, s)
    else match IntArg(cmd, 1)
      case None => Handled(InvalidArgument, s)
      case Some(id) =>
        if id !in s then Handled(NoSuchUser(id), s)
        else
          var (active, s1) := IsPremium(s, id, now);
          if !active then Handled(NotPremium(id), s1)
          else Handled(PremiumRemoved(id), RemovePremium(s1, id))
  }

  /** Whatever the reply, after `/remove_premium` for a known user the
      premium flag is off, and nothing but the two premium fields changed. */
  lemma RemovePremiumLeavesFlagOff(s: Store, cmd: seq<string>, now: Time)
    requires |cmd| >= 2 && IntArg(cmd, 1).Some? && IntArg(cmd, 1).value in s
    ensures var id := IntArg(cmd, 1).value;
            var r := RemovePremiumCommand(s, cmd, now).store;
            && id in r && !r[id].isPremium
            && (r == s || r == RemovePremium(s, id))
  {
  }

  /** A grant just made is running exactly until midnight of its date, and
      removing it right away is accepted and clears both premium fields. */
  lemma AddThenRemovePremium(s: Store, token: string, date: string, now: Time)
    requires AddPremiumCommand(s, ["/add_premium", token, date], now).reply.PremiumAdded?
    ensures var a := AddPremiumCommand(s, ["/add_premium", token, date], now);
            var id := a.reply.id;
            && id in a.store
            && (PremiumActive(a.store[id], now) <==> now < a.reply.expiry)
            && (now < a.reply.expiry ==>
                  RemovePremiumCommand(a.store, ["/remove_premium", token], now)
                  == Handled(PremiumRemoved(id), RemovePremium(a.store, id)))
  {
    var a := AddPremiumCommand(s, ["/add_premium", token, date], now);
    var id := a.reply.id;
    assert IntArg(["/remove_premium", token], 1) == Some(id);
    assert a.store[id].isPremium && a.store[id].premiumExpiry == Some(a.reply.expiry);
  }

  /** `/dblink`: the first and last ten characters around a fixed mask, with
      Python's clamping slices; "Not set" for an empty URI. */
  function MaskUri(uri: string): (r: string)
    ensures uri == "" ==> r == "Not set"
    ensures uri != "" ==>
              var n := if |uri| < 10 then |uri| else 10;
              && |r| == 2 * n + 6
              && r[..n] == uri[..n]
              && r[n..n + 6] == "******"
              && r[n + 6..] == uri[|uri| - n..]
  {
    if uri == "" then "Not set"
    else
      var head := if |uri| < 10 then uri else uri[..10];
      var tail := if |uri| < 10 then uri else uri[|uri| - 10..];
      head + "******" + tail
  }

  /** A URI of at most ten characters is shown in full, twice. */
  lemma ShortUriNotMasked(uri: string)
    requires 0 < |uri| <= 10
    ensures MaskUri(uri) == uri + "******" + uri
  {
  }

  /** For a URI of ten characters or more the mask shows exactly its first
      and last ten. */
  lemma LongUriShowsEnds(uri: string)
    requires |uri| >= 10
    ensures MaskUri(uri)[..10] == uri[..10]
    ensures MaskUri(uri)[10..16] == "******"
    ensures MaskUri(uri)[16..] == uri[|uri| - 10..]
  {
  }

  // ---------------------------------------------------------------------
  // /stats
  // ---------------------------------------------------------------------

  datatype StatsReply =
    | InvalidStatsArgument
    | UnknownUser(id: int)
    | UserStats(id: int, record: UserRecord)
    | GlobalStats(total: nat, premium: nat, banned: nat, activeSessions: nat, totalUsage: nat,
                  premiumPercent: real, bannedPercent: real, averageUsage: real)
    /** The generic "Error fetching statistics." reply. */
    | StatsFailed

  /** The `$ne: None` session test of `/stats`: an empty credential counts. */
  predicate SessionNotNull(o: Option<string>) {
    o.Some?
  }

  /** The global branch.  As written, the usage total hands an
      asynchronous generator to `sum`, which raises `TypeError` whatever the
      store holds, and the generic error reply is sent.  `corrected` stands
      for that total taken with `async for`, together with percentages
      guarded like the average, without which an empty store would then
      divide by zero. */
  function GlobalStatsOf(s: Store, corrected: bool): (r: StatsReply)
    ensures r.StatsFailed? <==> !corrected
    ensures r.GlobalStats? ==>
              && r.total == |s| && r.premium == Count(s, PremiumFlagged) && r.banned == Count(s, BannedFlagged)
              && r.activeSessions == |SessionHolders(s, AllUsers, SessionNotNull)|
              && r.totalUsage == SumUsage(s, s.Keys)
              && r.averageUsage == Broadcast.Mean(r.totalUsage, r.total)
              && r.premiumPercent == Broadcast.Percentage(r.premium, r.total)
              && r.bannedPercent == Broadcast.Percentage(r.banned, r.total)
  {
    if !corrected then StatsFailed
    else
      var total := |s|;
      var premium := Count(s, PremiumFlagged);
      var banned := Count(s, BannedFlagged);
      var ids := Cursor(s, AllUsers);
      var usage := TotalUsage(s, ids);
      CursorUsage(s, AllUsers);
      CursorSessions(s, AllUsers, SessionNotNull);
      SelectedAll(s);
      GlobalStats(total, premium, banned, CountSessions(s, ids, SessionNotNull), usage,
                  Broadcast.Percentage(premium, total), Broadcast.Percentage(banned, total),
                  Broadcast.Mean(usage, total))
  }

  /** `/stats [user_id]`: a non-zero id asks about one user, no argument or
      0 (falsy) asks for the global figures. */
  function StatsWith(s: Store, cmd: seq<string>, corrected: bool): (r: StatsReply)
    ensures |cmd| > 1 && IntArg(cmd, 1).None? ==> r.InvalidStatsArgument?
    ensures r.UserStats? ==> r.id in s && r.record == s[r.id] && r.id != 0
    ensures r.UnknownUser? ==> r.id !in s && r.id != 0
    ensures |cmd| > 1 && IntArg(cmd, 1).Some? && IntArg(cmd, 1).value != 0 ==>
              var v := IntArg(cmd, 1).value;
              r == if v in s then UserStats(v, s[v]) else UnknownUser(v)
    ensures (|cmd| <= 1 || IntArg(cmd, 1) == Some(0)) ==> r == GlobalStatsOf(s, corrected)
  {
    if |cmd| > 1 && IntArg(cmd, 1).None? then InvalidStatsArgument
    else
      var id := if |cmd| > 1 then IntArg(cmd, 1).value else 0;
      if id != 0 then
        if id in s then UserStats(id, s[id]) else UnknownUser(id)
      else GlobalStatsOf(s, corrected)
  }

  /** `/stats` as written: the per-user branch answers, the global branch
      always ends in the generic error reply. */
  function Stats(s: Store, cmd: seq<string>): (r: StatsReply)
    ensures !r.GlobalStats?
    ensures r.StatsFailed? <==> |cmd| <= 1 || IntArg(cmd, 1) == Some(0)
  {
    StatsWith(s, cmd, false)
  }

  /** `/stats` with the usage total summed with `async for` and the
      percentages guarded. */
  function StatsCorrected(s: Store, cmd: seq<string>): (r: StatsReply)
    ensures !r.StatsFailed?
    ensures (|cmd| <= 1 || IntArg(cmd, 1) == Some(0)) ==> r.GlobalStats? && r.total == |s|
  {
    StatsWith(s, cmd, true)
  }

  /** Corrected, the per-user answers are those of the code as written, and
      an empty store reports zero everywhere instead of failing. */
  lemma StatsCorrectedAgrees(s: Store, cmd: seq<string>)
    ensures !Stats(s, cmd).StatsFailed? ==> StatsCorrected(s, cmd) == Stats(s, cmd)
    ensures s == map[] && |cmd| <= 1 ==>
              StatsCorrected(s, cmd) == GlobalStats(0, 0, 0, 0, 0, 0.0, 0.0, 0.0)
  {
    if s == map[] {
      assert Selected(s, PremiumFlagged) == {};
      assert Selected(s, BannedFlagged) == {};
      assert SessionHolders(s, AllUsers, SessionNotNull) == {};
    }
  }

  // ---------------------------------------------------------------------
  // /broadcast as registered in this file
  // ---------------------------------------------------------------------

  /** Counters of this file's broadcast loop: (success_count, fail_count). */
  datatype Counts = Counts(success: nat, fail: nat)

  /** The loop over the cursor.  Banned users are skipped.  `forwarded(id)`
      is the outcome of forwarding to `id`.  `sleepWorks` tells whether the
      pacing sleep after a successful forward returns normally: the file
      never imports `asyncio`, so as written it raises `NameError`, which the
      loop's own handler counts as a failure. */
  function ForwardLoop(s: Store, ids: seq<int>, forwarded: int -> bool, sleepWorks: bool): (r: Counts)
    ensures r.success <= Attempted(s, ids) && r.fail <= Attempted(s, ids)
    ensures r.success <= |ids| && r.fail <= |ids|
  {
    if |ids| == 0 then Counts(0, 0)
    else
      var rest := ForwardLoop(s, ids[1..], forwarded, sleepWorks);
      if IsBanned(s, ids[0]) then rest
      else if forwarded(ids[0]) then
        Counts(rest.success + 1, rest.fail + (if sleepWorks then 0 else 1))
      else Counts(rest.success, rest.fail + 1)
  }

  /** The loop's skip test, `if await db.is_banned(user['id'])`: a user is
      sent to when not banned. */
  function SendsTo(s: Store): int -> bool {
    id => !IsBanned(s, id)
  }

  /** A user the forward reaches: not banned, and the forward succeeded. */
  function ForwardedTo(s: Store, forwarded: int -> bool): int -> bool {
    id => !IsBanned(s, id) && forwarded(id)
  }

  /** The recipients the loop does not skip. */
  function Attempted(s: Store, ids: seq<int>): nat {
    CountIds(ids, SendsTo(s))
  }

  function Delivered(s: Store, ids: seq<int>, forwarded: int -> bool): nat {
    CountIds(ids, ForwardedTo(s, forwarded))
  }

  /** The users a broadcast with filter `f` is meant to reach: selected and
      not banned. */
  function Recipients(s: Store, f: Filter): set<int> {
    Filtered(Selected(s, f), SendsTo(s))
  }

  /** The recipients the forward reaches. */
  function Accepted(s: Store, f: Filter, forwarded: int -> bool): set<int> {
    Filtered(Selected(s, f), ForwardedTo(s, forwarded))
  }

  /** Along the cursor, the attempted and the delivered recipients are
      exactly the two sets above. */
  lemma CursorCounts(s: Store, f: Filter, forwarded: int -> bool)
    ensures Attempted(s, Cursor(s, f)) == |Recipients(s, f)|
    ensures Delivered(s, Cursor(s, f), forwarded) == |Accepted(s, f, forwarded)|
  {
    CursorElems(s, f);
    CountIdsIsCard(Cursor(s, f), SendsTo(s));
    CountIdsIsCard(Cursor(s, f), ForwardedTo(s, forwarded));
  }

  /** `/broadcast [premium_only]` as written in this file: every recipient
      is reported as failed, and those reached as successful too. */
  function AdminBroadcast(s: Store, cmd: seq<string>, forwarded: int -> bool): (r: Counts)
    ensures r.fail == |Recipients(s, Broadcast.Audience(cmd))|
    ensures r.success == |Accepted(s, Broadcast.Audience(cmd), forwarded)|
  {
    var f := Broadcast.Audience(cmd);
    ForwardLoopAsWritten(s, Cursor(s, f), forwarded);
    CursorCounts(s, f, forwarded);
    ForwardLoop(s, Cursor(s, f), forwarded, false)
  }

  /** The same loop with `asyncio` imported: the reached recipients are the
      successes and the rest of the recipients the failures. */
  function AdminBroadcastCorrected(s: Store, cmd: seq<string>, forwarded: int -> bool): (r: Counts)
    ensures r.success == |Accepted(s, Broadcast.Audience(cmd), forwarded)|
    ensures r.success + r.fail == |Recipients(s, Broadcast.Audience(cmd))|
  {
    var f := Broadcast.Audience(cmd);
    ForwardLoopCorrected(s, Cursor(s, f), forwarded);
    CursorCounts(s, f, forwarded);
    ForwardLoop(s, Cursor(s, f), forwarded, true)
  }

  /** As written, every attempted recipient is counted as failed, and the
      delivered ones are counted as successful as well. */
  lemma {:induction false} ForwardLoopAsWritten(s: Store, ids: seq<int>, forwarded: int -> bool)
    ensures ForwardLoop(s, ids, forwarded, false) == Counts(Delivered(s, ids, forwarded), Attempted(s, ids))
  {
    if |ids| > 0 {
      ForwardLoopAsWritten(s, ids[1..], forwarded);
    }
  }

  /** One unbanned user and a forward that goes through: one success and
      one failure are reported for a single recipient. */
  lemma AdminBroadcastDoubleCounts(u: UserRecord)
    requires !u.isBanned
    ensures AdminBroadcast(map[7 := u], ["/broadcast"], _ => true) == Counts(1, 1)
  {
    var s := map[7 := u];
    assert Selected(s, AllUsers) == {7};
    assert Cursor(s, AllUsers) == [7];
  }

  /** With the import in place, each attempted recipient is counted exactly
      once, as a success when delivered and as a failure otherwise. */
  lemma {:induction false} ForwardLoopCorrected(s: Store, ids: seq<int>, forwarded: int -> bool)
    ensures ForwardLoop(s, ids, forwarded, true).success == Delivered(s, ids, forwarded)
    ensures ForwardLoop(s, ids, forwarded, true).success + ForwardLoop(s, ids, forwarded, true).fail
            == Attempted(s, ids)
  {
    if |ids| > 0 {
      ForwardLoopCorrected(s, ids[1..], forwarded);
    }
  }
}

=== FILE: broadcast.dfy ===
/** `Rexbots/broadcast.py`: the retrying forward to one user, the
    `/broadcast` dispatch loop with its counters and progress edits, and the
    `/users` report.  The outcome of each forward attempt is a parameter;
    sleeping and editing the status message are not modelled beyond which
    edits happen. */
module Broadcast {
  import opened Wrappers
  import opened Text
  import opened UserStore

  /** `premium_only = len(cmd) > 1 and cmd[1].lower() == "premium_only"` */
  predicate PremiumOnly(cmd: seq<string>) {
    |cmd| > 1 && Lower(cmd[1]) == "premium_only"
  }

  /** The query a broadcast iterates over. */
  function Audience(cmd: seq<string>): (f: Filter)
    ensures f == PremiumFlagged <==> PremiumOnly(cmd)
    ensures f != BannedFlagged
  {
    if PremiumOnly(cmd) then PremiumFlagged else AllUsers
  }

  // ---------------------------------------------------------------------
  // broadcast_messages
  // ---------------------------------------------------------------------

  /** How a forward attempt that does not hit a flood limit ends. */
  datatype Final = Delivered | Deactivated | UserBlocked | PeerInvalid | OtherError

  /** The attempts made for one user: a `FloodWait` of the given number of
      seconds for each entry of `floodWaits`, each followed by a sleep and a
      retry, then the final outcome. */
  datatype Attempt = Attempt(floodWaits: seq<nat>, final: Final)

  /** `(ok, status)` as returned to the loop. */
  datatype SendResult = SendResult(ok: bool, status: string)

  /** The outcomes after which the record is deleted. */
  predicate Removes(f: Final) {
    f == Deactivated || f == PeerInvalid
  }

  /** `broadcast_messages`: the result and the store afterwards. */
  function SendWithRetry(s: Store, id: int, a: Attempt): (r: (SendResult, Store))
    ensures r.0.ok <==> a.final == Delivered
    ensures r.0.ok ==> r.0.status == "Success"
    ensures !r.0.ok ==> r.0.status == "Blocked" || r.0.status == "Deleted" || r.0.status == "Error"
    ensures r.0.status == "Deleted" <==> a.final == Deactivated
    ensures r.0.status == "Blocked" <==> a.final == UserBlocked
    ensures r.1.Keys == (if Removes(a.final) then s.Keys - {id} else s.Keys)
    ensures forall k :: k in r.1 ==> r.1[k] == s[k]
    decreases |a.floodWaits|
  {
    if |a.floodWaits| > 0 then SendWithRetry(s, id, a.(floodWaits := a.floodWaits[1..]))
    else match a.final
      case Delivered => (SendResult(true, "Success"), s)
      case Deactivated => (SendResult(false, "Deleted"), DeleteUser(s, id))
      case UserBlocked => (SendResult(false, "Blocked"), s)
      case PeerInvalid => (SendResult(false, "Error"), DeleteUser(s, id))
      case OtherError => (SendResult(false, "Error"), s)
  }

  /** Flood waits only delay: the result is the one of the final attempt. */
  lemma {:induction false} FloodWaitsTransparent(s: Store, id: int, a: Attempt)
    ensures SendWithRetry(s, id, a) == SendWithRetry(s, id, Attempt([], a.final))
    decreases |a.floodWaits|
  {
    if |a.floodWaits| > 0 {
      FloodWaitsTransparent(s, id, a.(floodWaits := a.floodWaits[1..]));
    }
  }

  /** An invalid peer is deleted from the store yet reported as an error,
      not as a deletion. */
  lemma PeerInvalidDeletedButReportedAsError(s: Store, id: int)
    ensures SendWithRetry(s, id, Attempt([], PeerInvalid)).0 == SendResult(false, "Error")
    ensures id !in SendWithRetry(s, id, Attempt([], PeerInvalid)).1
  {
  }

  // ---------------------------------------------------------------------
  // /broadcast
  // ---------------------------------------------------------------------

  datatype Tally = Tally(done: nat, success: nat, blocked: nat, deleted: nat, failed: nat)

  /** The sum of the four outcome counters. */
  function Classified(t: Tally): nat {
    t.success + t.blocked + t.deleted + t.failed
  }

  /** The counter update of one loop iteration, from the returned pair. */
  function Step(t: Tally, r: SendResult): (u: Tally)
    ensures u.done == t.done + 1
    ensures Classified(u) == Classified(t) + (if r.ok || r.status in ["Blocked", "Deleted", "Error"] then 1 else 0)
    ensures u.success == t.success + (if r.ok then 1 else 0)
  {
    var u := t.(done := t.done + 1);
    if r.ok then u.(success := u.success + 1)
    else if r.status == "Blocked" then u.(blocked := u.blocked + 1)
    else if r.status == "Deleted" then u.(deleted := u.deleted + 1)
    else if r.status == "Error" then u.(failed := u.failed + 1)
    else u
  }

  /** The counter an outcome belongs in, stated on the outcome itself. */
  function Bump(t: Tally, f: Final): Tally {
    match f
    case Delivered => t.(done := t.done + 1, success := t.success + 1)
    case UserBlocked => t.(done := t.done + 1, blocked := t.blocked + 1)
    case Deactivated => t.(done := t.done + 1, deleted := t.deleted + 1)
    case PeerInvalid => t.(done := t.done + 1, failed := t.failed + 1)
    case OtherError => t.(done := t.done + 1, failed := t.failed + 1)
  }

  /** The status strings route every outcome to its own counter. */
  lemma StepMatchesOutcome(t: Tally, s: Store, id: int, a: Attempt)
    ensures Step(t, SendWithRetry(s, id, a).0) == Bump(t, a.final)
    ensures Classified(Bump(t, a.final)) == Classified(t) + 1
  {
  }

  /** A progress edit is due after `done` users: every tenth, and the last. */
  predicate Due(done: nat, total: nat) {
    done % 10 == 0 || done == total
  }

  /** A user the loop does not skip. */
  predicate Eligible(s: Store, id: int) {
    id != 0 && !IsBanned(s, id)
  }

  /** The `done` values in `(lo, hi]` at which an edit is due, ascending. */
  function DueBetween(lo: nat, hi: nat, total: nat): seq<int>
    decreases hi - lo
  {
    if lo >= hi then []
    else
      var rest := DueBetween(lo + 1, hi, total);
      if Due(lo + 1, total) then [lo + 1] + rest else rest
  }

  /** `DueBetween` lists, in ascending order, exactly the due values in `(lo, hi]`. */
  lemma {:induction false} DueBetweenExact(lo: nat, hi: nat, total: nat)
    ensures var r := DueBetween(lo, hi, total);
            && (forall i :: 0 <= i < |r| ==> lo < r[i] <= hi && Due(r[i], total))
            && (forall d: nat :: lo < d <= hi && Due(d, total) ==> d in r)
            && StrictlyAscending(r)
    decreases hi - lo
  {
    if lo < hi {
      DueBetweenExact(lo + 1, hi, total);
    }
  }

  datatype Run = Run(tally: Tally, edits: seq<int>, store: Store)

  /** One iteration for a user the loop does not skip: forward, count, and
      edit the status message when due. */
  function Visit(s: Store, id: int, total: nat, outcome: int -> Attempt, t: Tally): (r: Run)
    ensures r.tally == Bump(t, outcome(id).final)
    ensures r.edits == DueBetween(t.done, t.done + 1, total)
    ensures r.store == if Removes(outcome(id).final) then s - {id} else s
  {
    var (res, s1) := SendWithRetry(s, id, outcome(id));
    StepMatchesOutcome(t, s, id, outcome(id));
    var t1 := Step(t, res);
    Run(t1, if Due(t1.done, total) then [t1.done] else [], s1)
  }

  /** Due values split at any point in between. */
  lemma DueBetweenStep(lo: nat, hi: nat, total: nat)
    requires lo < hi
    ensures DueBetween(lo, hi, total) == DueBetween(lo, lo + 1, total) + DueBetween(lo + 1, hi, total)
  {
  }

  /** The loop from the current counters `t` over the remaining cursor ids.
      `edits` lists the `done` values at which the status message is edited. */
  function Dispatch(s: Store, ids: seq<int>, total: nat, outcome: int -> Attempt, t: Tally): (r: Run)
    requires Classified(t) == t.done
    ensures Classified(r.tally) == r.tally.done
    ensures t.done <= r.tally.done <= t.done + |ids|
    ensures r.edits == DueBetween(t.done, r.tally.done, total)
    decreases |ids|
  {
    if |ids| == 0 then Run(t, [], s)
    else if !Eligible(s, ids[0]) then Dispatch(s, ids[1..], total, outcome, t)
    else
      var v := Visit(s, ids[0], total, outcome, t);
      StepMatchesOutcome(t, s, ids[0], outcome(ids[0]));
      var rest := Dispatch(v.store, ids[1..], total, outcome, v.tally);
      DueBetweenStep(t.done, rest.tally.done, total);
      Run(rest.tally, v.edits + rest.edits, rest.store)
  }

  /** The ids the loop forwards to, judged on the store before the loop. */
  function Reached(s: Store, ids: seq<int>): (r: seq<int>)
    ensures |r| <= |ids|
    ensures forall id :: id in r ==> id in ids && Eligible(s, id)
  {
    if |ids| == 0 then []
    else (if Eligible(s, ids[0]) then [ids[0]] else []) + Reached(s, ids[1..])
  }

  /** Counters obtained by classifying each reached user's final outcome. */
  function Expected(t: Tally, ids: seq<int>, outcome: int -> Attempt): Tally
    decreases |ids|
  {
    if |ids| == 0 then t else Expected(Bump(t, outcome(ids[0]).final), ids[1..], outcome)
  }

  /** The users whose record the loop deletes. */
  function RemovedIds(ids: seq<int>, outcome: int -> Attempt): set<int> {
    set id | id in ids && Removes(outcome(id).final)
  }


  /** Deleting a user does not change who else is eligible. */
  lemma {:induction false} ReachedAfterDelete(s: Store, id: int, ids: seq<int>)
    requires id !in ids
    ensures Reached(s - {id}, ids) == Reached(s, ids)
  {
    if |ids| > 0 {
      ReachedAfterDelete(s, id, ids[1..]);
    }
  }

  /** The deletion a visit may perform leaves the later users' eligibility alone. */
  lemma ReachedAfterVisit(s: Store, id: int, rest: seq<int>, total: nat, outcome: int -> Attempt, t: Tally)
    requires id !in rest
    ensures Reached(Visit(s, id, total, outcome, t).store, rest) == Reached(s, rest)
  {
    if Removes(outcome(id).final) {
      ReachedAfterDelete(s, id, rest);
    }
  }

  /** The loop's counters classify the final outcome of every eligible user. */
  lemma {:induction false} DispatchMatchesReference(s: Store, ids: seq<int>, total: nat,
                                                     outcome: int -> Attempt, t: Tally)
    requires Classified(t) == t.done
    requires Distinct(ids)
    ensures Dispatch(s, ids, total, outcome, t).tally == Expected(t, Reached(s, ids), outcome)
    decreases |ids|
  {
    if |ids| > 0 {
      var id := ids[0];
      var rest := ids[1..];
      assert Distinct(rest);
      assert id !in rest;
      if !Eligible(s, id) {
        DispatchMatchesReference(s, rest, total, outcome, t);
        assert Reached(s, ids) == Reached(s, rest);
      } else {
        var v := Visit(s, id, total, outcome, t);
        StepMatchesOutcome(t, s, id, outcome(id));
        DispatchMatchesReference(v.store, rest, total, outcome, v.tally);
        ReachedAfterVisit(s, id, rest, total, outcome, t);
        assert Reached(s, ids) == [id] + Reached(s, rest);
      }
    }
  }

  /** Exactly the deactivated and invalid users among the eligible ones are
      gone from the store after the loop; every other record is untouched. */
  lemma {:induction false} DispatchDeletesExactly(s: Store, ids: seq<int>, total: nat,
                                                   outcome: int -> Attempt, t: Tally)
    requires Classified(t) == t.done
    requires Distinct(ids)
    ensures Dispatch(s, ids, total, outcome, t).store == s - RemovedIds(Reached(s, ids), outcome)
    decreases |ids|
  {
    if |ids| > 0 {
      var id := ids[0];
      var rest := ids[1..];
      FirstNotInRest(ids);
      if !Eligible(s, id) {
        DispatchDeletesExactly(s, rest, total, outcome, t);
        assert Reached(s, ids) == Reached(s, rest);
      } else {
        var v := Visit(s, id, total, outcome, t);
        StepMatchesOutcome(t, s, id, outcome(id));
        DispatchDeletesExactly(v.store, rest, total, outcome, v.tally);
        ReachedAfterVisit(s, id, rest, total, outcome, t);
        assert Reached(s, ids) == [id] + Reached(s, rest);
        RemovedIdsCons(id, Reached(s, rest), outcome);
      }
    }
  }

  /** The removed ids of a reached list, split at its head. */
  lemma RemovedIdsCons(id: int, rest: seq<int>, outcome: int -> Attempt)
    ensures RemovedIds([id] + rest, outcome)
         == (if Removes(outcome(id).final) then {id} else {}) + RemovedIds(rest, outcome)
  {
  }

  /** `sum / n if n > 0 else 0`, the average shown by `/users` and `/stats`. */
  function Mean(sum: nat, n: nat): (m: real)
    ensures n > 0 ==> m * (n as real) == sum as real
    ensures n == 0 ==> m == 0.0
    ensures m >= 0.0
  {
    if n > 0 then (sum as real) / (n as real) else 0.0
  }

  /** `part / whole * 100`, without a guard: the caller ensures `whole > 0`. */
  function Percent(part: nat, whole: nat): (p: real)
    requires whole > 0
    ensures p * (whole as real) == (part as real) * 100.0
    ensures p >= 0.0
    ensures part <= whole ==> p <= 100.0
    ensures part < whole ==> p < 100.0
  {
    var q := (part as real) / (whole as real);
    assert q * (whole as real) == part as real;
    assert part <= whole ==> q <= 1.0;
    assert part < whole ==> q < 1.0;
    q * 100.0
  }

  /** `percentage = done / total * 100 if total > 0 else 0` */
  function Percentage(done: nat, total: nat): (p: real)
    ensures total > 0 ==> p * (total as real) == (done as real) * 100.0
    ensures total == 0 ==> p == 0.0
    ensures 0.0 <= p && (done <= total ==> p <= 100.0)
  {
    if total > 0 then Percent(done, total) else 0.0
  }

  /** `filled = int(percentage / (100 / 20))` */
  function BarFilled(done: nat, total: nat): int {
    (Percentage(done, total) / 5.0).Floor
  }

  /** The bar never overflows its twenty cells while done does not exceed
      total, and is full exactly when everyone is done. */
  lemma BarBounds(done: nat, total: nat)
    requires done <= total
    ensures 0 <= BarFilled(done, total) <= 20
    ensures total > 0 ==> (BarFilled(done, total) == 20 <==> done == total)
  {
    var x := Percentage(done, total) / 5.0;
    assert 0.0 <= x <= 20.0;
    if total > 0 && done == total {
      assert Percentage(done, total) == 100.0;
      assert x == 20.0;
    }
    if total > 0 && done < total {
      assert x < 20.0;
    }
  }

  datatype BroadcastReply =
    /** The command was not a reply to a message. */
    | NotAReply
    | Completed(audience: Filter, total: nat, run: Run)

  /** `/broadcast [premium_only]`: the total is counted before the loop. */
  function BroadcastCommand(s: Store, cmd: seq<string>, isReply: bool, outcome: int -> Attempt): (r: BroadcastReply)
    ensures r.NotAReply? <==> !isReply
    ensures r.Completed? ==>
              && r.audience == Audience(cmd) && r.total == Count(s, r.audience)
              && Classified(r.run.tally) == r.run.tally.done <= r.total
              && (forall d: nat :: 0 < d <= r.run.tally.done ==> (d in r.run.edits <==> Due(d, r.total)))
  {
    if !isReply then NotAReply
    else
      var f := Audience(cmd);
      var total := Count(s, f);
      var run := Dispatch(s, Cursor(s, f), total, outcome, Tally(0, 0, 0, 0, 0));
      DueBetweenExact(0, run.tally.done, total);
      Completed(f, total, run)
  }

  /** When no selected user is skipped, the loop reaches the counted total
      and its last edit is the one at `done == total`. */
  lemma BroadcastReachesTotal(s: Store, cmd: seq<string>, outcome: int -> Attempt)
    requires forall id :: id in Selected(s, Audience(cmd)) ==> Eligible(s, id)
    requires Count(s, Audience(cmd)) > 0
    ensures var r := BroadcastCommand(s, cmd, true, outcome);
            && r.run.tally.done == r.total
            && |r.run.edits| > 0 && r.run.edits[|r.run.edits| - 1] == r.total
  {
    var f := Audience(cmd);
    CursorReachedWhole(s, f);
    DispatchReachesTotal(s, Cursor(s, f), outcome);
  }

  /** A loop over distinct ids that reaches all of them, counted in
      advance, ends with the edit at the total. */
  lemma DispatchReachesTotal(s: Store, ids: seq<int>, outcome: int -> Attempt)
    requires Distinct(ids) && Reached(s, ids) == ids && |ids| > 0
    ensures var run := Dispatch(s, ids, |ids|, outcome, Tally(0, 0, 0, 0, 0));
            && run.tally.done == |ids|
            && |run.edits| > 0 && run.edits[|run.edits| - 1] == |ids|
  {
    var t0 := Tally(0, 0, 0, 0, 0);
    var run := Dispatch(s, ids, |ids|, outcome, t0);
    DispatchDone(s, ids, |ids|, outcome, t0);
    assert run.tally.done == |ids|;
    assert run.edits == DueBetween(0, |ids|, |ids|);
    DueBetweenEndsAtTotal(0, |ids|);
  }

  /** The loop forwards once to every reached user. */
  lemma DispatchDone(s: Store, ids: seq<int>, total: nat, outcome: int -> Attempt, t: Tally)
    requires Classified(t) == t.done
    requires Distinct(ids)
    ensures Dispatch(s, ids, total, outcome, t).tally.done == t.done + |Reached(s, ids)|
  {
    DispatchMatchesReference(s, ids, total, outcome, t);
    ExpectedDone(t, Reached(s, ids), outcome);
  }

  /** A cursor lists distinct ids; when every selected user is eligible the
      loop reaches all of them. */
  lemma CursorReachedWhole(s: Store, f: Filter)
    requires forall id :: id in Selected(s, f) ==> Eligible(s, id)
    ensures Distinct(Cursor(s, f))
    ensures Reached(s, Cursor(s, f)) == Cursor(s, f)
  {
    var ids := Cursor(s, f);
    CursorDistinct(s, f);
    forall i | 0 <= i < |ids| ensures Eligible(s, ids[i]) {
      assert ids[i] in ids;
      assert ids[i] in Selected(s, f);
    }
    AllEligibleReached(s, ids);
  }

  /** With `hi == total > lo`, the last due value is `total` itself. */
  lemma {:induction false} DueBetweenEndsAtTotal(lo: nat, total: nat)
    requires lo < total
    ensures var r := DueBetween(lo, total, total); |r| > 0 && r[|r| - 1] == total
    decreases total - lo
  {
    if lo + 1 < total {
      DueBetweenEndsAtTotal(lo + 1, total);
    }
  }

  lemma {:induction false} AllEligibleReached(s: Store, ids: seq<int>)
    requires forall i :: 0 <= i < |ids| ==> Eligible(s, ids[i])
    ensures Reached(s, ids) == ids
  {
    if |ids| > 0 {
      AllEligibleReached(s, ids[1..]);
    }
  }

  lemma {:induction false} ExpectedDone(t: Tally, ids: seq<int>, outcome: int -> Attempt)
    ensures Expected(t, ids, outcome).done == t.done + |ids|
    decreases |ids|
  {
    if |ids| > 0 {
      ExpectedDone(Bump(t, outcome(ids[0]).final), ids[1..], outcome);
    }
  }

  // ---------------------------------------------------------------------
  // /users
  // ---------------------------------------------------------------------

  datatype UsersReply =
    | InvalidFilter
    /** The analytics edit; `exported` lists the users written to the JSON
        export, empty when "No users found" is sent instead. */
    | Report(filter: Filter, total: nat, activeSessions: nat, totalUsage: nat,
             averageUsage: real, exported: seq<int>)

  /** `bool(user.get("session"))`: an empty credential does not count. */
  predicate SessionTruthy(o: Option<string>) {
    o.Some? && o.value != ""
  }

  /** The filter word, lower-cased; "all" when absent. */
  function FilterWord(cmd: seq<string>): string {
    if |cmd| > 1 then Lower(cmd[1]) else "all"
  }

  /** `/users [all|premium|banned]` */
  function UsersCommand(s: Store, cmd: seq<string>): (r: UsersReply)
    ensures r.InvalidFilter? <==> FilterWord(cmd) !in ["all", "premium", "banned"]
    ensures r.Report? ==>
              && (FilterWord(cmd) == "premium" <==> r.filter == PremiumFlagged)
              && (FilterWord(cmd) == "banned" <==> r.filter == BannedFlagged)
              && (forall id :: id in r.exported <==> id in s && Selects(r.filter, s[id]))
              && r.total == Count(s, r.filter) && |r.exported| == r.total
              && Distinct(r.exported)
              && r.averageUsage == Mean(r.totalUsage, r.total)
    ensures r.Report? ==>
              && r.activeSessions == |SessionHolders(s, r.filter, SessionTruthy)|
              && r.totalUsage == SumUsage(s, Selected(s, r.filter))
  {
    var word := FilterWord(cmd);
    if word !in ["all", "premium", "banned"] then InvalidFilter
    else
      var f := if word == "all" then AllUsers else if word == "premium" then PremiumFlagged else BannedFlagged;
      var ids := Cursor(s, f);
      var total := Count(s, f);
      var usage := TotalUsage(s, ids);
      CursorUsage(s, f);
      CursorSessions(s, f, SessionTruthy);
      CursorDistinct(s, f);
      Report(f, total, CountSessions(s, ids, SessionTruthy), usage, Mean(usage, total), ids)
  }

  /** The filter word is case-insensitive. */
  lemma UsersFilterCaseInsensitive(s: Store, a: string, b: string)
    requires Lower(a) == Lower(b)
    ensures UsersCommand(s, ["/users", a]) == UsersCommand(s, ["/users", b])
  {
  }

  /** The export is empty exactly when the filter selects nobody. */
  lemma UsersExportEmptyIffNone(s: Store, cmd: seq<string>)
    requires UsersCommand(s, cmd).Report?
    ensures UsersCommand(s, cmd).exported == [] <==> Selected(s, UsersCommand(s, cmd).filter) == {}
  {
  }
}

=== FILE: calendar.dfy ===
/** The expiry date argument of `/add_premium`: `datetime.strptime(tok,
    "%Y-%m-%d")` and the position of that date's midnight on the server
    clock, counted as Python's proleptic Gregorian ordinals are. */
module Calendar {
  import opened Wrappers
  import opened Text
  import opened UserStore

  datatype Date = Date(year: int, month: int, day: int)

  predicate IsLeap(y: int) {
    y % 4 == 0 && (y % 100 != 0 || y % 400 == 0)
  }

  function DaysInMonth(y: int, m: int): int
    requires 1 <= m <= 12
  {
    if m == 2 then (if IsLeap(y) then 29 else 28)
    else if m == 4 || m == 6 || m == 9 || m == 11 then 30
    else 31
  }

  /** The dates `datetime` can represent (years 1 to 9999). */
  predicate Valid(d: Date) {
    1 <= d.year <= 9999 && 1 <= d.month <= 12 && 1 <= d.day <= DaysInMonth(d.year, d.month)
  }

  /** Days in the years before `y`, as CPython's `_days_before_year`. */
  function DaysBeforeYear(y: int): int {
    var p := y - 1;
    p * 365 + p / 4 - p / 100 + p / 400
  }

  /** Days in the months of `y` before `m`, as CPython's `_days_before_month`. */
  function DaysBeforeMonth(y: int, m: int): int
    requires 1 <= m <= 12
  {
    var table := [0, 31, 59, 90, 120, 151, 181, 212, 243, 273, 304, 334];
    table[m - 1] + (if m > 2 && IsLeap(y) then 1 else 0)
  }

  /** `date.toordinal()`: 0001-01-01 is day 1. */
  function Ordinal(d: Date): int
    requires Valid(d)
  {
    DaysBeforeYear(d.year) + DaysBeforeMonth(d.year, d.month) + d.day
  }

  /** The server-clock time of the date's midnight. */
  function Midnight(d: Date): Time
    requires Valid(d)
  {
    (Ordinal(d) - 1) * DayMs
  }

  /** The calendar day after `d`. */
  function NextDay(d: Date): (r: Date)
    requires Valid(d)
  {
    if d.day < DaysInMonth(d.year, d.month) then d.(day := d.day + 1)
    else if d.month < 12 then Date(d.year, d.month + 1, 1)
    else Date(d.year + 1, 1, 1)
  }

  lemma MulNonNegative(a: int, b: int)
    requires a >= 0 && b >= 0
    ensures a * b >= 0
  {
  }

  lemma DivUnique(n: int, k: int, q: int, r: int)
    requires k > 0 && 0 <= r < k && n == k * q + r
    ensures n / k == q && n % k == r
  {
    var q' := n / k;
    var r' := n % k;
    assert n == k * q' + r';
    assert k * (q - q') == r' - r;
    if q > q' {
      MulNonNegative(k, q - q' - 1);
      assert false;
    } else if q < q' {
      MulNonNegative(k, q' - q - 1);
      assert false;
    }
  }

  lemma StepDiv(p: int, k: int)
    requires p >= 0 && k > 0
    ensures (p + 1) / k == p / k + (if (p + 1) % k == 0 then 1 else 0)
  {
    var q := p / k;
    var r := p % k;
    assert p == k * q + r;
    if r == k - 1 {
      assert p + 1 == k * (q + 1) + 0;
      DivUnique(p + 1, k, q + 1, 0);
    } else {
      assert p + 1 == k * q + (r + 1);
      DivUnique(p + 1, k, q, r + 1);
    }
  }

  /** A year is 365 days long, 366 when it is a leap year. */
  lemma YearLength(y: int)
    requires y >= 1
    ensures DaysBeforeYear(y + 1) == DaysBeforeYear(y) + (if IsLeap(y) then 366 else 365)
  {
    var p := y - 1;
    StepDiv(p, 4);
    StepDiv(p, 100);
    StepDiv(p, 400);
    assert (p + 1) % 4 == 0 <==> y % 4 == 0;
    assert (p + 1) % 100 == 0 <==> y % 100 == 0;
    assert (p + 1) % 400 == 0 <==> y % 400 == 0;
  }

  /** The month table adds the length of each month to the one before. */
  lemma MonthStep(y: int, m: int)
    requires 1 <= m < 12
    ensures DaysBeforeMonth(y, m + 1) == DaysBeforeMonth(y, m) + DaysInMonth(y, m)
  {
  }

  /** Consecutive calendar days are consecutive ordinals, so the clock value
      of a date moves forward by exactly one day per calendar day. */
  lemma OrdinalNextDay(d: Date)
    requires Valid(d) && d.year < 9999
    ensures Valid(NextDay(d))
    ensures Ordinal(NextDay(d)) == Ordinal(d) + 1
    ensures Midnight(NextDay(d)) == Midnight(d) + DayMs
  {
    OrdinalStep(d);
    var o := Ordinal(d);
    assert Midnight(NextDay(d)) == (o + 1 - 1) * DayMs;
    assert Midnight(d) == (o - 1) * DayMs;
  }

  /** The day after a date has the next ordinal. */
  lemma OrdinalStep(d: Date)
    requires Valid(d) && d.year < 9999
    ensures Valid(NextDay(d)) && Ordinal(NextDay(d)) == Ordinal(d) + 1
  {
    var n := NextDay(d);
    if d.day < DaysInMonth(d.year, d.month) {
      assert n == d.(day := d.day + 1);
    } else if d.month < 12 {
      assert n == Date(d.year, d.month + 1, 1);
      MonthStep(d.year, d.month);
    } else {
      assert n == Date(d.year + 1, 1, 1);
      YearLength(d.year);
      assert Ordinal(n) == DaysBeforeYear(d.year + 1) + 1;
      assert Ordinal(d) == DaysBeforeYear(d.year) + DaysBeforeMonth(d.year, 12) + 31;
    }
  }

  // ---------------------------------------------------------------------
  // strptime("%Y-%m-%d")
  // ---------------------------------------------------------------------

  /** The spellings `%m` matches: `1[0-2]|0[1-9]|[1-9]`. */
  predicate MonthSpelling(s: string) {
    || (|s| == 1 && '1' <= s[0] <= '9')
    || (|s| == 2 && s[0] == '1' && '0' <= s[1] <= '2')
    || (|s| == 2 && s[0] == '0' && '1' <= s[1] <= '9')
  }

  /** The spellings `%d` matches: `3[01]|[12]\d|0[1-9]|[1-9]| [1-9]`. */
  predicate DaySpelling(s: string) {
    || (|s| == 1 && '1' <= s[0] <= '9')
    || (|s| == 2 && s[0] == '3' && '0' <= s[1] <= '1')
    || (|s| == 2 && '1' <= s[0] <= '2' && IsDigit(s[1]))
    || (|s| == 2 && s[0] == '0' && '1' <= s[1] <= '9')
    || (|s| == 2 && s[0] == ' ' && '1' <= s[1] <= '9')
  }

  /** The number a one- or two-character month or day field stands for. */
  function FieldValue(s: string): int
    requires MonthSpelling(s) || DaySpelling(s)
  {
    if |s| == 1 then DigitValue(s[0])
    else if s[0] == ' ' then DigitValue(s[1])
    else DigitValue(s[0]) * 10 + DigitValue(s[1])
  }

  /** `datetime.strptime(tok, "%Y-%m-%d")`: four year digits, a dash, a
      month, a dash, a day, nothing else, and a date that exists; a
      `ValueError` is `None`. */
  function ParseIsoDate(tok: string): (r: Option<Date>)
    ensures r.Some? ==> Valid(r.value)
    ensures r.Some? ==> |tok| >= 8 && tok[..4] == Pad4(r.value.year) && tok[4] == '-'
  {
    if |tok| < 8 || tok[4] != '-' || !AllDigits(tok[..4]) then None
    else
      var fields := Split(tok[5..], '-');
      if |fields| != 2 || !MonthSpelling(fields[0]) || !DaySpelling(fields[1]) then None
      else
        var d := Date(DigitsValue(tok[..4]), FieldValue(fields[0]), FieldValue(fields[1]));
        if Valid(d) then DigitsPad4(tok[..4]); Some(d) else None
  }

  /** Four digits read as a number and written back with `Pad4` are the
      same four digits. */
  lemma DigitsPad4(s: string)
    requires |s| == 4 && AllDigits(s)
    ensures DigitsValue(s) < 10000 && Pad4(DigitsValue(s)) == s
  {
    var d0, d1, d2, d3 := DigitValue(s[0]), DigitValue(s[1]), DigitValue(s[2]), DigitValue(s[3]);
    var c0, c1, c2, c3 := s[0], s[1], s[2], s[3];
    assert s == [c0, c1, c2, c3];
    assert DigitsValue([c0]) == d0 by {
      assert [c0][..0] == [];
    }
    assert DigitsValue([c0, c1]) == d0 * 10 + d1 by {
      assert [c0, c1][..1] == [c0];
    }
    assert DigitsValue([c0, c1, c2]) == (d0 * 10 + d1) * 10 + d2 by {
      assert [c0, c1, c2][..2] == [c0, c1];
    }
    assert [c0, c1, c2, c3][..3] == [c0, c1, c2];
    var n := DigitsValue(s);
    assert n == ((d0 * 10 + d1) * 10 + d2) * 10 + d3;
    ShiftDigit((d0 * 10 + d1) * 10 + d2, d3);
    ShiftDigit(d0 * 10 + d1, d2);
    ShiftDigit(d0, d1);
    DigitRoundTrip(s[0]);
    DigitRoundTrip(s[1]);
    DigitRoundTrip(s[2]);
    DigitRoundTrip(s[3]);
  }

  lemma ShiftDigit(m: nat, d: nat)
    requires d < 10
    ensures (m * 10 + d) / 10 == m && (m * 10 + d) % 10 == d
  {
  }

  /** Every spelling `%Y-%m-%d` matches is read as the date it names, or
      refused when that date does not exist. */
  lemma ParseIsoDateAccepts(y: string, m: string, dd: string)
    requires |y| == 4 && AllDigits(y) && MonthSpelling(m) && DaySpelling(dd)
    ensures var d := Date(DigitsValue(y), FieldValue(m), FieldValue(dd));
            ParseIsoDate(y + "-" + m + "-" + dd) == if Valid(d) then Some(d) else None
  {
    var tok := y + "-" + m + "-" + dd;
    assert tok[..4] == y;
    assert tok[4] == '-';
    assert tok[5..] == m + "-" + dd;
    assert '-' !in m && '-' !in dd;
    SplitTwo(m, dd, '-');
  }

  /** The converse of `ParseIsoDateAccepts`: an accepted token is exactly
      four digits, a dash, a `%m` spelling, a dash and a `%d` spelling, with
      nothing left over, and the date is the one those fields name. */
  lemma ParseIsoDateOnlyGrammar(tok: string)
    ensures ParseIsoDate(tok).Some? ==>
              var y, f := tok[..4], Split(tok[5..], '-');
              && AllDigits(y) && |f| == 2 && MonthSpelling(f[0]) && DaySpelling(f[1])
              && tok == y + "-" + f[0] + "-" + f[1]
              && ParseIsoDate(tok).value == Date(DigitsValue(y), FieldValue(f[0]), FieldValue(f[1]))
  {
    if ParseIsoDate(tok).Some? {
      var f := Split(tok[5..], '-');
      JoinSplit(tok[5..], '-');
      assert Join(f, '-') == f[0] + "-" + f[1] by {
        assert f[1..] == [f[1]];
      }
      assert tok == tok[..4] + "-" + tok[5..];
    }
  }

  function Pad2(n: nat): (r: string)
    requires n < 100
    ensures |r| == 2
  {
    [DigitChar(n / 10), DigitChar(n % 10)]
  }

  function Pad4(n: nat): (r: string)
    requires n < 10000
    ensures |r| == 4
  {
    [DigitChar(n / 10 / 10 / 10), DigitChar(n / 10 / 10 % 10), DigitChar(n / 10 % 10), DigitChar(n % 10)]
  }

  /** The `YYYY-MM-DD` spelling of a date. */
  function FormatIsoDate(d: Date): string
    requires Valid(d)
  {
    Pad4(d.year) + "-" + Pad2(d.month) + "-" + Pad2(d.day)
  }

  lemma Pad4Value(n: nat)
    requires n < 10000
    ensures AllDigits(Pad4(n)) && DigitsValue(Pad4(n)) == n
  {
    var q1 := n / 10;
    var q2 := q1 / 10;
    var q3 := q2 / 10;
    assert q3 < 10;
    var c0, c1, c2, c3 := DigitChar(q3), DigitChar(q2 % 10), DigitChar(q1 % 10), DigitChar(n % 10);
    assert Pad4(n) == [c0, c1, c2, c3];
    assert DigitsValue([c0]) == q3 by {
      assert [c0][..0] == [];
    }
    assert DigitsValue([c0, c1]) == q2 by {
      assert [c0, c1][..1] == [c0];
    }
    assert DigitsValue([c0, c1, c2]) == q1 by {
      assert [c0, c1, c2][..2] == [c0, c1];
    }
    assert [c0, c1, c2, c3][..3] == [c0, c1, c2];
  }

  /** Every valid date, written as `YYYY-MM-DD`, is read back as itself. */
  lemma ParseFormatRoundTrip(d: Date)
    requires Valid(d)
    ensures ParseIsoDate(FormatIsoDate(d)) == Some(d)
  {
    var tok := FormatIsoDate(d);
    var m := Pad2(d.month);
    var dd := Pad2(d.day);
    assert tok[..4] == Pad4(d.year);
    Pad4Value(d.year);
    assert tok[4] == '-';
    assert tok[5..] == m + "-" + dd;
    assert '-' !in m && '-' !in dd;
    SplitTwo(m, dd, '-');
    assert MonthSpelling(m) && FieldValue(m) == d.month;
    assert DaySpelling(dd) && FieldValue(dd) == d.day;
  }
}

=== FILE: formatting.dfy ===
/** The two display helpers of `Rexbots/start.py`: `humanbytes`, of which
    only the choice of unit is modelled, and `TimeFormatter`. */
module Formatting {
  import opened Wrappers
  import opened Text

  // ---------------------------------------------------------------------
  // humanbytes
  // ---------------------------------------------------------------------

  function Pow1024(n: nat): (r: nat)
    ensures r >= 1
  {
    if n == 0 then 1 else 1024 * Pow1024(n - 1)
  }

  /** The letters of the unit table `{0: ' ', 1: 'K', 2: 'M', 3: 'G', 4: 'T'}`. */
  const UnitLetters: seq<char> := [' ', 'K', 'M', 'G', 'T']

  /** What `humanbytes` makes of a byte count: `"0B"`, a mantissa with the
      number of 1024-fold divisions it took, or the `KeyError` raised when
      the loop divides five times or more. */
  datatype Human = ZeroBytes | Scaled(mantissa: real, exponent: nat) | NoUnit

  function UnitLetter(h: Human): char
    requires h.Scaled? && h.exponent < |UnitLetters|
  {
    UnitLetters[h.exponent]
  }

  /** `humanbytes(size)`: divide by 1024 while the value exceeds 1024, then
      look the number of divisions up in the unit table.  Division is exact
      here; the rounding to two decimals is not modelled. */
  method HumanBytes(size: nat) returns (r: Human)
    ensures r.ZeroBytes? <==> size == 0
    ensures r.NoUnit? <==> size > Pow1024(5)
    ensures r.Scaled? ==> r.exponent < |UnitLetters|
    ensures r.Scaled? ==> r.mantissa * (Pow1024(r.exponent) as real) == size as real
    ensures r.Scaled? ==> size <= Pow1024(r.exponent + 1)
    ensures r.Scaled? && r.exponent > 0 ==> size > Pow1024(r.exponent)
  {
    if size == 0 {
      return ZeroBytes;
    }
    var x, n := ScaleDown(size);
    if n >= |UnitLetters| {
      PowMonotone(|UnitLetters|, n);
      return NoUnit;
    }
    PowMonotone(n + 1, |UnitLetters|);
    return Scaled(x, n);
  }

  /** The division loop of `humanbytes`: `n` divisions by 1024 leave a
      value `x` of at most 1024, and each of them was taken from a value
      above 1024. */
  method ScaleDown(size: nat) returns (x: real, n: nat)
    requires size > 0
    ensures x * (Pow1024(n) as real) == size as real
    ensures size <= Pow1024(n + 1)
    ensures n > 0 ==> size > Pow1024(n)
  {
    x := size as real;
    n := 0;
    ghost var p: nat := 1;
    while x > 1024.0
      invariant p == Pow1024(n)
      invariant x * (p as real) == size as real
      invariant n > 0 ==> size > p
      decreases size - p
    {
      ScaleAbove(x, p, size);
      x := x / 1024.0;
      n := n + 1;
      p := 1024 * p;
    }
    ScaleAtMost(x, p, size);
  }

  /** A value above 1024 means the count is above the next power, and one
      more division keeps the value times the power equal to the count. */
  lemma ScaleAbove(x: real, p: nat, size: nat)
    requires p >= 1 && x * (p as real) == size as real && x > 1024.0
    ensures size > 1024 * p
    ensures (x / 1024.0) * ((1024 * p) as real) == size as real
  {
    ScaleAboveReal(x, p as real, size as real);
    assert (1024 * p) as real == 1024.0 * (p as real);
  }

  lemma ScaleAboveReal(x: real, p: real, size: real)
    requires p >= 1.0 && x * p == size && x > 1024.0
    ensures size > 1024.0 * p
    ensures (x / 1024.0) * (1024.0 * p) == size
  {
    assert x * p > 1024.0 * p by {
      assert (x - 1024.0) * p > 0.0;
    }
  }

  /** A value of at most 1024 means the count is at most the next power. */
  lemma ScaleAtMost(x: real, p: nat, size: nat)
    requires p >= 1 && x * (p as real) == size as real && x <= 1024.0
    ensures size <= 1024 * p
  {
    assert (1024.0 - x) * (p as real) >= 0.0;
  }

  lemma {:induction false} PowMonotone(a: nat, b: nat)
    requires a <= b
    ensures Pow1024(a) <= Pow1024(b)
    decreases b - a
  {
    if a < b {
      PowMonotone(a, b - 1);
    }
  }

  // ---------------------------------------------------------------------
  // TimeFormatter
  // ---------------------------------------------------------------------

  const OneSecond: int := 1000
  const OneMinute: int := 60 * OneSecond
  const OneHour: int := 60 * OneMinute
  const OneDay: int := 24 * OneHour

  /** The whole days, hours, minutes and seconds of a duration, each found
      by Python's floor `divmod`. */
  datatype Clock = Clock(days: int, hours: int, minutes: int, seconds: int)

  function Components(ms: int): (c: Clock) {
    var s := ms / 1000;
    var m := s / 60;
    var h := m / 60;
    Clock(h / 24, h % 24, m % 60, s % 60)
  }

  /** The duration the components stand for, to the whole second. */
  function ClockMs(c: Clock): int {
    c.days * OneDay + c.hours * OneHour + c.minutes * OneMinute + c.seconds * OneSecond
  }

  /** The components are the unique mixed-radix split of the whole seconds. */
  lemma ComponentsSplit(ms: int)
    ensures var c := Components(ms);
            && 0 <= c.hours < 24 && 0 <= c.minutes < 60 && 0 <= c.seconds < 60
            && ClockMs(c) == ms - ms % 1000
            && (c.days * 86400 + c.hours * 3600 + c.minutes * 60 + c.seconds) == ms / 1000
  {
    var s := ms / 1000;
    var m := s / 60;
    var h := m / 60;
    assert s == m * 60 + s % 60;
    assert m == h * 60 + m % 60;
    assert h == (h / 24) * 24 + h % 24;
    assert ms == s * 1000 + ms % 1000;
  }


  /** The non-zero components, largest first, each with its unit letter. */
  function Parts(c: Clock): seq<(int, char)> {
    (if c.days != 0 then [(c.days, 'd')] else [])
    + (if c.hours != 0 then [(c.hours, 'h')] else [])
    + (if c.minutes != 0 then [(c.minutes, 'm')] else [])
    + (if c.seconds != 0 then [(c.seconds, 's')] else [])
  }

  /** `str(v) + unit`, such as `"3h"`. */
  function Piece(p: (int, char)): string {
    IntToString(p.0) + [p.1]
  }

  function Render(parts: seq<(int, char)>): seq<string> {
    seq(|parts|, i requires 0 <= i < |parts| => Piece(parts[i]))
  }

  /** The pieces, each followed by `", "`, as the source accumulates `tmp`. */
  function Trailing(pieces: seq<string>): (r: string)
    ensures |pieces| == 0 <==> r == ""
    ensures |pieces| > 0 ==> |r| >= 2
  {
    if |pieces| == 0 then "" else pieces[0] + ", " + Trailing(pieces[1..])
  }

  /** The string built from the components: the non-zero ones, largest
      first, joined by `", "` (the accumulated string with its final `", "`
      cut off), or `"0s"` when every component is zero. */
  function FormatClock(c: Clock): (r: string)
    ensures r == "0s" <==> Parts(c) == []
  {
    var tmp := Trailing(Render(Parts(c)));
    FormatClockShape(c);
    if tmp == "" then "0s" else tmp[..|tmp| - 2]
  }

  /** `TimeFormatter(milliseconds)`: falls back to `"0s"` exactly for
      durations under one second, negative ones excluded. */
  function TimeFormatter(ms: int): (r: string)
    ensures r == "0s" <==> 0 <= ms < 1000
  {
    PartsZero(ms);
    FormatClock(Components(ms))
  }

  /** The pieces joined by `", "`. */
  function Joined(pieces: seq<string>): string
    requires |pieces| > 0
  {
    if |pieces| == 1 then pieces[0] else pieces[0] + ", " + Joined(pieces[1..])
  }

  /** Cutting the final separator off the accumulated string joins the pieces. */
  lemma {:induction false} TrailingCut(pieces: seq<string>)
    requires |pieces| > 0
    ensures var t := Trailing(pieces); t[..|t| - 2] == Joined(pieces)
  {
    if |pieces| > 1 {
      TrailingCut(pieces[1..]);
      var t := Trailing(pieces);
      var t' := Trailing(pieces[1..]);
      assert t == pieces[0] + ", " + t';
      assert t[..|t| - 2] == pieces[0] + ", " + t'[..|t'| - 2];
    }
  }

  lemma PartsZero(ms: int)
    ensures Parts(Components(ms)) == [] <==> 0 <= ms < 1000
  {
    ComponentsSplit(ms);
  }

  predicate NonZeroParts(parts: seq<(int, char)>) {
    forall i :: 0 <= i < |parts| ==> parts[i].0 != 0
  }

  /** A non-zero duration never renders as the literal `"0s"`: a single
      piece `"0s"` would stand for a zero component, which is never written. */
  lemma JoinedNotZero(parts: seq<(int, char)>)
    requires |parts| > 0 && NonZeroParts(parts)
    ensures Joined(Render(parts)) != "0s"
  {
    var ps := Render(parts);
    if |parts| == 1 {
      var v := parts[0].0;
      var d := IntToString(v);
      assert Joined(ps) == d + [parts[0].1];
      if v < 0 {
        assert |Joined(ps)| >= 3;
      } else {
        assert d == NatToString(v) && d[0] != '0';
        assert Joined(ps)[0] == d[0];
      }
    } else {
      assert |Joined(ps)| > 2;
    }
  }

  lemma FormatClockShape(c: Clock)
    ensures Trailing(Render(Parts(c))) == "" <==> Parts(c) == []
    ensures Parts(c) != [] ==>
              var t := Trailing(Render(Parts(c)));
              t[..|t| - 2] == Joined(Render(Parts(c))) && t[..|t| - 2] != "0s"
  {
    var parts := Parts(c);
    if parts != [] {
      TrailingCut(Render(parts));
      ClockParts(c);
      JoinedNotZero(parts);
    }
  }

  // ---------------------------------------------------------------------
  // Reading a formatted duration back
  // ---------------------------------------------------------------------

  function UnitMs(unit: char): int {
    if unit == 'd' then OneDay
    else if unit == 'h' then OneHour
    else if unit == 'm' then OneMinute
    else if unit == 's' then OneSecond
    else 0
  }

  /** The milliseconds a stripped field such as `"3h"` stands for. */
  function StrippedFieldMs(t: string): Option<int> {
    if |t| < 2 || UnitMs(t[|t| - 1]) == 0 then None
    else match ParseInt(t[..|t| - 1])
      case None => None
      case Some(v) => Some(PartMs((v, t[|t| - 1])))
  }

  /** The milliseconds one comma-separated field such as `" 3h"` stands for. */
  function FieldMs(f: string): Option<int> {
    StrippedFieldMs(Strip(f))
  }

  function FieldValues(fs: seq<string>): (r: seq<Option<int>>)
    ensures |r| == |fs|
    ensures forall i :: 0 <= i < |fs| ==> r[i] == FieldMs(fs[i])
  {
    if |fs| == 0 then [] else [FieldMs(fs[0])] + FieldValues(fs[1..])
  }

  /** The sum of the values, or `None` when one of them is missing. */
  function Total(vals: seq<Option<int>>): Option<int> {
    if |vals| == 0 then Some(0)
    else
      var b := Total(vals[1..]);
      if vals[0].Some? && b.Some? then Some(vals[0].value + b.value) else None
  }

  /** Reads a `TimeFormatter` string back as milliseconds. */
  function ParseDuration(s: string): Option<int> {
    if s == "0s" then Some(0) else Total(FieldValues(Split(s, ',')))
  }

  /** The duration one part stands for. */
  function PartMs(p: (int, char)): int {
    p.0 * UnitMs(p.1)
  }

  /** The duration a list of parts stands for. */
  function PartsMs(parts: seq<(int, char)>): int {
    if |parts| == 0 then 0 else PartMs(parts[0]) + PartsMs(parts[1..])
  }

  lemma {:induction false} PartsMsAppend(a: seq<(int, char)>, b: seq<(int, char)>)
    ensures PartsMs(a + b) == PartsMs(a) + PartsMs(b)
  {
    if |a| == 0 {
      assert a + b == b;
    } else {
      assert (a + b)[0] == a[0];
      assert (a + b)[1..] == a[1..] + b;
      PartsMsAppend(a[1..], b);
    }
  }

  /** Leaving the zero components out does not change the total. */
  lemma PartsMsClock(c: Clock)
    ensures PartsMs(Parts(c)) == ClockMs(c)
  {
    var d := if c.days != 0 then [(c.days, 'd')] else [];
    var h := if c.hours != 0 then [(c.hours, 'h')] else [];
    var m := if c.minutes != 0 then [(c.minutes, 'm')] else [];
    var s := if c.seconds != 0 then [(c.seconds, 's')] else [];
    PartsMsAppend(d + h + m, s);
    PartsMsAppend(d + h, m);
    PartsMsAppend(d, h);
  }

  predicate UnitParts(parts: seq<(int, char)>) {
    forall i :: 0 <= i < |parts| ==> UnitMs(parts[i].1) != 0
  }

  lemma ClockParts(c: Clock)
    ensures UnitParts(Parts(c)) && NonZeroParts(Parts(c))
  {
  }

  /** The fields `split(",")` cuts a joined string into: the first piece
      as it is, every later one behind the blank of its separator. */
  function Fields(pieces: seq<string>, lead: string): (r: seq<string>)
    requires |pieces| > 0
    ensures |r| == |pieces|
  {
    if |pieces| == 1 then [lead + pieces[0]] else [lead + pieces[0]] + Fields(pieces[1..], " ")
  }

  lemma {:induction false} SplitJoined(pieces: seq<string>, lead: string)
    requires |pieces| > 0 && ',' !in lead
    requires forall i :: 0 <= i < |pieces| ==> ',' !in pieces[i]
    ensures Split(lead + Joined(pieces), ',') == Fields(pieces, lead)
  {
    if |pieces| == 1 {
      SplitNoSep(lead + pieces[0], ',');
    } else {
      var rest := Joined(pieces[1..]);
      assert lead + Joined(pieces) == (lead + pieces[0]) + [','] + (" " + rest);
      SplitAppend(lead + pieces[0], " " + rest, ',');
      SplitNoSep(lead + pieces[0], ',');
      SplitJoined(pieces[1..], " ");
    }
  }

  /** A piece is a number, which starts with a digit or a minus sign,
      followed by its unit letter; it holds no comma. */
  lemma PieceShape(p: (int, char))
    requires UnitMs(p.1) != 0
    ensures var piece := Piece(p);
            && |piece| >= 2 && !IsSpace(piece[0]) && !IsSpace(piece[|piece| - 1])
            && piece[..|piece| - 1] == IntToString(p.0) && piece[|piece| - 1] == p.1
            && ',' !in piece
  {
    var d := IntToString(p.0);
    if p.0 < 0 {
      assert d == "-" + NatToString(-p.0);
    }
    assert d[0] == '-' || IsDigit(d[0]);
    assert forall i :: 0 <= i < |d| ==> d[i] == '-' || IsDigit(d[i]);
  }

  /** A blank in front of a piece is stripped away. */
  lemma StripLead(piece: string, lead: string)
    requires |piece| > 0 && !IsSpace(piece[0]) && !IsSpace(piece[|piece| - 1])
    requires lead == "" || lead == " "
    ensures Strip(lead + piece) == piece
  {
    StripNoSpaceEnds(piece);
    if lead == " " {
      assert (lead + piece)[1..] == piece;
      assert StripLeft(lead + piece) == StripLeft(piece);
    } else {
      assert lead + piece == piece;
    }
  }

  lemma PieceReadsBack(p: (int, char))
    requires UnitMs(p.1) != 0
    ensures StrippedFieldMs(Piece(p)) == Some(PartMs(p))
  {
    var t := Piece(p);
    PieceShape(p);
    ParseIntRoundTrip(p.0);
    assert ParseInt(t[..|t| - 1]) == Some(p.0);
  }

  /** One field, with or without the blank in front, reads back as its part. */
  lemma FieldReadsBack(p: (int, char), lead: string)
    requires UnitMs(p.1) != 0 && (lead == "" || lead == " ")
    ensures FieldMs(lead + Piece(p)) == Some(PartMs(p))
  {
    var piece := Piece(p);
    PieceShape(p);
    StripLead(piece, lead);
    PieceReadsBack(p);
  }

  /** The `i`-th field is the `i`-th piece behind its lead. */
  lemma {:induction false} FieldsAt(pieces: seq<string>, lead: string, i: nat)
    requires i < |pieces|
    ensures Fields(pieces, lead)[i] == (if i == 0 then lead else " ") + pieces[i]
  {
    if i > 0 {
      FieldsAt(pieces[1..], " ", i - 1);
    }
  }

  function PartValues(parts: seq<(int, char)>): (r: seq<Option<int>>)
    ensures |r| == |parts|
    ensures forall i :: 0 <= i < |parts| ==> r[i] == Some(PartMs(parts[i]))
  {
    if |parts| == 0 then [] else [Some(PartMs(parts[0]))] + PartValues(parts[1..])
  }

  lemma {:induction false} TotalParts(parts: seq<(int, char)>)
    ensures Total(PartValues(parts)) == Some(PartsMs(parts))
  {
    if |parts| > 0 {
      assert PartValues(parts)[1..] == PartValues(parts[1..]);
      TotalParts(parts[1..]);
    }
  }

  /** Every field of a joined rendering reads back as its part. */
  lemma FieldsReadBack(parts: seq<(int, char)>, lead: string)
    requires |parts| > 0 && UnitParts(parts) && (lead == "" || lead == " ")
    ensures FieldValues(Fields(Render(parts), lead)) == PartValues(parts)
  {
    var fs := Fields(Render(parts), lead);
    forall i | 0 <= i < |parts|
      ensures FieldMs(fs[i]) == Some(PartMs(parts[i]))
    {
      FieldsAt(Render(parts), lead, i);
      FieldReadsBack(parts[i], if i == 0 then lead else " ");
    }
  }

  /** A joined rendering of non-zero parts reads back as their total. */
  lemma JoinedReadsBack(parts: seq<(int, char)>)
    requires |parts| > 0 && UnitParts(parts) && NonZeroParts(parts)
    ensures ParseDuration(Joined(Render(parts))) == Some(PartsMs(parts))
  {
    var ps := Render(parts);
    var s := Joined(ps);
    JoinedNotZero(parts);
    forall i | 0 <= i < |ps|
      ensures ',' !in ps[i]
    {
      PieceShape(parts[i]);
    }
    assert "" + s == s;
    SplitJoined(ps, "");
    assert Split(s, ',') == Fields(ps, "");
    FieldsReadBack(parts, "");
    TotalParts(parts);
  }

  lemma ZeroReadsBack()
    ensures ParseDuration("0s") == Some(0)
  {
  }

  lemma FormatClockIs(c: Clock)
    ensures Parts(c) == [] ==> FormatClock(c) == "0s"
    ensures Parts(c) != [] ==> FormatClock(c) == Joined(Render(Parts(c)))
  {
    FormatClockShape(c);
  }

  /** Reading back the string built from components gives their duration. */
  lemma FormatClockRoundTrip(c: Clock)
    ensures ParseDuration(FormatClock(c)) == Some(ClockMs(c))
  {
    FormatClockIs(c);
    PartsMsClock(c);
    if Parts(c) != [] {
      ClockParts(c);
      JoinedReadsBack(Parts(c));
    } else {
      ZeroReadsBack();
    }
  }

  /** The components add up to the duration rounded down to whole seconds. */
  lemma ClockTotal(ms: int)
    ensures ClockMs(Components(ms)) == ms - ms % 1000
  {
    ComponentsSplit(ms);
  }

  /** `TimeFormatter` loses only the milliseconds below a whole second:
      reading its output back gives the duration its components stand for,
      which is the input rounded down to whole seconds. */
  lemma TimeFormatterRoundTrip(ms: int)
    ensures ParseDuration(TimeFormatter(ms)) == Some(ClockMs(Components(ms)))
    ensures ClockMs(Components(ms)) == ms - ms % 1000
  {
    ClockTotal(ms);
    FormatClockRoundTrip(Components(ms));
  }
}

=== FILE: progress.dfy ===
/** The transfer progress callback of `Rexbots/start.py` (`progress`): it
    aborts the transfer when the user's cancel flag is set, and otherwise
    writes a status report at most once every five seconds per task, plus
    once more when the transfer completes.  Its two process-wide caches
    (time of the last report, time of the first call) are an explicit
    value here, threaded from call to call. */
module Progress {
  /** Minimum spacing of two reports of one task, in milliseconds. */
  const ThrottleMs: int := 5000

  datatype Phase = Down | Up

  /** The cache key `f"{message.id}{type}"`: the request message and the
      transfer direction. */
  datatype TaskKey = TaskKey(messageId: int, phase: Phase)

  /** `progress.cache` (time of the last report) and `progress.start_time`. */
  datatype Cache = Cache(last: map<TaskKey, int>, start: map<TaskKey, int>)

  /** What one call does: raise the cancellation signal, stay quiet, or
      write a report. */
  datatype Report = Cancelled | Silent | Emitted

  datatype Tick = Tick(report: Report, cache: Cache)

  /** The time of the last report, 0 when the task has none. */
  function LastTime(c: Cache, k: TaskKey): int {
    if k in c.last then c.last[k] else 0
  }

  /** The throttle: more than five seconds since the last report, or the
      final call of the transfer. */
  predicate Due(c: Cache, k: TaskKey, now: int, current: int, total: int) {
    now - LastTime(c, k) > ThrottleMs || current == total
  }

  /** Nothing about the other tasks changes. */
  ghost predicate OthersKept(c: Cache, r: Cache, k: TaskKey) {
    && (forall k' :: k' != k ==> (k' in r.last <==> k' in c.last))
    && (forall k' :: k' != k && k' in c.last ==> r.last[k'] == c.last[k'])
    && (forall k' :: k' != k ==> (k' in r.start <==> k' in c.start))
    && (forall k' :: k' != k && k' in c.start ==> r.start[k'] == c.start[k'])
  }

  /** One call of `progress(current, total, message, type)` at time `now`.
      `cancelled` is the user's cancel flag; `writeOk` says whether rendering
      the report and writing the status file succeed.  A zero `total` makes
      the percentage a division by zero, which the callback logs and
      swallows like a failed write. */
  function OnProgress(cancelled: bool, c: Cache, k: TaskKey, now: int,
                      current: int, total: int, writeOk: bool): (r: Tick)
    ensures r.report == Cancelled <==> cancelled
    ensures cancelled ==> r.cache == c
    ensures !cancelled ==>
              (r.report == Emitted <==> Due(c, k, now, current, total) && total != 0 && writeOk)
    ensures OthersKept(c, r.cache, k)
    ensures r.report == Silent ==> r.cache.last == c.last
    ensures r.report == Silent ==> k in r.cache.start
    ensures r.report == Silent && k in c.start ==> r.cache.start[k] == c.start[k]
    ensures r.report == Emitted && current != total ==>
              k in r.cache.last && r.cache.last[k] == now && k in r.cache.start
    ensures r.report == Emitted && current == total ==>
              k !in r.cache.last && k !in r.cache.start
    ensures !cancelled && !(r.report == Emitted && current == total) ==>
              k in r.cache.start && r.cache.start[k] == (if k in c.start then c.start[k] else now)
  {
    if cancelled then Tick(Cancelled, c)
    else
      var start := if k in c.start then c.start else c.start[k := now];
      if !Due(c, k, now, current, total) || total == 0 || !writeOk then
        Tick(Silent, Cache(c.last, start))
      else if current == total then
        Tick(Emitted, Cache(c.last - {k}, start - {k}))
      else
        Tick(Emitted, Cache(c.last[k := now], start))
  }

  /** One progress call of a transfer: its time, the bytes done, and
      whether the report could be written. */
  datatype Call = Call(now: int, current: int, writeOk: bool)

  /** The number of reports a sequence of calls for one task writes, with
      the cancel flag clear throughout. */
  function Emissions(c: Cache, k: TaskKey, total: int, calls: seq<Call>): nat
    decreases |calls|
  {
    if |calls| == 0 then 0
    else
      var t := OnProgress(false, c, k, calls[0].now, calls[0].current, total, calls[0].writeOk);
      (if t.report == Emitted then 1 else 0) + Emissions(t.cache, k, total, calls[1..])
  }

  /** Calls within five seconds of a report, none of them the final one,
      write nothing. */
  lemma {:induction false} QuietAfterReport(c: Cache, k: TaskKey, total: int, calls: seq<Call>)
    requires k in c.last
    requires forall i :: 0 <= i < |calls| ==> calls[i].now - c.last[k] <= ThrottleMs
    requires forall i :: 0 <= i < |calls| ==> calls[i].current != total
    ensures Emissions(c, k, total, calls) == 0
    decreases |calls|
  {
    if |calls| > 0 {
      var t := OnProgress(false, c, k, calls[0].now, calls[0].current, total, calls[0].writeOk);
      assert t.report == Silent;
      QuietAfterReport(t.cache, k, total, calls[1..]);
    }
  }

  /** The throttle: however many calls arrive within one five-second
      window, at most one of them writes a report, unless one of them is
      the final call. */
  lemma {:induction false} AtMostOneReportPerWindow(c: Cache, k: TaskKey, total: int,
                                                     calls: seq<Call>, t0: int)
    requires forall i :: 0 <= i < |calls| ==> t0 <= calls[i].now <= t0 + ThrottleMs
    requires forall i :: 0 <= i < |calls| ==> calls[i].current != total
    ensures Emissions(c, k, total, calls) <= 1
    decreases |calls|
  {
    if |calls| > 0 {
      var t := OnProgress(false, c, k, calls[0].now, calls[0].current, total, calls[0].writeOk);
      if t.report == Emitted {
        QuietAfterReport(t.cache, k, total, calls[1..]);
      } else {
        AtMostOneReportPerWindow(t.cache, k, total, calls[1..], t0);
      }
    }
  }
}

=== FILE: quota.dfy ===
/** The free-tier daily allowance of `database/db.py` (`check_limit`,
    `add_traffic`): ten relayed files per window, where the 24-hour window
    starts at the first use after the previous one lapsed.  Users with a
    running premium grant are exempt. */
module Quota {
  import opened Wrappers
  import opened UserStore

  /** Files a free user may relay per window. */
  const FreeDailyLimit: nat := 10

  /** A usage window is running at `now`. */
  predicate WindowOpen(u: UserRecord, now: Time) {
    u.limitResetTime.Some? && now < u.limitResetTime.value
  }

  /** The fields `check_limit` writes when the window has lapsed. */
  function ResetWindow(s: Store, id: int): (r: Store)
    ensures OnlyUserChanged(s, r, id)
    ensures id in s ==> r[id] == s[id].(dailyUsage := 0, limitResetTime := None)
  {
    if id in s then s[id := s[id].(dailyUsage := 0, limitResetTime := None)] else s
  }

  /** `check_limit`: whether the user is blocked, and the store afterwards.
      The call is not read-only: it performs the lazy premium downgrade and
      clears a lapsed window. */
  function CheckLimit(s: Store, id: int, now: Time): (r: (bool, Store))
    ensures r.0 <==> id in s && !PremiumActive(s[id], now) && WindowOpen(s[id], now)
                     && s[id].dailyUsage >= FreeDailyLimit
    ensures OnlyUserChanged(s, r.1, id)
    ensures id !in s ==> r.1 == s
    ensures id in s && PremiumActive(s[id], now) ==> r.1 == s
    ensures id in s && !PremiumActive(s[id], now) ==>
              r.1 == (if WindowOpen(s[id], now) then IsPremium(s, id, now).1
                      else ResetWindow(IsPremium(s, id, now).1, id))
  {
    if id !in s then (false, s)
    else
      var (active, s1) := IsPremium(s, id, now);
      if active then (false, s1)
      else
        var reset := s[id].limitResetTime;
        if reset.None? || now >= reset.value then (false, ResetWindow(s1, id))
        else (s[id].dailyUsage >= FreeDailyLimit, s1)
  }

  /** `add_traffic`: count one relayed file.  The first use of a window
      starts a 24-hour timer; later uses only increment, without looking at
      whether the timer has already run out. */
  function AddTraffic(s: Store, id: int, now: Time): (r: Store)
    ensures OnlyUserChanged(s, r, id)
    ensures id !in s || PremiumActive(s[id], now) ==> r == s
    ensures id in s && !PremiumActive(s[id], now) ==>
              && !r[id].isPremium
              && r[id].dailyUsage == (if s[id].limitResetTime.None? then 1 else s[id].dailyUsage + 1)
              && r[id].limitResetTime == (if s[id].limitResetTime.None? then Some(now + DayMs)
                                          else s[id].limitResetTime)
              && r[id] == IsPremium(s, id, now).1[id].(dailyUsage := r[id].dailyUsage,
                                                      limitResetTime := r[id].limitResetTime)
  {
    if id !in s then s
    else
      var (active, s1) := IsPremium(s, id, now);
      if active then s
      else if s[id].limitResetTime.None? then
        s1[id := s1[id].(dailyUsage := 1, limitResetTime := Some(now + DayMs))]
      else
        s1[id := s1[id].(dailyUsage := s1[id].dailyUsage + 1)]
  }

  /** Both quota transitions keep the record invariants, in particular that
      usage is zero whenever no window is running. */
  lemma QuotaPreservesWellFormed(s: Store, id: int, now: Time)
    requires StoreWellFormed(s)
    ensures StoreWellFormed(CheckLimit(s, id, now).1)
    ensures StoreWellFormed(AddTraffic(s, id, now))
  {
    PremiumTransitionsPreserveWellFormed(s, id, now, 0);
  }

  /** Checking twice at the same time gives the same verdict, and the second
      check changes nothing. */
  lemma CheckLimitSettles(s: Store, id: int, now: Time)
    ensures CheckLimit(CheckLimit(s, id, now).1, id, now) == (CheckLimit(s, id, now).0, CheckLimit(s, id, now).1)
  {
    if id in s && !PremiumActive(s[id], now) {
      var s1 := IsPremium(s, id, now).1;
      assert !s1[id].isPremium;
      IsPremiumSettles(s, id, now);
      if !WindowOpen(s[id], now) {
        var r := ResetWindow(s1, id);
        assert r[id] == s1[id].(dailyUsage := 0, limitResetTime := None);
        assert IsPremium(r, id, now).1 == r;
        assert ResetWindow(r, id) == r;
      }
    }
  }

  /** `add_traffic` applied once per time stamp, in order. */
  function TrafficRun(s: Store, id: int, times: seq<Time>): Store
    decreases |times|
  {
    if |times| == 0 then s else TrafficRun(AddTraffic(s, id, times[0]), id, times[1..])
  }

  /** Inside a running window every use adds one and the timer stays. */
  lemma {:induction false} TrafficInWindow(s: Store, id: int, times: seq<Time>)
    requires id in s && !s[id].isPremium && s[id].limitResetTime.Some?
    ensures id in TrafficRun(s, id, times)
    ensures TrafficRun(s, id, times)[id] == s[id].(dailyUsage := s[id].dailyUsage + |times|)
    decreases |times|
  {
    if |times| > 0 {
      var s1 := AddTraffic(s, id, times[0]);
      assert s1[id] == s[id].(dailyUsage := s[id].dailyUsage + 1);
      TrafficInWindow(s1, id, times[1..]);
    }
  }

  /** From a state with no window, `k >= 1` uses leave usage `k` and a timer
      24 hours after the first of them. */
  lemma TrafficFromIdle(s: Store, id: int, times: seq<Time>)
    requires id in s && !s[id].isPremium && s[id].limitResetTime.None?
    requires |times| >= 1
    ensures id in TrafficRun(s, id, times)
    ensures TrafficRun(s, id, times)[id]
            == s[id].(dailyUsage := |times|, limitResetTime := Some(times[0] + DayMs))
  {
    var s1 := AddTraffic(s, id, times[0]);
    assert s1[id] == s[id].(dailyUsage := 1, limitResetTime := Some(times[0] + DayMs));
    TrafficInWindow(s1, id, times[1..]);
  }

  /** Ten uses starting from an idle free account block every check before
      the timer set by the first use runs out; a check at or after it lets
      the user through and starts over from zero. */
  lemma TenUsesThenBlocked(s: Store, id: int, times: seq<Time>, now: Time)
    requires id in s && !s[id].isPremium && s[id].limitResetTime.None?
    requires |times| == FreeDailyLimit
    ensures CheckLimit(TrafficRun(s, id, times), id, now).0 <==> now < times[0] + DayMs
    ensures now >= times[0] + DayMs ==>
              var r := CheckLimit(TrafficRun(s, id, times), id, now).1;
              id in r && r[id].dailyUsage == 0 && r[id].limitResetTime.None?
  {
    TrafficFromIdle(s, id, times);
  }

  /** Nine uses never block, whatever the time they are checked at. */
  lemma NineUsesAllowed(s: Store, id: int, times: seq<Time>, now: Time)
    requires id in s && !s[id].isPremium && s[id].limitResetTime.None?
    requires |times| == FreeDailyLimit - 1
    ensures !CheckLimit(TrafficRun(s, id, times), id, now).0
  {
    TrafficFromIdle(s, id, times);
  }
}

=== FILE: relay.dfy ===
/** The relay of `Rexbots/start.py`: a user sends a `https://t.me/...` link
    naming one message or a range of them, and the bot copies each one to
    the user, directly for public channels and through the user's own
    logged-in session otherwise.  The network, the disk and the concurrent
    `/cancel` command are the `ItemWorld` of each item; the bot's own state
    (user store, cancel flags, temporary directories left on disk) is the
    `Relay` value every step returns. */
module Relay {
  import opened Wrappers
  import opened Text
  import opened UserStore
  import opened Quota
  import Formatting

  /** `FREE_LIMIT_SIZE`: larger files need a running premium grant. */
  const FreeLimitSize: nat := 2 * 1024 * 1024 * 1024

  // ---------------------------------------------------------------------
  // Messages
  // ---------------------------------------------------------------------

  datatype Kind = Document | Video | Photo | Audio | TextKind

  /** The parts of a fetched message the relay reads.  A present document,
      video or audio carries its file size; `text` and `caption` are empty
      when absent. */
  datatype Media = Media(document: Option<nat>, video: Option<nat>, photo: bool,
                         audio: Option<nat>, text: string, caption: string,
                         hasThumbs: bool, empty: bool)

  /** The message has a truthy attribute of this kind. */
  predicate Present(m: Media, k: Kind) {
    match k
    case Document => m.document.Some?
    case Video => m.video.Some?
    case Photo => m.photo
    case Audio => m.audio.Some?
    case TextKind => m.text != ""
  }

  /** The order in which `get_message_type` tries the kinds. */
  function Rank(k: Kind): nat {
    match k
    case Document => 0
    case Video => 1
    case Photo => 2
    case Audio => 3
    case TextKind => 4
  }

  /** `get_message_type`: the first kind, in `Rank` order, the message has. */
  function GetMessageType(m: Media): (r: Option<Kind>)
    ensures r.Some? ==> Present(m, r.value)
    ensures r.Some? ==> forall k :: Rank(k) < Rank(r.value) ==> !Present(m, k)
    ensures r.None? ==> forall k :: !Present(m, k)
  {
    if m.document.Some? then Some(Document)
    else if m.video.Some? then Some(Video)
    else if m.photo then Some(Photo)
    else if m.audio.Some? then Some(Audio)
    else if m.text != "" then Some(TextKind)
    else None
  }

  /** The size the cap is checked against: 0 for photos and text. */
  function FileSize(m: Media, k: Kind): nat
    requires Present(m, k)
  {
    match k
    case Document => m.document.value
    case Video => m.video.value
    case Audio => m.audio.value
    case _ => 0
  }

  /** A Python string value that is truthy: present and not empty. */
  predicate Truthy(o: Option<string>) {
    o.Some? && o.value != ""
  }

  // ---------------------------------------------------------------------
  // The world of one item
  // ---------------------------------------------------------------------

  /** How a download or upload ends; an error raised by the progress
      callback says "Cancelled". */
  datatype Transfer = TransferOk | TransferError(saysCancelled: bool)

  /** When the user's `/cancel` arrives relative to one item: before the
      loop reaches it, or while it is being processed.  A cancel during an
      item is seen by the progress callback if a transfer of that phase is
      running, and in any case by the loop before the next item. */
  datatype CancelPoint = NoCancel | BeforeItem | DuringDownload | DuringUpload

  datatype Fetch = FetchFailed | Fetched(media: Media)

  /** Everything outside the bot's own state that decides how one item
      goes: the clock, the `/cancel` command, and whether each remote call
      succeeds. */
  datatype ItemWorld = ItemWorld(
    now: Time,
    cancel: CancelPoint,
    publicCopyOk: bool,
    connectOk: bool,
    fetch: Fetch,
    statusSendOk: bool,
    download: Transfer,
    customThumbOk: bool,
    sourceThumbOk: bool,
    captionFormatOk: bool,
    upload: Transfer)

  datatype Thumb = NoThumb | CustomThumb(fileId: string) | SourceThumb

  /** The user's caption template, or the default caption followed by the
      source message's own caption when it has one. */
  datatype Caption = CustomCaption(template: string) | DefaultCaption(sourceCaption: Option<string>)

  datatype Outcome =
    | PublicCopied
    | NoSession
    | AuthFailed
    | ItemError
    | Unavailable
    | SizeRejected
    | TextRelayed
    | StatusSendFailed
    | DownloadCancelled
    | DownloadFailed
    | Uploaded(thumb: Thumb, caption: Caption)
    | UploadFailed

  datatype Item = Item(msgid: int, outcome: Outcome)

  /** The outcomes that end the whole range. */
  predicate Terminal(o: Outcome) {
    o == NoSession || o == AuthFailed
  }

  /** The outcomes for which `add_traffic` ran. */
  predicate Counted(o: Outcome) {
    || o.PublicCopied? || o.StatusSendFailed? || o.DownloadCancelled? || o.DownloadFailed?
    || o.Uploaded? || o.UploadFailed?
  }

  /** The bot state relaying touches: the user store, `CANCEL_FLAGS`, and the
      temporary download directories left on disk, named by request message
      id and item id. */
  datatype Relay = Relay(store: Store, flags: map<int, bool>, leftovers: set<(int, int)>)

  /** `CANCEL_FLAGS.get(id)` is truthy. */
  predicate Flag(flags: map<int, bool>, id: int) {
    id in flags && flags[id]
  }

  /** The flags of every user other than `id` are as they were. */
  ghost predicate FlagsKept(a: map<int, bool>, b: map<int, bool>, id: int) {
    forall u :: u != id ==> (u in b <==> u in a) && (u in a ==> b[u] == a[u])
  }

  /** `send_cancel`: `/cancel` sets the user's flag. */
  function SendCancel(flags: map<int, bool>, id: int): (r: map<int, bool>)
    ensures Flag(r, id)
    ensures FlagsKept(flags, r, id)
  {
    flags[id := true]
  }

  // ---------------------------------------------------------------------
  // handle_restricted_content
  // ---------------------------------------------------------------------

  /** The upload step: thumbnail choice, caption, and the send call.  Both
      captions render `humanbytes(size)`, whose unit table ends at `T`, so
      a size above 1024^5 raises before anything is sent.  A photo is sent
      without thumbnail and without progress callback, so a cancel cannot
      stop it; the other kinds report progress, and a set flag makes the
      callback raise. */
  function UploadOutcome(kind: Kind, m: Media, size: nat, thumbId: Option<string>, template: Option<string>,
                         w: ItemWorld, cancelled: bool): (o: Outcome)
    ensures o.Uploaded? || o == UploadFailed
    ensures o.Uploaded? <==>
              && w.upload.TransferOk?
              && size <= Formatting.Pow1024(5)
              && (Truthy(template) ==> w.captionFormatOk)
              && (kind != Photo ==> !cancelled)
    ensures o.Uploaded? ==> (o.caption.CustomCaption? <==> Truthy(template))
    ensures o.Uploaded? && o.caption.DefaultCaption? ==>
              (o.caption.sourceCaption.Some? <==> m.caption != "")
    ensures o.Uploaded? && o.thumb.CustomThumb? ==>
              kind != Photo && Truthy(thumbId) && w.customThumbOk
    ensures o.Uploaded? && o.thumb == SourceThumb ==>
              (kind == Video || kind == Document) && m.hasThumbs && w.sourceThumbOk
              && !(Truthy(thumbId) && w.customThumbOk)
    ensures o.Uploaded? && kind != Photo && Truthy(thumbId) && w.customThumbOk ==>
              o.thumb == CustomThumb(thumbId.value)
    ensures o.Uploaded? && (kind == Video || kind == Document) && m.hasThumbs && w.sourceThumbOk
            && !(Truthy(thumbId) && w.customThumbOk) ==>
              o.thumb == SourceThumb
    ensures o.Uploaded? && kind == Photo ==> o.thumb == NoThumb
    ensures o.Uploaded? && o.caption.CustomCaption? ==> o.caption.template == template.value
    ensures o.Uploaded? && o.caption.DefaultCaption? && o.caption.sourceCaption.Some? ==>
              o.caption.sourceCaption.value == m.caption
  {
    var thumb := ChooseThumb(kind, m, thumbId, w);
    if size > Formatting.Pow1024(5) || (Truthy(template) && !w.captionFormatOk) then UploadFailed
    else
      var caption := ChooseCaption(m, template);
      if kind == Photo then
        (if w.upload.TransferOk? then Uploaded(NoThumb, caption) else UploadFailed)
      else if cancelled || w.upload.TransferError? then UploadFailed
      else Uploaded(thumb, caption)
  }

  /** The thumbnail of a non-photo upload: the user's own when it is set
      and downloads, else the source's first thumb for a video or document
      that has one and whose download succeeds, else none. */
  function ChooseThumb(kind: Kind, m: Media, thumbId: Option<string>, w: ItemWorld): (t: Thumb)
    ensures t.CustomThumb? <==> Truthy(thumbId) && w.customThumbOk
    ensures t.CustomThumb? ==> t.fileId == thumbId.value
    ensures t == SourceThumb <==>
              (kind == Video || kind == Document) && m.hasThumbs && w.sourceThumbOk
              && !(Truthy(thumbId) && w.customThumbOk)
  {
    if Truthy(thumbId) && w.customThumbOk then CustomThumb(thumbId.value)
    else if (kind == Video || kind == Document) && m.hasThumbs && w.sourceThumbOk then SourceThumb
    else NoThumb
  }

  /** The caption: the user's template when it is truthy, else the default
      one with the source caption appended when that is non-empty. */
  function ChooseCaption(m: Media, template: Option<string>): (c: Caption)
    ensures c.CustomCaption? <==> Truthy(template)
    ensures c.CustomCaption? ==> c.template == template.value
    ensures c.DefaultCaption? ==> (c.sourceCaption.Some? <==> m.caption != "")
    ensures c.DefaultCaption? && c.sourceCaption.Some? ==> c.sourceCaption.value == m.caption
  {
    if Truthy(template) then CustomCaption(template.value)
    else DefaultCaption(if m.caption != "" then Some(m.caption) else None)
  }

  /** The message could not be fetched, is empty, or has no kind. */
  predicate Unfetchable(w: ItemWorld) {
    w.fetch.FetchFailed? || w.fetch.media.empty || GetMessageType(w.fetch.media).None?
  }

  /** The size cap applies: a file above the limit, and no running grant. */
  predicate OverCap(s: Store, user: int, w: ItemWorld)
    requires !Unfetchable(w)
  {
    var m := w.fetch.media;
    FileSize(m, GetMessageType(m).value) > FreeLimitSize
    && !(user in s && PremiumActive(s[user], w.now))
  }

  /** `handle_restricted_content` for item `msgid` of request `messageId`. */
  function HandleRestricted(r: Relay, user: int, messageId: int, msgid: int, w: ItemWorld): (res: (Outcome, Relay))
    ensures res.0 == Unavailable <==> Unfetchable(w)
    ensures res.0 == SizeRejected <==> !Unfetchable(w) && OverCap(r.store, user, w)
    ensures res.0 == TextRelayed <==>
              !Unfetchable(w) && !OverCap(r.store, user, w)
              && GetMessageType(w.fetch.media) == Some(TextKind)
    ensures !Terminal(res.0) && res.0 != PublicCopied && res.0 != ItemError
    ensures OnlyUserChanged(r.store, res.1.store, user)
    ensures FlagsKept(r.flags, res.1.flags, user)
    ensures res.1.leftovers == r.leftovers + (if res.0 == DownloadFailed then {(messageId, msgid)} else {})
    ensures w.cancel == DuringDownload && Counted(res.0) ==>
              res.0 == DownloadCancelled || res.0 == StatusSendFailed
  {
    if Unfetchable(w) then (Unavailable, r)
    else
      var m := w.fetch.media;
      var kind := GetMessageType(m).value;
      var (allowed, s1) :=
        if FileSize(m, kind) > FreeLimitSize then IsPremium(r.store, user, w.now)
        else (true, r.store);
      if !allowed then (SizeRejected, r.(store := s1))
      else if kind == TextKind then (TextRelayed, r.(store := s1))
      else
        var s2 := AddTraffic(s1, user, w.now);
        if !w.statusSendOk then (StatusSendFailed, r.(store := s2))
        else
          var flags := if w.cancel == DuringDownload then r.flags[user := true] else r.flags;
          var download := if w.cancel == DuringDownload then TransferError(true) else w.download;
          if download.TransferError? then
            if Flag(flags, user) || download.saysCancelled then
              (DownloadCancelled, Relay(s2, flags, r.leftovers))
            else
              (DownloadFailed, Relay(s2, flags, r.leftovers + {(messageId, msgid)}))
          else
            var flags' := if w.cancel == DuringUpload then flags[user := true] else flags;
            var o := UploadOutcome(kind, m, FileSize(m, kind), GetThumbnail(s2, user), GetCaption(s2, user), w, Flag(flags', user));
            (o, Relay(s2, flags', r.leftovers))
  }

  // ---------------------------------------------------------------------
  // save: one item of the range
  // ---------------------------------------------------------------------

  datatype LinkKind = PublicLink | PrivateLink | BatchLink

  /** Private links are recognised before batch links. */
  function KindOfLink(text: string): (k: LinkKind)
    ensures k == PrivateLink <==> Contains(text, "https://t.me/c/")
    ensures k == BatchLink <==> !Contains(text, "https://t.me/c/") && Contains(text, "https://t.me/b/")
    ensures StartsWith(text, "https://t.me/c/") ==> k == PrivateLink
  {
    if Contains(text, "https://t.me/c/") then PrivateLink
    else if Contains(text, "https://t.me/b/") then BatchLink
    else PublicLink
  }

  /** The chat to fetch from can be read off the `/`-separated link:
      `int("-100" + datas[4])` for a private link, `datas[4]` for a batch
      link, `datas[3]` for a public one.  A missing segment or a
      non-numeric private chat id raises inside the per-item `try`. */
  predicate TargetResolves(kind: LinkKind, datas: seq<string>) {
    match kind
    case PrivateLink => |datas| > 4 && ParseInt("-100" + datas[4]).Some?
    case BatchLink => |datas| > 4
    case PublicLink => |datas| > 3
  }

  /** A link whose chat cannot be computed fails only the item at hand:
      nothing is charged and no flag is set.  One whose chat can be
      computed goes on to the download. */
  lemma TargetDecidesHandling(r: Relay, user: int, messageId: int, kind: LinkKind, datas: seq<string>,
                              msgid: int, w: ItemWorld)
    requires GetSession(r.store, user).Some? && w.connectOk
    requires !(kind == PublicLink && w.publicCopyOk)
    ensures !TargetResolves(kind, datas) ==>
              Attempt(r, user, messageId, kind, datas, msgid, w) == (ItemError, r)
    ensures TargetResolves(kind, datas) ==>
              Attempt(r, user, messageId, kind, datas, msgid, w) == HandleRestricted(r, user, messageId, msgid, w)
  {
  }

  /** The body of the loop for one `msgid`, up to the user's cancel. */
  function Attempt(r: Relay, user: int, messageId: int, kind: LinkKind, datas: seq<string>,
                   msgid: int, w: ItemWorld): (res: (Outcome, Relay))
    ensures res.0 == PublicCopied ==> kind == PublicLink && w.publicCopyOk
    ensures res.0 == NoSession <==>
              (kind != PublicLink || (|datas| > 3 && !w.publicCopyOk)) && GetSession(r.store, user).None?
    ensures res.0 == AuthFailed <==>
              (kind != PublicLink || (|datas| > 3 && !w.publicCopyOk))
              && GetSession(r.store, user).Some? && !w.connectOk
    ensures res.0 == AuthFailed ==> res.1 == r.(flags := r.flags[user := true])
    ensures Terminal(res.0) ==> Flag(res.1.flags, user)
    ensures OnlyUserChanged(r.store, res.1.store, user)
    ensures FlagsKept(r.flags, res.1.flags, user)
    ensures res.1.leftovers == r.leftovers + (if res.0 == DownloadFailed then {(messageId, msgid)} else {})
  {
    if kind == PublicLink && |datas| <= 3 then (ItemError, r)
    else if kind == PublicLink && w.publicCopyOk then
      (PublicCopied, r.(store := AddTraffic(r.store, user, w.now)))
    else if GetSession(r.store, user).None? then (NoSession, r.(flags := r.flags[user := true]))
    else if !w.connectOk then (AuthFailed, r.(flags := r.flags[user := true]))
    else if !TargetResolves(kind, datas) then (ItemError, r)
    else HandleRestricted(r, user, messageId, msgid, w)
  }

  /** Once a file item is charged and its status message is sent, the
      download decides the item.  A `/cancel` during it, or an error while
      the flag is set or that says it was cancelled, removes the temporary
      directory.  Any other download error leaves the directory behind.  A
      completed download goes on to the upload, whose own cleanup removes
      the directory. */
  lemma DownloadDecidesOutcome(r: Relay, user: int, messageId: int, msgid: int, w: ItemWorld)
    requires !Unfetchable(w) && !OverCap(r.store, user, w)
    requires GetMessageType(w.fetch.media) != Some(TextKind) && w.statusSendOk
    ensures var m := w.fetch.media;
            var kind := GetMessageType(m).value;
            var s1 := if FileSize(m, kind) > FreeLimitSize then IsPremium(r.store, user, w.now).1 else r.store;
            var s2 := AddTraffic(s1, user, w.now);
            var res := HandleRestricted(r, user, messageId, msgid, w);
            && res.1.store == s2
            && (w.cancel == DuringDownload ==>
                  res.0 == DownloadCancelled && res.1.leftovers == r.leftovers && Flag(res.1.flags, user))
            && (w.cancel != DuringDownload && w.download.TransferError? ==>
                  && (res.0 == DownloadFailed || res.0 == DownloadCancelled)
                  && (res.0 == DownloadFailed <==> !Flag(r.flags, user) && !w.download.saysCancelled)
                  && res.1.leftovers == r.leftovers + (if res.0 == DownloadFailed then {(messageId, msgid)} else {}))
            && (w.cancel != DuringDownload && w.download.TransferOk? ==>
                  var flags' := if w.cancel == DuringUpload then r.flags[user := true] else r.flags;
                  res == (UploadOutcome(kind, m, FileSize(m, kind), GetThumbnail(s2, user), GetCaption(s2, user),
                                        w, Flag(flags', user)),
                          Relay(s2, flags', r.leftovers)))
  {
  }

  /** One item, with a `/cancel` that arrived during it taking effect by
      the time the item is over. */
  function ProcessItem(r: Relay, user: int, messageId: int, kind: LinkKind, datas: seq<string>,
                       msgid: int, w: ItemWorld): (res: (Outcome, Relay))
    ensures Terminal(res.0) || w.cancel == DuringDownload || w.cancel == DuringUpload
            ==> Flag(res.1.flags, user)
    ensures OnlyUserChanged(r.store, res.1.store, user)
    ensures FlagsKept(r.flags, res.1.flags, user)
    ensures res.1.leftovers == r.leftovers + (if res.0 == DownloadFailed then {(messageId, msgid)} else {})
  {
    var (out, r1) := Attempt(r, user, messageId, kind, datas, msgid, w);
    if w.cancel == DuringDownload || w.cancel == DuringUpload then
      (out, r1.(flags := r1.flags[user := true]))
    else (out, r1)
  }

  /** An item leaves the cancel flags alone unless it ends the range or a
      `/cancel` arrives while it runs. */
  lemma ItemKeepsFlags(r: Relay, user: int, messageId: int, kind: LinkKind, datas: seq<string>,
                       msgid: int, w: ItemWorld)
    requires w.cancel != DuringDownload && w.cancel != DuringUpload
    ensures var (out, r1) := ProcessItem(r, user, messageId, kind, datas, msgid, w);
            !Terminal(out) ==> r1.flags == r.flags
  {
    assert ProcessItem(r, user, messageId, kind, datas, msgid, w)
        == Attempt(r, user, messageId, kind, datas, msgid, w);
    if !(kind == PublicLink && (|datas| <= 3 || w.publicCopyOk))
       && GetSession(r.store, user).Some? && w.connectOk && TargetResolves(kind, datas) {
      HandleKeepsFlags(r, user, messageId, msgid, w);
    }
  }

  /** Without a `/cancel` during it, handling a message leaves the cancel
      flags alone. */
  lemma HandleKeepsFlags(r: Relay, user: int, messageId: int, msgid: int, w: ItemWorld)
    requires w.cancel != DuringDownload && w.cancel != DuringUpload
    ensures HandleRestricted(r, user, messageId, msgid, w).1.flags == r.flags
  {
    if !Unfetchable(w) {
      var m := w.fetch.media;
      var kind := GetMessageType(m).value;
      var (allowed, s1) :=
        if FileSize(m, kind) > FreeLimitSize then IsPremium(r.store, user, w.now)
        else (true, r.store);
      if allowed && kind != TextKind && w.statusSendOk && w.download.TransferOk? {
        var s2 := AddTraffic(s1, user, w.now);
        var o := UploadOutcome(kind, m, FileSize(m, kind), GetThumbnail(s2, user), GetCaption(s2, user), w, Flag(r.flags, user));
        assert HandleRestricted(r, user, messageId, msgid, w) == (o, Relay(s2, r.flags, r.leftovers));
      }
    }
  }

  /** A status message that cannot be sent ends the item after the use is
      charged and before any download directory exists: the item counts,
      nothing is left on disk, and the flags are untouched. */
  lemma StatusSendFailureCharges(r: Relay, user: int, messageId: int, msgid: int, w: ItemWorld)
    requires !Unfetchable(w) && !OverCap(r.store, user, w)
    requires GetMessageType(w.fetch.media) != Some(TextKind) && !w.statusSendOk
    requires user in r.store && FreeRecord(r.store[user])
    ensures var (out, r1) := HandleRestricted(r, user, messageId, msgid, w);
            && out == StatusSendFailed && Counted(out)
            && r1.store[user].dailyUsage == r.store[user].dailyUsage + 1
            && r1.leftovers == r.leftovers && r1.flags == r.flags
  {
    HandleTraffic(r, user, messageId, msgid, w);
  }

  // ---------------------------------------------------------------------
  // save: the range
  // ---------------------------------------------------------------------

  /** How the loop ended: past the last id, at a set cancel flag, or by a
      `return` on a missing session or failed login. */
  datatype Stop = Completed | Halted | Aborted

  /** The number of ids in `lo..hi`. */
  function RangeSize(lo: int, hi: int): nat {
    if lo <= hi then hi + 1 - lo else 0
  }

  /** `for msgid in range(fromID, toID + 1)`, from `msgid` on. */
  function RunItems(r: Relay, user: int, messageId: int, kind: LinkKind, datas: seq<string>,
                    msgid: int, toId: int, world: int -> ItemWorld): (res: (seq<Item>, Stop, Relay))
    ensures |res.0| <= RangeSize(msgid, toId)
    ensures res.1 == Completed ==> |res.0| == RangeSize(msgid, toId)
    ensures res.1 != Completed ==> Flag(res.2.flags, user)
    ensures OnlyUserChanged(r.store, res.2.store, user)
    ensures FlagsKept(r.flags, res.2.flags, user)
    decreases toId + 1 - msgid
  {
    if msgid > toId then ([], Completed, r)
    else
      var w := world(msgid);
      var flags := if w.cancel == BeforeItem then r.flags[user := true] else r.flags;
      if Flag(flags, user) then ([], Halted, r.(flags := flags))
      else
        var (out, r1) := ProcessItem(r, user, messageId, kind, datas, msgid, w);
        if Terminal(out) then ([Item(msgid, out)], Aborted, r1)
        else
          var (items, stop, r2) := RunItems(r1, user, messageId, kind, datas, msgid + 1, toId, world);
          ([Item(msgid, out)] + items, stop, r2)
  }

  /** One step of the loop, for an item it does process. */
  lemma RunItemsStep(r: Relay, user: int, messageId: int, kind: LinkKind, datas: seq<string>,
                     msgid: int, toId: int, world: int -> ItemWorld)
    requires msgid <= toId && world(msgid).cancel != BeforeItem && !Flag(r.flags, user)
    ensures var (out, r1) := ProcessItem(r, user, messageId, kind, datas, msgid, world(msgid));
            var rest := RunItems(r1, user, messageId, kind, datas, msgid + 1, toId, world);
            RunItems(r, user, messageId, kind, datas, msgid, toId, world)
              == if Terminal(out) then ([Item(msgid, out)], Aborted, r1)
                 else ([Item(msgid, out)] + rest.0, rest.1, rest.2)
  {
  }

  /** The items of a range come in id order from `msgid`, and none was
      reached past a `/cancel` sent before it. */
  lemma {:induction false} RunIds(r: Relay, user: int, messageId: int, kind: LinkKind,
                                  datas: seq<string>, msgid: int, toId: int,
                                  world: int -> ItemWorld)
    ensures var (items, _, _) := RunItems(r, user, messageId, kind, datas, msgid, toId, world);
            && (forall i :: 0 <= i < |items| ==> items[i].msgid == msgid + i)
            && (forall i :: 0 <= i < |items| ==> world(items[i].msgid).cancel != BeforeItem)
    decreases toId + 1 - msgid
  {
    if msgid <= toId {
      var w := world(msgid);
      var flags := if w.cancel == BeforeItem then r.flags[user := true] else r.flags;
      if !Flag(flags, user) {
        RunItemsStep(r, user, messageId, kind, datas, msgid, toId, world);
        var (out, r1) := ProcessItem(r, user, messageId, kind, datas, msgid, w);
        if !Terminal(out) {
          RunIds(r1, user, messageId, kind, datas, msgid + 1, toId, world);
          var (items, stop, r2) := RunItems(r1, user, messageId, kind, datas, msgid + 1, toId, world);
          var all := [Item(msgid, out)] + items;
          assert forall i :: 0 < i < |all| ==> all[i] == items[i - 1];
        }
      }
    }
  }

  /** Only the last item of a run may be a missing session or failed
      login, and the run stopped by `return` exactly when it is. */
  predicate EndsAtTerminal(items: seq<Item>, stop: Stop) {
    && (forall i :: 0 <= i < |items| - 1 ==> !Terminal(items[i].outcome))
    && (stop == Aborted <==> |items| > 0 && Terminal(items[|items| - 1].outcome))
  }

  /** One step of the loop keeps that shape: a terminal item ends the run
      on its own, and a non-terminal one is put in front of a run that
      already has it. */
  lemma EndsAtTerminalStep(run: (seq<Item>, Stop, Relay), msgid: int, out: Outcome, r1: Relay,
                           rest: (seq<Item>, Stop, Relay))
    requires run == if Terminal(out) then ([Item(msgid, out)], Aborted, r1)
                    else ([Item(msgid, out)] + rest.0, rest.1, rest.2)
    requires !Terminal(out) ==> EndsAtTerminal(rest.0, rest.1)
    ensures EndsAtTerminal(run.0, run.1)
  {
    if !Terminal(out) {
      var all := [Item(msgid, out)] + rest.0;
      assert forall i :: 0 < i < |all| ==> all[i] == rest.0[i - 1];
    }
  }

  /** A missing session or a failed login ends the range at that item, and
      these are the only items after which the loop returns. */
  lemma {:induction false} RunEndsAtTerminal(r: Relay, user: int, messageId: int, kind: LinkKind,
                                             datas: seq<string>, msgid: int, toId: int,
                                             world: int -> ItemWorld)
    ensures var run := RunItems(r, user, messageId, kind, datas, msgid, toId, world);
            EndsAtTerminal(run.0, run.1)
    decreases toId + 1 - msgid
  {
    var run := RunItems(r, user, messageId, kind, datas, msgid, toId, world);
    if msgid <= toId {
      var w := world(msgid);
      var flags := if w.cancel == BeforeItem then r.flags[user := true] else r.flags;
      if !Flag(flags, user) {
        RunItemsStep(r, user, messageId, kind, datas, msgid, toId, world);
        var (out, r1) := ProcessItem(r, user, messageId, kind, datas, msgid, w);
        var rest := RunItems(r1, user, messageId, kind, datas, msgid + 1, toId, world);
        if !Terminal(out) {
          RunEndsAtTerminal(r1, user, messageId, kind, datas, msgid + 1, toId, world);
        }
        EndsAtTerminalStep(run, msgid, out, r1, rest);
      } else {
        assert run.0 == [] && run.1 == Halted;
      }
    } else {
      assert run.0 == [] && run.1 == Completed;
    }
  }

  /** Every item but the last ran with no `/cancel` at all. */
  predicate CancelFreeBeforeLast(items: seq<Item>, world: int -> ItemWorld) {
    forall i :: 0 <= i < |items| - 1 ==> world(items[i].msgid).cancel == NoCancel
  }

  /** One step of the loop keeps that shape when an item followed by more
      items ran with no `/cancel`. */
  lemma CancelFreeStep(msgid: int, out: Outcome, items: seq<Item>, world: int -> ItemWorld)
    requires CancelFreeBeforeLast(items, world)
    requires |items| > 0 ==> world(msgid).cancel == NoCancel
    ensures CancelFreeBeforeLast([Item(msgid, out)] + items, world)
  {
    var all := [Item(msgid, out)] + items;
    assert forall i :: 0 < i < |all| ==> all[i] == items[i - 1];
  }

  /** A `/cancel` that arrives during an item ends the range after it: every
      item but the last ran with no `/cancel` at all. */
  lemma {:induction false} RunEndsAtCancel(r: Relay, user: int, messageId: int, kind: LinkKind,
                                           datas: seq<string>, msgid: int, toId: int,
                                           world: int -> ItemWorld)
    ensures CancelFreeBeforeLast(RunItems(r, user, messageId, kind, datas, msgid, toId, world).0, world)
    decreases toId + 1 - msgid
  {
    if msgid <= toId {
      var w := world(msgid);
      var flags := if w.cancel == BeforeItem then r.flags[user := true] else r.flags;
      if !Flag(flags, user) {
        RunItemsStep(r, user, messageId, kind, datas, msgid, toId, world);
        var (out, r1) := ProcessItem(r, user, messageId, kind, datas, msgid, w);
        if !Terminal(out) {
          RunEndsAtCancel(r1, user, messageId, kind, datas, msgid + 1, toId, world);
          var items := RunItems(r1, user, messageId, kind, datas, msgid + 1, toId, world).0;
          if |items| > 0 {
            assert w.cancel == NoCancel;
          }
          CancelFreeStep(msgid, out, items, world);
        }
      }
    }
  }

  /** Without a `/cancel`, a failed item does not stop the range: it runs to
      its last id unless a missing session or a failed login ends it, and
      then that item is the last one. */
  lemma {:induction false} ItemFailuresDoNotStopRange(r: Relay, user: int, messageId: int, kind: LinkKind,
                                                      datas: seq<string>, msgid: int, toId: int,
                                                      world: int -> ItemWorld)
    requires !Flag(r.flags, user)
    requires forall m :: msgid <= m <= toId ==> world(m).cancel == NoCancel
    ensures var (items, stop, _) := RunItems(r, user, messageId, kind, datas, msgid, toId, world);
            || (stop == Completed && |items| == RangeSize(msgid, toId))
            || (stop == Aborted && |items| > 0 && Terminal(items[|items| - 1].outcome))
    decreases toId + 1 - msgid
  {
    if msgid <= toId {
      RunItemsStep(r, user, messageId, kind, datas, msgid, toId, world);
      var (out, r1) := ProcessItem(r, user, messageId, kind, datas, msgid, world(msgid));
      if !Terminal(out) {
        ItemKeepsFlags(r, user, messageId, kind, datas, msgid, world(msgid));
        ItemFailuresDoNotStopRange(r1, user, messageId, kind, datas, msgid + 1, toId, world);
        var (items, stop, r2) := RunItems(r1, user, messageId, kind, datas, msgid + 1, toId, world);
        var all := [Item(msgid, out)] + items;
        assert RunItems(r, user, messageId, kind, datas, msgid, toId, world) == (all, stop, r2);
        assert |items| > 0 ==> all[|all| - 1] == items[|items| - 1];
      }
    }
  }

  // ---------------------------------------------------------------------
  // save: the request
  // ---------------------------------------------------------------------

  /** The last `/`-separated segment of the link. */
  function LastSeg(text: string): string {
    var datas := Split(text, '/');
    datas[|datas| - 1]
  }

  /** `temp = seg.split("-")`: the first number, and the second if there is
      one, else the first again. */
  function RangeOf(seg: string): Option<(int, int)> {
    var temp := Split(seg, '-');
    match ParseInt(Strip(temp[0]))
    case None => None
    case Some(fromId) =>
      if |temp| > 1 then
        match ParseInt(Strip(temp[1]))
        case None => None
        case Some(toId) => Some((fromId, toId))
      else Some((fromId, fromId))
  }

  /** The id range at the end of the link: the last `/` segment with every
      `?single` removed, split on `-`; one number stands for itself. */
  function ParseRange(text: string): (r: Option<(int, int)>)
    ensures r.Some? && '-' !in RemoveAll(LastSeg(text), "?single") ==> r.value.0 == r.value.1
  {
    var seg := RemoveAll(LastSeg(text), "?single");
    if '-' !in seg then SplitNoSep(seg, '-'); RangeOf(seg) else RangeOf(seg)
  }

  /** What the flag is left at when a request ends: `AsWritten` is the
      code, which sets it to `True` ("reset after completion");
      `ClearOnExit` clears it on every exit past the limit check, so that
      the flag lives only while a request runs. */
  datatype FlagPolicy = AsWritten | ClearOnExit

  datatype SaveResult =
    | Ignored
    | LimitReached
    | PreviousCancelled
    | ParseFailed
    | Ran(items: seq<Item>, stop: Stop)

  /** Passed the link test and the limit check. */
  predicate Admitted(res: SaveResult) {
    res.PreviousCancelled? || res.ParseFailed? || res.Ran?
  }

  /** The part of `save` after the flag is cleared: parse the range, run
      it, and leave the flag as the policy says. */
  function RunRequest(r: Relay, user: int, messageId: int, text: string,
                      world: int -> ItemWorld, policy: FlagPolicy): (res: (SaveResult, Relay))
    requires !Flag(r.flags, user)
    ensures res.0.ParseFailed? || res.0.Ran?
    ensures res.0.Ran? <==> ParseRange(text).Some?
    ensures OnlyUserChanged(r.store, res.1.store, user)
    ensures FlagsKept(r.flags, res.1.flags, user)
    ensures res.0.Ran? ==> (Flag(res.1.flags, user) <==> policy == AsWritten)
    ensures res.0.ParseFailed? ==> res.1 == r
  {
    match ParseRange(text)
    case None => (ParseFailed, r)
    case Some((fromId, toId)) =>
      var (items, stop, r2) := RunItems(r, user, messageId, KindOfLink(text), Split(text, '/'),
                                        fromId, toId, world);
      if stop == Aborted && policy == AsWritten then (Ran(items, stop), r2)
      else (Ran(items, stop), r2.(flags := r2.flags[user := (policy == AsWritten)]))
  }

  /** `save`: one request, at time `now`. */
  function Save(r: Relay, user: int, messageId: int, text: string, now: Time,
                world: int -> ItemWorld, policy: FlagPolicy): (res: (SaveResult, Relay))
    ensures res.0 == Ignored <==> !Contains(text, "https://t.me/")
    ensures res.0 == LimitReached <==> Contains(text, "https://t.me/") && CheckLimit(r.store, user, now).0
    ensures res.0 == PreviousCancelled <==>
              Contains(text, "https://t.me/") && !CheckLimit(r.store, user, now).0 && Flag(r.flags, user)
    ensures res.0.Ran? ==> ParseRange(text).Some?
    ensures OnlyUserChanged(r.store, res.1.store, user)
    ensures FlagsKept(r.flags, res.1.flags, user)
    ensures !Admitted(res.0) ==> res.1.flags == r.flags && res.1.leftovers == r.leftovers
    ensures policy == AsWritten && (res.0.Ran? || res.0.PreviousCancelled?) ==> Flag(res.1.flags, user)
    ensures policy == ClearOnExit && Admitted(res.0) ==> !Flag(res.1.flags, user)
    ensures res.0 == ParseFailed ==> !Flag(res.1.flags, user)
  {
    if !Contains(text, "https://t.me/") then (Ignored, r)
    else
      var (limited, s1) := CheckLimit(r.store, user, now);
      if limited then (LimitReached, r.(store := s1))
      else if Flag(r.flags, user) then
        (PreviousCancelled,
         r.(store := s1, flags := if policy == ClearOnExit then r.flags[user := false] else r.flags))
      else RunRequest(r.(store := s1, flags := r.flags[user := false]), user, messageId, text, world, policy)
  }

  // ---------------------------------------------------------------------
  // Usage accounting
  // ---------------------------------------------------------------------

  /** A record without a premium flag that keeps the record invariants. */
  predicate FreeRecord(u: UserRecord) {
    !u.isPremium && WellFormed(u)
  }

  /** The number of items for which `add_traffic` ran. */
  function CountedItems(items: seq<Item>): nat {
    if |items| == 0 then 0
    else (if Counted(items[0].outcome) then 1 else 0) + CountedItems(items[1..])
  }

  /** Fetching and relaying one message adds one use exactly when
      `add_traffic` ran for it. */
  lemma HandleTraffic(r: Relay, user: int, messageId: int, msgid: int, w: ItemWorld)
    requires user in r.store && FreeRecord(r.store[user])
    ensures var r1 := HandleRestricted(r, user, messageId, msgid, w).1;
            user in r1.store && FreeRecord(r1.store[user])
    ensures var (out, r1) := HandleRestricted(r, user, messageId, msgid, w);
            r1.store[user].dailyUsage == r.store[user].dailyUsage + (if Counted(out) then 1 else 0)
  {
    assert IsPremium(r.store, user, w.now).1 == r.store;
    assert AddTraffic(r.store, user, w.now)[user].dailyUsage == r.store[user].dailyUsage + 1;
  }

  /** One item adds one use exactly when `add_traffic` ran for it. */
  lemma AttemptTraffic(r: Relay, user: int, messageId: int, kind: LinkKind, datas: seq<string>,
                       msgid: int, w: ItemWorld)
    requires user in r.store && FreeRecord(r.store[user])
    ensures var r1 := Attempt(r, user, messageId, kind, datas, msgid, w).1;
            user in r1.store && FreeRecord(r1.store[user])
    ensures var (out, r1) := Attempt(r, user, messageId, kind, datas, msgid, w);
            r1.store[user].dailyUsage == r.store[user].dailyUsage + (if Counted(out) then 1 else 0)
  {
    if kind == PublicLink && |datas| <= 3 {
    } else if kind == PublicLink && w.publicCopyOk {
      assert AddTraffic(r.store, user, w.now)[user].dailyUsage == r.store[user].dailyUsage + 1;
    } else if GetSession(r.store, user).Some? && w.connectOk && TargetResolves(kind, datas) {
      HandleTraffic(r, user, messageId, msgid, w);
    }
  }

  /** The same for the item as a whole: a cancel only touches the flags. */
  lemma ItemTraffic(r: Relay, user: int, messageId: int, kind: LinkKind, datas: seq<string>,
                    msgid: int, w: ItemWorld)
    requires user in r.store && FreeRecord(r.store[user])
    ensures var r1 := ProcessItem(r, user, messageId, kind, datas, msgid, w).1;
            user in r1.store && FreeRecord(r1.store[user])
    ensures var (out, r1) := ProcessItem(r, user, messageId, kind, datas, msgid, w);
            r1.store[user].dailyUsage == r.store[user].dailyUsage + (if Counted(out) then 1 else 0)
  {
    AttemptTraffic(r, user, messageId, kind, datas, msgid, w);
  }

  /** Over a range, the user's usage grows by the number of counted items. */
  lemma {:induction false} RunTraffic(r: Relay, user: int, messageId: int, kind: LinkKind,
                                      datas: seq<string>, msgid: int, toId: int,
                                      world: int -> ItemWorld)
    requires user in r.store && FreeRecord(r.store[user])
    ensures var (items, _, r2) := RunItems(r, user, messageId, kind, datas, msgid, toId, world);
            user in r2.store && FreeRecord(r2.store[user])
            && r2.store[user].dailyUsage == r.store[user].dailyUsage + CountedItems(items)
    decreases toId + 1 - msgid
  {
    if msgid <= toId {
      var w := world(msgid);
      var flags := if w.cancel == BeforeItem then r.flags[user := true] else r.flags;
      if !Flag(flags, user) {
        RunItemsStep(r, user, messageId, kind, datas, msgid, toId, world);
        var (out, r1) := ProcessItem(r, user, messageId, kind, datas, msgid, w);
        ItemTraffic(r, user, messageId, kind, datas, msgid, w);
        if !Terminal(out) {
          RunTraffic(r1, user, messageId, kind, datas, msgid + 1, toId, world);
          var (items, stop, r2) := RunItems(r1, user, messageId, kind, datas, msgid + 1, toId, world);
          assert ([Item(msgid, out)] + items)[1..] == items;
        }
      }
    }
  }

  /** The request body charges a free user once per counted item. */
  lemma RequestTraffic(r: Relay, user: int, messageId: int, text: string,
                       world: int -> ItemWorld, policy: FlagPolicy)
    requires !Flag(r.flags, user)
    requires user in r.store && FreeRecord(r.store[user])
    ensures var (res, r') := RunRequest(r, user, messageId, text, world, policy);
            res.Ran? ==>
              user in r'.store
              && r'.store[user].dailyUsage == r.store[user].dailyUsage + CountedItems(res.items)
  {
    if ParseRange(text).Some? {
      var (fromId, toId) := ParseRange(text).value;
      RunTraffic(r, user, messageId, KindOfLink(text), Split(text, '/'), fromId, toId, world);
    }
  }

  /** The limit check keeps a free record free and well formed. */
  lemma CheckLimitKeepsFree(s: Store, user: int, now: Time)
    requires user in s && FreeRecord(s[user])
    ensures user in CheckLimit(s, user, now).1 && FreeRecord(CheckLimit(s, user, now).1[user])
  {
    assert IsPremium(s, user, now).1 == s;
  }

  /** A request charges a free user once per item `add_traffic` ran for,
      on top of what the limit check left; the request is checked against
      the limit only once, however long its range. */
  lemma SaveTraffic(r: Relay, user: int, messageId: int, text: string, now: Time,
                    world: int -> ItemWorld, policy: FlagPolicy)
    requires user in r.store && FreeRecord(r.store[user])
    ensures var (res, r') := Save(r, user, messageId, text, now, world, policy);
            res.Ran? ==>
              user in r'.store
              && r'.store[user].dailyUsage
                 == CheckLimit(r.store, user, now).1[user].dailyUsage + CountedItems(res.items)
  {
    if Contains(text, "https://t.me/") {
      var (limited, s1) := CheckLimit(r.store, user, now);
      if !limited && !Flag(r.flags, user) {
        CheckLimitKeepsFree(r.store, user, now);
        RequestTraffic(r.(store := s1, flags := r.flags[user := false]), user, messageId, text, world, policy);
      }
    }
  }

  // ---------------------------------------------------------------------
  // Temporary directories
  // ---------------------------------------------------------------------

  /** The directories `downloads/<request>_<item>` of the items whose
      download failed for a reason other than a cancel. */
  function FailedDownloads(messageId: int, items: seq<Item>): set<(int, int)> {
    if |items| == 0 then {}
    else (if items[0].outcome == DownloadFailed then {(messageId, items[0].msgid)} else {})
         + FailedDownloads(messageId, items[1..])
  }

  /** Cleanup runs on every path but one: a download that fails without a
      cancel leaves its directory behind, and only such items do. */
  lemma {:induction false} LeftoversAreFailedDownloads(r: Relay, user: int, messageId: int,
                                                       kind: LinkKind, datas: seq<string>,
                                                       msgid: int, toId: int,
                                                       world: int -> ItemWorld)
    ensures var (items, _, r2) := RunItems(r, user, messageId, kind, datas, msgid, toId, world);
            r2.leftovers == r.leftovers + FailedDownloads(messageId, items)
    decreases toId + 1 - msgid
  {
    if msgid <= toId {
      var w := world(msgid);
      var flags := if w.cancel == BeforeItem then r.flags[user := true] else r.flags;
      if !Flag(flags, user) {
        RunItemsStep(r, user, messageId, kind, datas, msgid, toId, world);
        var (out, r1) := ProcessItem(r, user, messageId, kind, datas, msgid, w);
        if !Terminal(out) {
          LeftoversAreFailedDownloads(r1, user, messageId, kind, datas, msgid + 1, toId, world);
          var (items, stop, r2) := RunItems(r1, user, messageId, kind, datas, msgid + 1, toId, world);
          assert ([Item(msgid, out)] + items)[1..] == items;
        }
      }
    }
  }

  // ---------------------------------------------------------------------
  // The cancel flag across requests
  // ---------------------------------------------------------------------

  /** What one user does over time: send a link, or `/cancel`. */
  datatype Event =
    | Request(messageId: int, text: string, now: Time, world: int -> ItemWorld)
    | CancelCommand

  /** The results of the user's requests, in order, and the state after
      them all. */
  function Replay(r: Relay, user: int, events: seq<Event>, policy: FlagPolicy): (seq<SaveResult>, Relay)
    decreases |events|
  {
    if |events| == 0 then ([], r)
    else if events[0].CancelCommand? then
      Replay(r.(flags := SendCancel(r.flags, user)), user, events[1..], policy)
    else
      var e := events[0];
      var (res, r1) := Save(r, user, e.messageId, e.text, e.now, e.world, policy);
      var (rest, r2) := Replay(r1, user, events[1..], policy);
      ([res] + rest, r2)
  }

  /** As written, a set flag is never cleared: once any request has run
      (and every run ends by setting it), every later request is refused
      as "previous task cancelled", whatever the user sends. */
  lemma {:induction false} LockOutAsWritten(r: Relay, user: int, events: seq<Event>)
    requires Flag(r.flags, user)
    ensures var (results, r') := Replay(r, user, events, AsWritten);
            Flag(r'.flags, user)
            && forall i :: 0 <= i < |results| ==> !results[i].Ran? && !results[i].ParseFailed?
    decreases |events|
  {
    if |events| > 0 {
      match events[0]
      case CancelCommand =>
        LockOutAsWritten(r.(flags := SendCancel(r.flags, user)), user, events[1..]);
      case Request(messageId, text, now, world) =>
        var (res, r1) := Save(r, user, messageId, text, now, world, AsWritten);
        LockOutAsWritten(r1, user, events[1..]);
        var (rest, r2) := Replay(r1, user, events[1..], AsWritten);
        assert forall i :: 0 < i < |[res] + rest| ==> ([res] + rest)[i] == rest[i - 1];
    }
  }

  /** The first request that gets to run locks the user out. */
  lemma RunLocksOutAsWritten(r: Relay, user: int, messageId: int, text: string, now: Time,
                             world: int -> ItemWorld, later: seq<Event>)
    requires Save(r, user, messageId, text, now, world, AsWritten).0.Ran?
    ensures var (results, _) := Replay(r, user, [Request(messageId, text, now, world)] + later, AsWritten);
            |results| >= 1 && results[0].Ran?
            && forall i :: 1 <= i < |results| ==> !results[i].Ran?
  {
    var events := [Request(messageId, text, now, world)] + later;
    assert events[1..] == later;
    LockOutAsWritten(Save(r, user, messageId, text, now, world, AsWritten).1, user, later);
  }

  /** With the flag cleared on exit, a user who does not send `/cancel` is
      never refused as "previous task cancelled". */
  lemma {:induction false} NoLockOutClearOnExit(r: Relay, user: int, events: seq<Event>)
    requires !Flag(r.flags, user)
    requires forall i :: 0 <= i < |events| ==> events[i].Request?
    ensures var (results, r') := Replay(r, user, events, ClearOnExit);
            !Flag(r'.flags, user)
            && forall i :: 0 <= i < |results| ==> !results[i].PreviousCancelled?
    decreases |events|
  {
    if |events| > 0 {
      var e := events[0];
      assert e.Request?;
      var (res, r1) := Save(r, user, e.messageId, e.text, e.now, e.world, ClearOnExit);
      assert forall i :: 0 <= i < |events[1..]| ==> events[1..][i] == events[i + 1];
      NoLockOutClearOnExit(r1, user, events[1..]);
      var (rest, r2) := Replay(r1, user, events[1..], ClearOnExit);
      assert forall i :: 0 < i < |[res] + rest| ==> ([res] + rest)[i] == rest[i - 1];
    }
  }

  /** With the flag cleared on exit, a `/cancel` sent between requests
      refuses only the next request that passes the limit check. */
  lemma CancelRefusesOnceClearOnExit(r: Relay, user: int, messageId: int, text: string, now: Time,
                                     world: int -> ItemWorld)
    requires Contains(text, "https://t.me/") && !CheckLimit(r.store, user, now).0
    ensures var r1 := r.(flags := SendCancel(r.flags, user));
            var (res, r2) := Save(r1, user, messageId, text, now, world, ClearOnExit);
            res == PreviousCancelled && !Flag(r2.flags, user)
  {
  }

  // ---------------------------------------------------------------------
  // Links
  // ---------------------------------------------------------------------

  /** A rendered number is its own stripped form and holds no separator. */
  lemma NumberText(n: nat)
    ensures Strip(NatToString(n)) == NatToString(n)
    ensures '/' !in NatToString(n) && '-' !in NatToString(n) && '?' !in NatToString(n)
    ensures ParseInt(Strip(NatToString(n))) == Some(n)
  {
    var d := NatToString(n);
    assert IsDigit(d[0]) && IsDigit(d[|d| - 1]);
    StripNoSpaceEnds(d);
    ParseNonNegative(n);
  }

  /** A string without `?` does not contain `?single`. */
  lemma {:induction false} NoQuestionMark(d: string)
    requires '?' !in d
    ensures !Contains(d, "?single")
    decreases |d|
  {
    if |d| > 0 {
      assert d[0] != '?';
      assert |d| >= 7 ==> d[..7][0] == d[0];
      assert !StartsWith(d, "?single");
      assert '?' !in d[1..];
      NoQuestionMark(d[1..]);
    }
  }

  /** Removing `?single` from a string that ends with it and has no other
      `?` leaves the rest. */
  lemma {:induction false} DropSingleSuffix(d: string)
    requires '?' !in d
    ensures RemoveAll(d + "?single", "?single") == d
    decreases |d|
  {
    if |d| == 0 {
      assert d + "?single" == "?single";
      assert StartsWith("?single", "?single");
    } else {
      var t := d + "?single";
      assert t[0] == d[0] && d[0] != '?';
      assert !StartsWith(t, "?single");
      assert t[1..] == d[1..] + "?single";
      assert '?' !in d[1..];
      DropSingleSuffix(d[1..]);
      assert [d[0]] + d[1..] == d;
    }
  }

  /** The last `/` segment of `base + "/" + d`, for a `d` without `/`. */
  lemma LastSegment(base: string, d: string)
    requires '/' !in d
    ensures LastSeg(base + "/" + d) == d
  {
    SplitAppend(base, d, '/');
    SplitNoSep(d, '/');
    assert base + "/" + d == base + ['/'] + d;
  }

  /** `segment` with an optional `?single` suffix, stripped of it. */
  lemma SegmentWithoutSingle(d: string, single: bool)
    requires '?' !in d
    ensures RemoveAll(d + (if single then "?single" else ""), "?single") == d
  {
    if single {
      DropSingleSuffix(d);
    } else {
      assert d + "" == d;
      NoQuestionMark(d);
    }
  }

  /** `<a>-<b>` reads as the range `a..b`. */
  lemma NumbersRange(a: nat, b: nat)
    ensures RangeOf(NatToString(a) + "-" + NatToString(b)) == Some((a, b))
  {
    var na := NatToString(a);
    var nb := NatToString(b);
    NumberText(a);
    NumberText(b);
    assert na + "-" + nb == na + ['-'] + nb;
    SplitTwo(na, nb, '-');
  }

  /** `<a>` alone reads as the range `a..a`. */
  lemma NumberRange(a: nat)
    ensures RangeOf(NatToString(a)) == Some((a, a))
  {
    NumberText(a);
    SplitNoSep(NatToString(a), '-');
  }

  /** The range of a link is read from its last segment alone. */
  lemma ParseRangeOfSegment(base: string, seg: string, d: string, single: bool)
    requires '/' !in seg && '?' !in d
    requires seg == d + (if single then "?single" else "")
    ensures ParseRange(base + "/" + seg) == RangeOf(d)
  {
    LastSegment(base, seg);
    SegmentWithoutSingle(d, single);
  }

  /** A link ending in `/<a>-<b>`, with or without `?single`, names the
      range `a..b`: the suffix does not collapse a range to one id. */
  lemma LinkRange(base: string, a: nat, b: nat, single: bool)
    ensures ParseRange(base + "/" + (NatToString(a) + "-" + NatToString(b)
                       + (if single then "?single" else ""))) == Some((a, b))
  {
    var d := NatToString(a) + "-" + NatToString(b);
    NumberText(a);
    NumberText(b);
    assert '/' !in d && '?' !in d;
    assert '/' !in "?single";
    ParseRangeOfSegment(base, d + (if single then "?single" else ""), d, single);
    NumbersRange(a, b);
  }

  /** A link ending in `/<a>`, with or without `?single`, names `a` alone. */
  lemma LinkSingle(base: string, a: nat, single: bool)
    ensures ParseRange(base + "/" + (NatToString(a) + (if single then "?single" else ""))) == Some((a, a))
  {
    var d := NatToString(a);
    NumberText(a);
    assert '/' !in "?single";
    ParseRangeOfSegment(base, d + (if single then "?single" else ""), d, single);
    NumberRange(a);
  }

  // ---------------------------------------------------------------------
  // Runs
  // ---------------------------------------------------------------------

  /** A public range whose copies all succeed, with no `/cancel`, relays
      every id in order. */
  lemma {:induction false} PublicRangeCopiesAll(r: Relay, user: int, messageId: int,
                                                datas: seq<string>, msgid: int, toId: int,
                                                world: int -> ItemWorld)
    requires |datas| > 3 && !Flag(r.flags, user)
    requires forall m :: msgid <= m <= toId ==> world(m).cancel == NoCancel && world(m).publicCopyOk
    ensures var (items, stop, _) := RunItems(r, user, messageId, PublicLink, datas, msgid, toId, world);
            stop == Completed && |items| == RangeSize(msgid, toId)
            && forall i :: 0 <= i < |items| ==> items[i].outcome == PublicCopied
    decreases toId + 1 - msgid
  {
    if msgid <= toId {
      var (out, r1) := ProcessItem(r, user, messageId, PublicLink, datas, msgid, world(msgid));
      assert out == PublicCopied && r1.flags == r.flags;
      PublicRangeCopiesAll(r1, user, messageId, datas, msgid + 1, toId, world);
      var (items, stop, r2) := RunItems(r1, user, messageId, PublicLink, datas, msgid + 1, toId, world);
      assert forall i :: 0 < i < |[Item(msgid, out)] + items| ==> ([Item(msgid, out)] + items)[i] == items[i - 1];
    }
  }

  /** A bot with no users, no flags and no leftovers. */
  function Fresh(): Relay {
    Relay(map[], map[], {})
  }

  /** Two requests for single messages under one channel link, one after
      the other. */
  function TwoRequests(base: string, first: nat, second: nat, world: int -> ItemWorld): seq<Event> {
    [Request(1, base + "/" + NatToString(first), 0, world),
     Request(2, base + "/" + NatToString(second), 0, world)]
  }

  /** A link to a single id under a base that starts with the link prefix. */
  lemma LinkUnder(base: string, n: nat)
    requires StartsWith(base, "https://t.me/")
    ensures Contains(base + "/" + NatToString(n), "https://t.me/")
    ensures ParseRange(base + "/" + NatToString(n)) == Some((n, n))
  {
    var text := base + "/" + NatToString(n);
    assert text[..|"https://t.me/"|] == base[..|"https://t.me/"|];
    assert StartsWith(text, "https://t.me/");
    LinkSingle(base, n, false);
    assert NatToString(n) + "" == NatToString(n);
  }

  /** A link request of a user the store does not know, with the flag
      clear, runs and leaves the store empty. */
  lemma UnknownUserRuns(r: Relay, user: int, messageId: int, text: string, now: Time,
                        world: int -> ItemWorld, policy: FlagPolicy)
    requires r.store == map[] && !Flag(r.flags, user)
    requires Contains(text, "https://t.me/") && ParseRange(text).Some?
    ensures Save(r, user, messageId, text, now, world, policy).0.Ran?
    ensures Save(r, user, messageId, text, now, world, policy).1.store == map[]
  {
    var s := Save(r, user, messageId, text, now, world, policy).1.store;
    assert s.Keys == {};
  }

  /** A request at the head of the events is one call of `save`. */
  lemma ReplayRequest(r: Relay, user: int, e: Event, rest: seq<Event>, policy: FlagPolicy)
    requires e.Request?
    ensures var (res, r1) := Save(r, user, e.messageId, e.text, e.now, e.world, policy);
            Replay(r, user, [e] + rest, policy).0 == [res] + Replay(r1, user, rest, policy).0
  {
    assert ([e] + rest)[0] == e;
    assert ([e] + rest)[1..] == rest;
  }

  /** Two requests in a row give the results of the two calls of `save`. */
  lemma ReplayTwo(r: Relay, user: int, e1: Event, e2: Event, policy: FlagPolicy)
    requires e1.Request? && e2.Request?
    ensures var r1 := Save(r, user, e1.messageId, e1.text, e1.now, e1.world, policy);
            var r2 := Save(r1.1, user, e2.messageId, e2.text, e2.now, e2.world, policy);
            Replay(r, user, [e1, e2], policy).0 == [r1.0, r2.0]
  {
    var r1 := Save(r, user, e1.messageId, e1.text, e1.now, e1.world, policy);
    var r2 := Save(r1.1, user, e2.messageId, e2.text, e2.now, e2.world, policy);
    assert Replay(r, user, [e1, e2], policy).0 == [r1.0] + Replay(r1.1, user, [e2], policy).0 by {
      ReplayRequest(r, user, e1, [e2], policy);
      assert [e1] + [e2] == [e1, e2];
    }
    assert Replay(r1.1, user, [e2], policy).0 == [r2.0] by {
      ReplayRequest(r1.1, user, e2, [], policy);
      assert [e2] + [] == [e2];
    }
  }

  /** The first request on a fresh bot runs, and as written the user's
      second request is then refused, though nothing was cancelled; with
      the flag cleared on exit the second request runs too.  For instance
      `https://t.me/name/5` followed by `https://t.me/name/6`. */
  lemma SecondRequestRefused(base: string, first: nat, second: nat, world: int -> ItemWorld)
    requires StartsWith(base, "https://t.me/")
    ensures var (results, _) := Replay(Fresh(), 7, TwoRequests(base, first, second, world), AsWritten);
            |results| == 2 && results[0].Ran? && results[1] == PreviousCancelled
    ensures var (results, _) := Replay(Fresh(), 7, TwoRequests(base, first, second, world), ClearOnExit);
            |results| == 2 && results[0].Ran? && results[1].Ran?
  {
    var events := TwoRequests(base, first, second, world);
    ReplayTwo(Fresh(), 7, events[0], events[1], AsWritten);
    ReplayTwo(Fresh(), 7, events[0], events[1], ClearOnExit);
    var t1 := base + "/" + NatToString(first);
    var t2 := base + "/" + NatToString(second);
    LinkUnder(base, first);
    LinkUnder(base, second);
    UnknownUserRuns(Fresh(), 7, 1, t1, 0, world, AsWritten);
    UnknownUserRuns(Fresh(), 7, 1, t1, 0, world, ClearOnExit);
    var w1 := Save(Fresh(), 7, 1, t1, 0, world, AsWritten).1;
    var c1 := Save(Fresh(), 7, 1, t1, 0, world, ClearOnExit).1;
    UnknownUserRuns(c1, 7, 2, t2, 0, world, ClearOnExit);
    assert Save(w1, 7, 2, t2, 0, world, AsWritten).0 == PreviousCancelled;
  }
}

=== FILE: text.dfy ===
/** The handful of Python string operations the bot relies on, written out
    over `seq<char>`: `str.strip`, `int(...)` in base 10, `str(int)`,
    `str.split` on one character, `str.join`, `in` on strings,
    `str.replace(pat, "")` and `str.lower`.  Only the ASCII subset of
    Python's Unicode behaviour is modelled for digits and case. */
module Text {
  import opened Wrappers

  predicate IsDigit(c: char) {
    '0' <= c <= '9'
  }

  function DigitValue(c: char): nat
    requires IsDigit(c)
  {
    (c as int) - ('0' as int)
  }

  function DigitChar(d: nat): (c: char)
    requires d < 10
    ensures IsDigit(c) && DigitValue(c) == d
  {
    (('0' as int) + d) as char
  }

  lemma DigitRoundTrip(c: char)
    requires IsDigit(c)
    ensures DigitValue(c) < 10 && DigitChar(DigitValue(c)) == c
  {
  }

  /** The characters for which Python's `str.isspace()` holds. */
  predicate IsSpace(c: char) {
    var n := c as int;
    (9 <= n <= 13) || (28 <= n <= 32) || n == 0x85 || n == 0xA0 || n == 0x1680
    || (0x2000 <= n <= 0x200A) || n == 0x2028 || n == 0x2029 || n == 0x202F
    || n == 0x205F || n == 0x3000
  }

  /** `s.lstrip()` */
  function StripLeft(s: string): (r: string)
    ensures |r| <= |s| && r == s[|s| - |r|..]
    ensures |r| > 0 ==> !IsSpace(r[0])
    ensures forall i :: 0 <= i < |s| - |r| ==> IsSpace(s[i])
  {
    if |s| > 0 && IsSpace(s[0]) then StripLeft(s[1..]) else s
  }

  /** `s.rstrip()` */
  function StripRight(s: string): (r: string)
    ensures |r| <= |s| && r == s[..|r|]
    ensures |r| > 0 ==> !IsSpace(r[|r| - 1])
    ensures forall i :: |r| <= i < |s| ==> IsSpace(s[i])
  {
    if |s| > 0 && IsSpace(s[|s| - 1]) then StripRight(s[..|s| - 1]) else s
  }

  /** `s.strip()` */
  function Strip(s: string): string {
    StripRight(StripLeft(s))
  }

  predicate AllDigits(s: string) {
    forall i :: 0 <= i < |s| ==> IsDigit(s[i])
  }

  /** The value of a string of decimal digits, most significant first. */
  function DigitsValue(s: string): nat
    requires AllDigits(s)
  {
    if |s| == 0 then 0 else DigitsValue(s[..|s| - 1]) * 10 + DigitValue(s[|s| - 1])
  }

  /** The body of a base-10 literal that `int()` accepts: digits, with single
      underscores allowed between two digits. */
  predicate WellFormedBody(b: string) {
    && |b| > 0
    && IsDigit(b[0])
    && IsDigit(b[|b| - 1])
    && (forall i :: 0 <= i < |b| ==> IsDigit(b[i]) || b[i] == '_')
    && (forall i :: 0 <= i < |b| - 1 ==> b[i] == '_' ==> b[i + 1] != '_')
  }

  function DropUnderscores(b: string): (r: string)
    requires forall i :: 0 <= i < |b| ==> IsDigit(b[i]) || b[i] == '_'
    ensures AllDigits(r)
    ensures AllDigits(b) ==> r == b
  {
    if |b| == 0 then ""
    else if b[0] == '_' then DropUnderscores(b[1..])
    else [b[0]] + DropUnderscores(b[1..])
  }

  /** An unsigned base-10 literal `int()` accepts, and its value. */
  function ParseDigits(b: string): (r: Option<nat>)
    ensures r.Some? <==> WellFormedBody(b)
  {
    if WellFormedBody(b) then Some(DigitsValue(DropUnderscores(b))) else None
  }

  /** Python's `int(s)`: surrounding whitespace, an optional sign, then the
      digits; anything else is a `ValueError`, modelled as `None`. */
  function ParseInt(s: string): (r: Option<int>)
    ensures r.Some? <==>
              || WellFormedBody(Strip(s))
              || (|Strip(s)| > 0 && (Strip(s)[0] == '-' || Strip(s)[0] == '+')
                  && WellFormedBody(Strip(s)[1..]))
    ensures WellFormedBody(Strip(s)) ==>
              r == Some(DigitsValue(DropUnderscores(Strip(s))) as int)
    ensures |Strip(s)| > 0 && Strip(s)[0] == '-' && WellFormedBody(Strip(s)[1..]) ==>
              r == Some(-(DigitsValue(DropUnderscores(Strip(s)[1..])) as int))
    ensures |Strip(s)| > 0 && Strip(s)[0] == '+' && WellFormedBody(Strip(s)[1..]) ==>
              r == Some(DigitsValue(DropUnderscores(Strip(s)[1..])) as int)
  {
    var t := Strip(s);
    if |t| > 0 && (t[0] == '-' || t[0] == '+') then
      var b := t[1..];
      if !WellFormedBody(b) then None
      else
        var v := DigitsValue(DropUnderscores(b)) as int;
        Some(if t[0] == '-' then -v else v)
    else if WellFormedBody(t) then Some(DigitsValue(DropUnderscores(t)) as int)
    else None
  }

  /** `str(n)` for a non-negative `n`: no leading zero except for 0 itself. */
  function NatToString(n: nat): (r: string)
    ensures |r| > 0 && AllDigits(r)
    ensures DigitsValue(r) == n
    ensures r[0] == '0' ==> n == 0
  {
    if n < 10 then [DigitChar(n)]
    else
      var r := NatToString(n / 10) + [DigitChar(n % 10)];
      assert r[..|r| - 1] == NatToString(n / 10);
      r
  }

  /** `str(n)` */
  function IntToString(n: int): string {
    if n < 0 then "-" + NatToString(-n) else NatToString(n)
  }

  lemma StripNoSpaceEnds(s: string)
    requires |s| > 0 && !IsSpace(s[0]) && !IsSpace(s[|s| - 1])
    ensures Strip(s) == s
  {
  }

  /** A rendered natural number is a literal `int()` reads back. */
  lemma NatStringParses(n: nat)
    ensures ParseDigits(NatToString(n)) == Some(n)
  {
    var d := NatToString(n);
    assert DropUnderscores(d) == d;
  }

  lemma ParseNonNegative(n: nat)
    ensures ParseInt(NatToString(n)) == Some(n)
  {
    var s := NatToString(n);
    NatStringParses(n);
    assert IsDigit(s[0]) && IsDigit(s[|s| - 1]);
    StripNoSpaceEnds(s);
    assert s[0] != '-' && s[0] != '+';
  }

  /** A minus sign before an accepted digit string negates its value. */
  lemma ParseMinus(d: string, v: nat)
    requires |d| > 0 && IsDigit(d[|d| - 1])
    requires ParseDigits(d) == Some(v)
    ensures ParseInt("-" + d) == Some(-(v as int))
  {
    var s := "-" + d;
    assert s[|s| - 1] == d[|d| - 1];
    StripNoSpaceEnds(s);
    assert s[1..] == d;
  }

  /** `int(str(n)) == n` for every integer. */
  lemma ParseIntRoundTrip(n: int)
    ensures ParseInt(IntToString(n)) == Some(n)
  {
    if n < 0 {
      assert IntToString(n) == "-" + NatToString(-n);
      NatStringParses(-n);
      ParseMinus(NatToString(-n), -n);
    } else {
      assert IntToString(n) == NatToString(n);
      ParseNonNegative(n);
    }
  }

  /** `s.split(sep)` */
  function Split(s: string, sep: char): (parts: seq<string>)
    ensures |parts| >= 1
    ensures forall i :: 0 <= i < |parts| ==> sep !in parts[i]
  {
    if |s| == 0 then [""]
    else
      var rest := Split(s[1..], sep);
      if s[0] == sep then [""] + rest
      else [[s[0]] + rest[0]] + rest[1..]
  }

  /** `sep.join(parts)` */
  function Join(parts: seq<string>, sep: char): string {
    if |parts| == 0 then ""
    else if |parts| == 1 then parts[0]
    else parts[0] + [sep] + Join(parts[1..], sep)
  }

  /** Splitting on a character and joining back on it is the identity. */
  lemma {:induction false} JoinSplit(s: string, sep: char)
    ensures Join(Split(s, sep), sep) == s
  {
    if |s| > 0 {
      var rest := Split(s[1..], sep);
      JoinSplit(s[1..], sep);
      if s[0] == sep {
        assert Split(s, sep) == [""] + rest;
        assert Join([""] + rest, sep) == "" + [sep] + Join(rest, sep);
      } else {
        var parts := Split(s, sep);
        assert parts == [[s[0]] + rest[0]] + rest[1..];
        if |rest| == 1 {
          assert parts == [[s[0]] + rest[0]];
        } else {
          assert parts[1..] == rest[1..];
          assert Join(rest, sep) == rest[0] + [sep] + Join(rest[1..], sep);
          assert Join(parts, sep) == [s[0]] + rest[0] + [sep] + Join(rest[1..], sep);
        }
        assert s == [s[0]] + s[1..];
      }
    }
  }

  /** A string without the separator is a single piece. */
  lemma {:induction false} SplitNoSep(s: string, sep: char)
    requires sep !in s
    ensures Split(s, sep) == [s]
  {
    if |s| > 0 {
      assert sep !in s[1..];
      SplitNoSep(s[1..], sep);
      assert [s[0]] + s[1..] == s;
    }
  }

  /** Two separator-free pieces joined by one separator split back apart. */
  lemma {:induction false} SplitTwo(a: string, b: string, sep: char)
    requires sep !in a && sep !in b
    ensures Split(a + [sep] + b, sep) == [a, b]
  {
    if |a| == 0 {
      assert a + [sep] + b == [sep] + b;
      assert ([sep] + b)[1..] == b;
      SplitNoSep(b, sep);
    } else {
      var t := a + [sep] + b;
      assert t[1..] == a[1..] + [sep] + b;
      assert sep !in a[1..];
      SplitTwo(a[1..], b, sep);
      assert t[0] == a[0] && t[0] != sep;
      assert [a[0]] + a[1..] == a;
    }
  }

  /** A separator in front adds an empty first piece. */
  lemma SplitConsSep(s: string, sep: char)
    ensures Split([sep] + s, sep) == [""] + Split(s, sep)
  {
    assert ([sep] + s)[1..] == s;
  }

  /** Any other character in front joins the first piece. */
  lemma SplitConsOther(c: char, s: string, sep: char)
    requires c != sep
    ensures Split([c] + s, sep) == [[c] + Split(s, sep)[0]] + Split(s, sep)[1..]
  {
    assert ([c] + s)[1..] == s;
  }

  /** Splitting at a separator between two strings splits each side apart
      and puts the pieces one after the other. */
  lemma {:induction false} SplitAppend(a: string, b: string, sep: char)
    ensures Split(a + [sep] + b, sep) == Split(a, sep) + Split(b, sep)
  {
    if |a| == 0 {
      assert a + [sep] + b == [sep] + b;
      SplitConsSep(b, sep);
    } else {
      var c := a[0];
      var a' := a[1..];
      SplitAppend(a', b, sep);
      assert a == [c] + a';
      assert a + [sep] + b == [c] + (a' + [sep] + b);
      if c == sep {
        SplitAppendSep(a', b, sep);
      } else {
        SplitAppendOther(c, a', b, sep);
      }
    }
  }

  lemma SplitAppendSep(a: string, b: string, sep: char)
    requires Split(a + [sep] + b, sep) == Split(a, sep) + Split(b, sep)
    ensures Split([sep] + (a + [sep] + b), sep) == Split([sep] + a, sep) + Split(b, sep)
  {
    SplitConsSep(a + [sep] + b, sep);
    SplitConsSep(a, sep);
    ConcatAssoc([""], Split(a, sep), Split(b, sep));
  }

  lemma SplitAppendOther(c: char, a: string, b: string, sep: char)
    requires c != sep
    requires Split(a + [sep] + b, sep) == Split(a, sep) + Split(b, sep)
    ensures Split([c] + (a + [sep] + b), sep) == Split([c] + a, sep) + Split(b, sep)
  {
    SplitConsOther(c, a + [sep] + b, sep);
    SplitConsOther(c, a, sep);
    JoinFirst([c], Split(a, sep), Split(b, sep));
  }

  lemma ConcatAssoc<T>(x: seq<T>, y: seq<T>, z: seq<T>)
    ensures x + (y + z) == (x + y) + z
  {
  }

  /** Gluing a prefix onto the first piece commutes with appending pieces. */
  lemma JoinFirst(c: string, ra: seq<string>, sb: seq<string>)
    requires |ra| >= 1
    ensures [c + (ra + sb)[0]] + (ra + sb)[1..] == ([c + ra[0]] + ra[1..]) + sb
  {
    assert (ra + sb)[0] == ra[0];
    assert (ra + sb)[1..] == ra[1..] + sb;
  }

  /** The number of occurrences of `c` in `s`. */
  function Occurrences(s: string, c: char): nat {
    if |s| == 0 then 0 else (if s[0] == c then 1 else 0) + Occurrences(s[1..], c)
  }

  /** `s.split(sep)` has one more piece than there are separators. */
  lemma {:induction false} SplitCount(s: string, sep: char)
    ensures |Split(s, sep)| == Occurrences(s, sep) + 1
  {
    if |s| > 0 {
      SplitCount(s[1..], sep);
    }
  }

  predicate StartsWith(s: string, p: string) {
    |p| <= |s| && s[..|p|] == p
  }

  /** Python's `p in s` for strings. */
  predicate Contains(s: string, p: string)
    decreases |s|
  {
    StartsWith(s, p) || (|s| > 0 && Contains(s[1..], p))
  }

  /** `s.replace(pat, "")`: occurrences are removed left to right without
      rescanning what the removal brings together. */
  function RemoveAll(s: string, pat: string): (r: string)
    requires |pat| > 0
    ensures |r| <= |s|
    ensures !Contains(s, pat) ==> r == s
    decreases |s|
  {
    if |s| == 0 then s
    else if StartsWith(s, pat) then RemoveAll(s[|pat|..], pat)
    else [s[0]] + RemoveAll(s[1..], pat)
  }

  /** Removal works from the left: when the first occurrence of `pat`
      starts right after `a`, the text before it is kept as it is cleaned
      on its own, the occurrence goes, and the rest is cleaned
      independently.  With `RemoveAll(a, pat) == a` for an `a` without
      occurrence, this fixes the result for every input. */
  lemma {:induction false} RemoveAllAtFirst(a: string, pat: string, b: string)
    requires |pat| > 0
    requires !Contains(a + pat[..|pat| - 1], pat)
    ensures RemoveAll(a + pat + b, pat) == RemoveAll(a, pat) + RemoveAll(b, pat)
    decreases |a|
  {
    if |a| == 0 {
      RemoveAllAtStart(pat, b);
      assert a + pat + b == pat + b;
    } else {
      NoMatchInTail(a, pat);
      RemoveAllAtFirst(a[1..], pat, b);
      RemoveAllKeepsHead(a, pat, b);
    }
  }

  /** With no occurrence in `a + pat[..|pat| - 1]`, the string does not
      start with `pat` and its tail has no occurrence either. */
  lemma NoMatchInTail(a: string, pat: string)
    requires |pat| > 0 && |a| > 0
    requires !Contains(a + pat[..|pat| - 1], pat)
    ensures !StartsWith(a + pat[..|pat| - 1], pat)
    ensures !Contains(a[1..] + pat[..|pat| - 1], pat)
  {
    var x := a + pat[..|pat| - 1];
    assert x[1..] == a[1..] + pat[..|pat| - 1];
  }

  lemma RemoveAllAtStart(pat: string, b: string)
    requires |pat| > 0
    ensures RemoveAll(pat + b, pat) == RemoveAll(b, pat)
  {
    assert (pat + b)[..|pat|] == pat;
    assert (pat + b)[|pat|..] == b;
  }

  /** One step of `RemoveAllAtFirst`: the first character of a non-empty
      `a` is kept on both sides. */
  lemma RemoveAllKeepsHead(a: string, pat: string, b: string)
    requires |pat| > 0 && |a| > 0
    requires !StartsWith(a + pat[..|pat| - 1], pat)
    ensures RemoveAll(a + pat + b, pat) == [a[0]] + RemoveAll(a[1..] + pat + b, pat)
    ensures RemoveAll(a, pat) == [a[0]] + RemoveAll(a[1..], pat)
  {
    var s := a + pat + b;
    var x := a + pat[..|pat| - 1];
    assert x[..|pat|] == s[..|pat|];
    assert !StartsWith(s, pat);
    NoPrefixOfLonger(a, x, pat);
    assert s[1..] == a[1..] + pat + b;
  }

  /** A string that does not start with `pat` has no extension that does. */
  lemma NoPrefixOfLonger(a: string, x: string, pat: string)
    requires |a| <= |x| && x[..|a|] == a
    requires !StartsWith(x, pat)
    ensures !StartsWith(a, pat)
  {
  }

  function LowerChar(c: char): char {
    if 'A' <= c <= 'Z' then ((c as int) + 32) as char else c
  }

  /** `s.lower()` on the ASCII letters. */
  function Lower(s: string): (r: string)
    ensures |r| == |s|
    ensures forall i :: 0 <= i < |s| ==> r[i] == LowerChar(s[i])
  {
    if |s| == 0 then "" else [LowerChar(s[0])] + Lower(s[1..])
  }
}

=== FILE: user_store.dfy ===
/** The keyed user collection of `database/db.py`: one record per user id,
    every operation a pure transition on `map<int, UserRecord>`.  An update
    addressed to an id with no record leaves the store as it is, as
    MongoDB's `update_one` does when nothing matches. */
module UserStore {
  import opened Wrappers

  /** Server clock, in milliseconds.  Time 0 is 0001-01-01 00:00 local time,
      so a calendar date's midnight is `(ordinal - 1) * DayMs`. */
  type Time = int

  const DayMs: int := 24 * 60 * 60 * 1000

  datatype UserRecord = UserRecord(
    name: string,
    session: Option<string>,
    caption: Option<string>,
    thumbnail: Option<string>,
    isPremium: bool,
    premiumExpiry: Option<Time>,
    isBanned: bool,
    dumpChat: Option<int>,
    deleteWords: seq<string>,
    replaceWords: map<string, string>,
    dailyUsage: nat,
    limitResetTime: Option<Time>)

  type Store = map<int, UserRecord>

  /** The record invariants the code relies on: a set premium flag comes
      with an expiry, and no usage is counted outside an active window. */
  predicate WellFormed(u: UserRecord) {
    && (u.isPremium ==> u.premiumExpiry.Some?)
    && (u.limitResetTime.None? ==> u.dailyUsage == 0)
  }

  predicate StoreWellFormed(s: Store) {
    forall id :: id in s ==> WellFormed(s[id])
  }

  /** `r` differs from `s` at most in the record of `id`. */
  predicate OnlyUserChanged(s: Store, r: Store, id: int) {
    && r.Keys == s.Keys
    && forall k :: k in s && k != id ==> r[k] == s[k]
  }

  /** A premium grant that is still running at `now` (strictly before its expiry). */
  predicate PremiumActive(u: UserRecord, now: Time) {
    u.isPremium && u.premiumExpiry.Some? && now < u.premiumExpiry.value
  }

  // ---------------------------------------------------------------------
  // Creation, existence, deletion
  // ---------------------------------------------------------------------

  /** The record a user gets on first contact. */
  function NewUser(name: string): (u: UserRecord)
    ensures WellFormed(u)
    ensures u.name == name
    ensures u.session.None? && u.caption.None? && u.thumbnail.None?
    ensures !u.isPremium && u.premiumExpiry.None? && !u.isBanned && u.dumpChat.None?
    ensures u.deleteWords == [] && u.replaceWords == map[]
    ensures u.dailyUsage == 0 && u.limitResetTime.None?
    ensures forall now :: !PremiumActive(u, now)
  {
    UserRecord(name, None, None, None, false, None, false, None, [], map[], 0, None)
  }

  /** `insert_one` under the unique index on `id`: a second insert of the
      same id is refused (`None`) and the store is unchanged. */
  function AddUser(s: Store, id: int, name: string): (r: Option<Store>)
    ensures r.Some? <==> id !in s
    ensures r.Some? ==> r.value.Keys == s.Keys + {id} && r.value[id] == NewUser(name)
    ensures r.Some? ==> forall k :: k in s ==> r.value[k] == s[k]
  {
    if id in s then None else Some(s[id := NewUser(name)])
  }

  /** `is_user_exist`: a user exists exactly when the full cursor meets it. */
  function IsUserExist(s: Store, id: int): (b: bool)
    ensures b <==> id in Cursor(s, AllUsers)
  {
    id in s
  }

  /** `delete_many({'id': id})` */
  function DeleteUser(s: Store, id: int): (r: Store)
    ensures r.Keys == s.Keys - {id}
    ensures forall k :: k in r ==> r[k] == s[k]
  {
    s - {id}
  }

  // ---------------------------------------------------------------------
  // Single-field getters and setters
  // ---------------------------------------------------------------------

  function GetSession(s: Store, id: int): (r: Option<string>)
    ensures r == (if id in s then s[id].session else None)
    ensures r.Some? ==> id in s && s[id].session == r
  {
    if id in s then s[id].session else None
  }

  function SetSession(s: Store, id: int, session: Option<string>): (r: Store)
    ensures OnlyUserChanged(s, r, id)
    ensures GetSession(r, id) == (if id in s then session else None)
    ensures id in s ==> r[id] == s[id].(session := session)
  {
    if id in s then s[id := s[id].(session := session)] else s
  }

  function GetCaption(s: Store, id: int): (r: Option<string>)
    ensures r == (if id in s then s[id].caption else None)
  {
    if id in s then s[id].caption else None
  }

  /** `set_caption`, and `del_caption` as `SetCaption(s, id, None)`: an
      unset field reads back as `None` just like a null one. */
  function SetCaption(s: Store, id: int, caption: Option<string>): (r: Store)
    ensures OnlyUserChanged(s, r, id)
    ensures GetCaption(r, id) == (if id in s then caption else None)
    ensures id in s ==> r[id] == s[id].(caption := caption)
  {
    if id in s then s[id := s[id].(caption := caption)] else s
  }

  function GetThumbnail(s: Store, id: int): (r: Option<string>)
    ensures r == (if id in s then s[id].thumbnail else None)
  {
    if id in s then s[id].thumbnail else None
  }

  /** `set_thumbnail`, and `del_thumbnail` as `SetThumbnail(s, id, None)`. */
  function SetThumbnail(s: Store, id: int, thumbnail: Option<string>): (r: Store)
    ensures OnlyUserChanged(s, r, id)
    ensures GetThumbnail(r, id) == (if id in s then thumbnail else None)
    ensures id in s ==> r[id] == s[id].(thumbnail := thumbnail)
  {
    if id in s then s[id := s[id].(thumbnail := thumbnail)] else s
  }

  function SetDumpChat(s: Store, id: int, chat: int): (r: Store)
    ensures OnlyUserChanged(s, r, id)
    ensures id in s ==> r[id] == s[id].(dumpChat := Some(chat))
    ensures id !in s ==> r == s
  {
    if id in s then s[id := s[id].(dumpChat := Some(chat))] else s
  }

  // ---------------------------------------------------------------------
  // Ban state
  // ---------------------------------------------------------------------

  function BanUser(s: Store, id: int): (r: Store)
    ensures OnlyUserChanged(s, r, id)
    ensures id in s ==> r[id] == s[id].(isBanned := true)
    ensures IsBanned(r, id) <==> id in s
  {
    if id in s then s[id := s[id].(isBanned := true)] else s
  }

  function UnbanUser(s: Store, id: int): (r: Store)
    ensures OnlyUserChanged(s, r, id)
    ensures id in s ==> r[id] == s[id].(isBanned := false)
    ensures !IsBanned(r, id)
  {
    if id in s then s[id := s[id].(isBanned := false)] else s
  }

  /** `is_banned`: an unknown user is not banned. */
  function IsBanned(s: Store, id: int): bool {
    id in s && s[id].isBanned
  }

  /** `is_banned` agrees with the banned-users query, and an unknown user
      is not banned. */
  lemma BannedAgreesWithQuery(s: Store, id: int)
    ensures IsBanned(s, id) <==> id in Selected(s, BannedFlagged)
    ensures IsBanned(s, id) <==> id in Cursor(s, BannedFlagged)
    ensures id !in s ==> !IsBanned(s, id)
  {
  }

  // ---------------------------------------------------------------------
  // Premium state
  // ---------------------------------------------------------------------

  /** `add_premium`: grant until `expiry` and start a fresh quota window. */
  function AddPremium(s: Store, id: int, expiry: Time): (r: Store)
    ensures OnlyUserChanged(s, r, id)
    ensures id in s ==> r[id] == s[id].(isPremium := true, premiumExpiry := Some(expiry),
                                         dailyUsage := 0, limitResetTime := None)
    ensures id !in s ==> r == s
  {
    if id in s then
      s[id := s[id].(isPremium := true, premiumExpiry := Some(expiry), dailyUsage := 0, limitResetTime := None)]
    else s
  }

  /** `remove_premium`: clears the flag and the expiry, nothing else. */
  function RemovePremium(s: Store, id: int): (r: Store)
    ensures OnlyUserChanged(s, r, id)
    ensures id in s ==> r[id] == s[id].(isPremium := false, premiumExpiry := None)
    ensures id !in s ==> r == s
  {
    if id in s then s[id := s[id].(isPremium := false, premiumExpiry := None)] else s
  }

  /** `is_premium`: the answer is whether a grant is running at `now`; a
      flagged user whose grant is not running is downgraded on the spot.
      The second component is the store after the call. */
  function IsPremium(s: Store, id: int, now: Time): (r: (bool, Store))
    ensures r.0 <==> id in s && PremiumActive(s[id], now)
    ensures id !in s || !s[id].isPremium ==> r.1 == s
    ensures r.0 ==> r.1 == s
    ensures id in s && s[id].isPremium && !r.0 ==> r.1 == RemovePremium(s, id)
  {
    if id in s && s[id].isPremium then
      var expiry := s[id].premiumExpiry;
      if expiry.Some? && now < expiry.value then (true, s)
      else (false, RemovePremium(s, id))
    else (false, s)
  }

  /** The lazy downgrade happens at most once: asking again at the same
      time gives the same answer and changes nothing. */
  lemma IsPremiumSettles(s: Store, id: int, now: Time)
    ensures IsPremium(IsPremium(s, id, now).1, id, now) == (IsPremium(s, id, now).0, IsPremium(s, id, now).1)
  {
  }

  /** Once a grant has run out it stays out: at any later time the answer is
      still no and the store is not changed again. */
  lemma ExpiredStaysExpired(s: Store, id: int, now: Time, later: Time)
    requires now <= later
    requires !IsPremium(s, id, now).0
    ensures IsPremium(IsPremium(s, id, now).1, id, later) == (false, IsPremium(s, id, now).1)
  {
  }

  /** The premium transitions keep the record invariants. */
  lemma PremiumTransitionsPreserveWellFormed(s: Store, id: int, now: Time, expiry: Time)
    requires StoreWellFormed(s)
    ensures StoreWellFormed(IsPremium(s, id, now).1)
    ensures StoreWellFormed(AddPremium(s, id, expiry))
    ensures StoreWellFormed(RemovePremium(s, id))
  {
  }

  /** The single-field setters and the deletion keep the record invariants. */
  lemma SettersPreserveWellFormed(s: Store, id: int, chat: int, v: Option<string>)
    requires StoreWellFormed(s)
    ensures StoreWellFormed(BanUser(s, id)) && StoreWellFormed(UnbanUser(s, id))
    ensures StoreWellFormed(SetSession(s, id, v)) && StoreWellFormed(SetCaption(s, id, v))
    ensures StoreWellFormed(SetThumbnail(s, id, v)) && StoreWellFormed(SetDumpChat(s, id, chat))
    ensures StoreWellFormed(DeleteUser(s, id))
  {
  }

  /** Unbanning undoes a ban of a user who was not banned. */
  lemma UnbanUndoesBan(s: Store, id: int)
    requires id in s && !s[id].isBanned
    ensures UnbanUser(BanUser(s, id), id) == s
  {
    assert UnbanUser(BanUser(s, id), id)[id] == s[id];
  }

  /** Banning undoes an unban of a banned user. */
  lemma BanUndoesUnban(s: Store, id: int)
    requires id in s && s[id].isBanned
    ensures BanUser(UnbanUser(s, id), id) == s
  {
    assert BanUser(UnbanUser(s, id), id)[id] == s[id];
  }

  // ---------------------------------------------------------------------
  // Delete-word list and replace-word map
  // ---------------------------------------------------------------------

  predicate NoDuplicates(xs: seq<string>) {
    forall i, j :: 0 <= i < j < |xs| ==> xs[i] != xs[j]
  }

  /** `$addToSet` with `$each`: each word, in order, is appended unless it
      is already there. */
  function AddToSet(list: seq<string>, words: seq<string>): (r: seq<string>)
    ensures |list| <= |r| && r[..|list|] == list
    ensures forall w :: w in r <==> w in list || w in words
    ensures NoDuplicates(list) ==> NoDuplicates(r)
    decreases |words|
  {
    if |words| == 0 then list
    else if words[0] in list then AddToSet(list, words[1..])
    else AddToSet(list + [words[0]], words[1..])
  }

  /** `$pull` with `$in`: every occurrence of every listed word goes. */
  function PullAll(list: seq<string>, words: seq<string>): (r: seq<string>)
    ensures |r| <= |list|
    ensures forall w :: w in r <==> w in list && w !in words
    ensures NoDuplicates(list) ==> NoDuplicates(r)
  {
    if |list| == 0 then []
    else if list[0] in words then PullAll(list[1..], words)
    else [list[0]] + PullAll(list[1..], words)
  }

  function SetDeleteWords(s: Store, id: int, words: seq<string>): (r: Store)
    ensures OnlyUserChanged(s, r, id)
    ensures id in s ==> r[id] == s[id].(deleteWords := AddToSet(s[id].deleteWords, words))
  {
    if id in s then s[id := s[id].(deleteWords := AddToSet(s[id].deleteWords, words))] else s
  }

  function RemoveDeleteWords(s: Store, id: int, words: seq<string>): (r: Store)
    ensures OnlyUserChanged(s, r, id)
    ensures id in s ==> r[id] == s[id].(deleteWords := PullAll(s[id].deleteWords, words))
  {
    if id in s then s[id := s[id].(deleteWords := PullAll(s[id].deleteWords, words))] else s
  }

  /** `dict.update`: new pairs overwrite, the other keys stay. */
  function Merge(current: map<string, string>, repl: map<string, string>): (r: map<string, string>)
    ensures r.Keys == current.Keys + repl.Keys
    ensures forall k :: k in repl ==> r[k] == repl[k]
    ensures forall k :: k in current && k !in repl ==> r[k] == current[k]
  {
    current + repl
  }

  /** `pop(w, None)` for each listed word: missing keys are ignored. */
  function DropKeys(current: map<string, string>, words: seq<string>): (r: map<string, string>)
    ensures forall k :: k in r <==> k in current && k !in words
    ensures forall k :: k in r ==> r[k] == current[k]
  {
    map k | k in current && k !in words :: current[k]
  }

  function SetReplaceWords(s: Store, id: int, repl: map<string, string>): (r: Store)
    ensures OnlyUserChanged(s, r, id)
    ensures id in s ==> r[id] == s[id].(replaceWords := Merge(s[id].replaceWords, repl))
    ensures id !in s ==> r == s
  {
    if id in s then s[id := s[id].(replaceWords := Merge(s[id].replaceWords, repl))] else s
  }

  function RemoveReplaceWords(s: Store, id: int, words: seq<string>): (r: Store)
    ensures OnlyUserChanged(s, r, id)
    ensures id in s ==> r[id] == s[id].(replaceWords := DropKeys(s[id].replaceWords, words))
    ensures id !in s ==> r == s
  {
    if id in s then s[id := s[id].(replaceWords := DropKeys(s[id].replaceWords, words))] else s
  }

  /** Adding words to the delete list is idempotent. */
  lemma {:induction false} AddToSetIdempotent(list: seq<string>, words: seq<string>)
    ensures AddToSet(AddToSet(list, words), words) == AddToSet(list, words)
  {
    var once := AddToSet(list, words);
    AddToSetAllPresent(once, words);
  }

  lemma {:induction false} AddToSetAllPresent(list: seq<string>, words: seq<string>)
    requires forall w :: w in words ==> w in list
    ensures AddToSet(list, words) == list
    decreases |words|
  {
    if |words| > 0 {
      assert words[0] in list;
      AddToSetAllPresent(list, words[1..]);
    }
  }

  /** Removing the words just added leaves exactly the words that were
      there before and are not among them. */
  lemma AddThenPull(list: seq<string>, words: seq<string>)
    ensures forall w :: w in PullAll(AddToSet(list, words), words) <==> w in list && w !in words
  {
  }

  // ---------------------------------------------------------------------
  // Cursors and aggregates
  // ---------------------------------------------------------------------

  /** `m` is the least element of `ks`. */
  predicate IsMin(m: int, ks: set<int>) {
    m in ks && forall k :: k in ks ==> m <= k
  }

  /** A set holding `w` has a least element: either `w` itself or the least
      element of the set without `w`. */
  lemma MinExists(ks: set<int>, w: int)
    requires w in ks
    ensures exists m :: IsMin(m, ks)
    decreases |ks|
  {
    if forall k :: k in ks ==> w <= k {
      assert IsMin(w, ks);
    } else {
      var y :| y in ks && y < w;
      var rest := ks - {w};
      assert y in rest;
      MinExists(rest, y);
      var m :| IsMin(m, rest);
      forall k | k in ks ensures m <= k {
        if k != w {
          assert k in rest;
        }
      }
      assert IsMin(m, ks);
    }
  }

  lemma HasElement(ks: set<int>)
    requires |ks| > 0
    ensures exists w :: w in ks
  {
    if forall w: int :: w !in ks {
      assert false;
    }
  }

  function MinKey(ks: set<int>): (m: int)
    requires |ks| > 0
    ensures IsMin(m, ks)
  {
    HasElement(ks);
    var w :| w in ks;
    MinExists(ks, w);
    var m :| IsMin(m, ks); m
  }

  predicate StrictlyAscending(xs: seq<int>) {
    forall i, j :: 0 <= i < j < |xs| ==> xs[i] < xs[j]
  }

  /** The ids of a set in ascending order. */
  function SortedIds(ks: set<int>): (r: seq<int>)
    ensures |r| == |ks|
    ensures forall k :: k in r <==> k in ks
    ensures StrictlyAscending(r)
    decreases |ks|
  {
    if |ks| == 0 then []
    else
      var m := MinKey(ks);
      [m] + SortedIds(ks - {m})
  }

  /** The three queries the bot runs over the collection. */
  datatype Filter = AllUsers | PremiumFlagged | BannedFlagged

  predicate Selects(f: Filter, u: UserRecord) {
    match f
    case AllUsers => true
    case PremiumFlagged => u.isPremium
    case BannedFlagged => u.isBanned
  }

  function Selected(s: Store, f: Filter): set<int> {
    set id | id in s && Selects(f, s[id])
  }

  /** `find(...)` as a sequence of ids: every selected user once.  MongoDB's
      natural order is not modelled; ascending id order stands in for it. */
  function Cursor(s: Store, f: Filter): (r: seq<int>)
    ensures forall id :: id in r <==> id in s && Selects(f, s[id])
    ensures StrictlyAscending(r)
    ensures |r| == |Selected(s, f)|
  {
    SortedIds(Selected(s, f))
  }

  /** `count_documents(...)`: the number of matching records. */
  function Count(s: Store, f: Filter): nat
  {
    |Selected(s, f)|
  }

  /** A count is as long as the matching cursor, never more than the whole
      collection, and all of it for the empty query. */
  lemma CountBounds(s: Store, f: Filter)
    ensures Count(s, f) == |Cursor(s, f)|
    ensures Count(s, f) <= |s|
    ensures f == AllUsers ==> Count(s, f) == |s|
  {
    var sel := Selected(s, f);
    assert sel <= s.Keys;
    SubsetCard(sel, s.Keys);
    SelectedAll(s);
  }

  /** The empty query selects every record. */
  lemma SelectedAll(s: Store)
    ensures Selected(s, AllUsers) == s.Keys
  {
    assert s.Keys <= Selected(s, AllUsers) by {
      forall id | id in s.Keys ensures id in Selected(s, AllUsers) {
        assert Selects(AllUsers, s[id]);
      }
    }
  }

  lemma {:induction false} SubsetCard(a: set<int>, b: set<int>)
    requires a <= b
    ensures |a| <= |b|
    decreases |b|
  {
    if b != {} {
      HasElement(b);
      var x :| x in b;
      SubsetCard(a - {x}, b - {x});
    }
  }

  /** Sum of `daily_usage` over the given users. */
  function TotalUsage(s: Store, ids: seq<int>): nat {
    if |ids| == 0 then 0
    else (if ids[0] in s then s[ids[0]].dailyUsage else 0) + TotalUsage(s, ids[1..])
  }

  /** The number of the given users for which `has` holds of the session. */
  function CountSessions(s: Store, ids: seq<int>, has: Option<string> -> bool): nat {
    if |ids| == 0 then 0
    else (if ids[0] in s && has(s[ids[0]].session) then 1 else 0) + CountSessions(s, ids[1..], has)
  }

  // The two aggregates again, over sets of ids and without any order, as
  // the reference the cursor loops are compared with.

  function UsageOf(s: Store, id: int): nat {
    if id in s then s[id].dailyUsage else 0
  }

  /** Some member of a non-empty set, none in particular. */
  ghost function Pick(ks: set<int>): (k: int)
    requires ks != {}
    ensures k in ks
  {
    HasElement(ks);
    var k :| k in ks; k
  }

  /** Sum of `daily_usage` over a set of users, taken in no particular order. */
  ghost function SumUsage(s: Store, ks: set<int>): nat
    decreases |ks|
  {
    if ks == {} then 0
    else
      var k := Pick(ks);
      UsageOf(s, k) + SumUsage(s, ks - {k})
  }

  /** The users a filter selects whose session satisfies `has`. */
  function SessionHolders(s: Store, f: Filter, has: Option<string> -> bool): set<int> {
    SessionsAmong(s, Selected(s, f), has)
  }

  /** The users of `ks` with a record whose session satisfies `has`. */
  function SessionsAmong(s: Store, ks: set<int>, has: Option<string> -> bool): set<int> {
    set id | id in ks && id in s && has(s[id].session)
  }

  /** The ids of `ks` that satisfy `p`. */
  function Filtered(ks: set<int>, p: int -> bool): set<int> {
    set id | id in ks && p(id)
  }

  predicate Distinct(ids: seq<int>) {
    forall i, j :: 0 <= i < j < |ids| ==> ids[i] != ids[j]
  }

  function Elems(ids: seq<int>): set<int> {
    set id | id in ids
  }

  /** How many of `ids` satisfy `p`, counted along the sequence. */
  function CountIds(ids: seq<int>, p: int -> bool): nat {
    if |ids| == 0 then 0 else (if p(ids[0]) then 1 else 0) + CountIds(ids[1..], p)
  }

  /** Counted along distinct ids, that is the size of the set of ids that
      satisfy `p`. */
  lemma {:induction false} CountIdsIsCard(ids: seq<int>, p: int -> bool)
    requires Distinct(ids)
    ensures CountIds(ids, p) == |Filtered(Elems(ids), p)|
  {
    if |ids| > 0 {
      assert Distinct(ids[1..]);
      CountIdsIsCard(ids[1..], p);
      FirstNotInRest(ids);
      ElemsCons(ids);
      FilteredAdd(ids[0], Elems(ids[1..]), p);
    }
  }

  /** Filtering a set with one more element adds that element exactly
      when it passes. */
  lemma FilteredAdd(x: int, ks: set<int>, p: int -> bool)
    requires x !in ks
    ensures |Filtered({x} + ks, p)| == (if p(x) then 1 else 0) + |Filtered(ks, p)|
  {
    if p(x) {
      assert Filtered({x} + ks, p) == Filtered(ks, p) + {x};
    } else {
      assert Filtered({x} + ks, p) == Filtered(ks, p);
    }
  }

  lemma SessionsAdd(s: Store, x: int, ks: set<int>, has: Option<string> -> bool)
    requires x !in ks
    ensures |SessionsAmong(s, {x} + ks, has)|
            == (if x in s && has(s[x].session) then 1 else 0) + |SessionsAmong(s, ks, has)|
  {
    if x in s && has(s[x].session) {
      assert SessionsAmong(s, {x} + ks, has) == SessionsAmong(s, ks, has) + {x};
    } else {
      assert SessionsAmong(s, {x} + ks, has) == SessionsAmong(s, ks, has);
    }
  }

  lemma ElemsCons(ids: seq<int>)
    requires |ids| > 0
    ensures Elems(ids) == {ids[0]} + Elems(ids[1..])
  {
    assert forall i :: 0 <= i < |ids[1..]| ==> ids[1..][i] == ids[i + 1];
  }

  /** A cursor holds exactly the ids its filter selects. */
  lemma CursorElems(s: Store, f: Filter)
    ensures Elems(Cursor(s, f)) == Selected(s, f)
  {
  }

  /** A cursor never yields an id twice. */
  lemma CursorDistinct(s: Store, f: Filter)
    ensures Distinct(Cursor(s, f))
  {
    var ids := Cursor(s, f);
    forall i, j | 0 <= i < j < |ids| ensures ids[i] != ids[j] {
      assert ids[i] < ids[j];
    }
  }

  /** In a sequence of distinct ids the first does not occur again, and the
      rest are distinct too. */
  lemma FirstNotInRest(ids: seq<int>)
    requires Distinct(ids) && |ids| > 0
    ensures ids[0] !in ids[1..]
    ensures Distinct(ids[1..])
  {
    forall j | 0 <= j < |ids| - 1 ensures ids[1..][j] != ids[0] {
      assert ids[1..][j] == ids[j + 1];
    }
  }

  /** Any member can be taken out first: the sum does not depend on the
      order of the users. */
  lemma {:induction false} SumUsageRemove(s: Store, ks: set<int>, j: int)
    requires j in ks
    ensures SumUsage(s, ks) == UsageOf(s, j) + SumUsage(s, ks - {j})
    decreases |ks|
  {
    var k := Pick(ks);
    assert SumUsage(s, ks) == UsageOf(s, k) + SumUsage(s, ks - {k});
    if k != j {
      SumUsageRemove(s, ks - {k}, j);
      SumUsageRemove(s, ks - {j}, k);
      assert ks - {k} - {j} == ks - {j} - {k};
    }
  }

  /** Summing along a sequence of distinct ids gives the order-free sum
      over the ids it holds. */
  lemma {:induction false} TotalUsageIsSum(s: Store, ids: seq<int>)
    requires Distinct(ids)
    ensures TotalUsage(s, ids) == SumUsage(s, Elems(ids))
  {
    if |ids| > 0 {
      assert Distinct(ids[1..]);
      TotalUsageIsSum(s, ids[1..]);
      SumUsageRemove(s, Elems(ids), ids[0]);
      assert Elems(ids) - {ids[0]} == Elems(ids[1..]) by {
        assert forall i :: 0 <= i < |ids[1..]| ==> ids[1..][i] == ids[i + 1];
      }
    }
  }

  /** Counting along a sequence of distinct ids gives the size of the set
      of those ids whose session satisfies `has`. */
  lemma {:induction false} CountSessionsIsCard(s: Store, ids: seq<int>, has: Option<string> -> bool)
    requires Distinct(ids)
    ensures CountSessions(s, ids, has) == |SessionsAmong(s, Elems(ids), has)|
  {
    if |ids| > 0 {
      assert Distinct(ids[1..]);
      CountSessionsIsCard(s, ids[1..], has);
      FirstNotInRest(ids);
      ElemsCons(ids);
      SessionsAdd(s, ids[0], Elems(ids[1..]), has);
    }
  }

  /** The cursor's running sum of `daily_usage` is the sum over the users
      the filter selects. */
  lemma CursorUsage(s: Store, f: Filter)
    ensures TotalUsage(s, Cursor(s, f)) == SumUsage(s, Selected(s, f))
  {
    TotalUsageIsSum(s, Cursor(s, f));
    CursorElems(s, f);
  }

  /** The cursor's running session count is the number of selected users
      whose session satisfies `has`. */
  lemma CursorSessions(s: Store, f: Filter, has: Option<string> -> bool)
    ensures CountSessions(s, Cursor(s, f), has) == |SessionHolders(s, f, has)|
  {
    CountSessionsIsCard(s, Cursor(s, f), has);
    CursorElems(s, f);
  }
}

=== FILE: wrappers.dfy ===
/** Failure-compatible helper datatypes shared by the model: Python's `None`
    becomes `None`, and a present value is wrapped in `Some`. */
module Wrappers {

  datatype Option<+T> = None | Some(value: T) {

    /** The value, or `default` when absent (Python's `d.get(k, default)`). */
    function GetOr(default: T): T {
      match this
      case Some(v) => v
      case None => default
    }
  }
}
